=== FILE: README.md ===
# File-sharing server: request handling, modelled in Dafny

This project models three versions of a small Python HTTP file-sharing
server: `server_v.4.py`, `server_v.3.py` and `server_v.1.py`. Each version
serves a shared folder (`./shared`), a note kept beside it (`note.txt`) and
an upload form. The model covers each version's request handling:

- how a client-supplied name becomes a path below the shared folder (`secure_path`, `translate_path`);
- which directory entries are listed, in what order, and with which links;
- how an upload batch is saved and reported;
- how the note is read, decoded and saved;
- how `do_GET` and `do_POST` dispatch a request to these handlers.

The filesystem is an immutable map from absolute, normalised paths to
`File(bytes) | Dir`. The working directory is a list of plain path
components `cs`: `Rooted(cs)` is what `os.getcwd()` returns, and the shared
root is `Rooted(cs + ["shared"])`. The library code the handlers lean on is
modelled from its documented behaviour:

- `posixpath.normpath`, `join`, `abspath`, `basename` and `dirname`;
- `urllib.parse.quote` and `unquote`, with the unreserved set of section 2.3 of RFC 3986;
- `parse_qs` / `parse_qsl`, and the `+` form encoding a browser uses;
- UTF-8 as in RFC 3629;
- text-mode newline translation and `str.strip`.

Modules, in dependency order:

| file | module | what it holds |
|---|---|---|
| wrappers.dfy | Wrappers | `Option`, `Result` |
| utf8.dfy | Utf8 | `str.encode('utf-8')` and strict decoding, with the round trip |
| text.dfy | Text | prefixes, `split`, `replace`, `strip`, ASCII `lower`, newline translation |
| percent.dfy | Percent | `quote`, `unquote` |
| form.dfy | Form | form encoding and `parse_qs` first values |
| posix_path.dfy | PosixPath | `normpath`, `join`, `abspath`, `basename`, `dirname` |
| path_resolver.dfy | PathResolver | `secure_path` and `translate_path` |
| file_store.dfy | FileStore | the filesystem map, reads and writes |
| sorting.dfy | Sorting | Python's `str` order and a stable sort by key |
| listing.dfy | Listing | `is_hidden`, `/api/files`, the HTML listings of v3 and v1 |
| http.dfy | Http | responses |
| note_store.dfy | NoteStore | the note and the last-change stamp in all three versions |
| upload_handler.dfy | UploadHandler | the uploads of all three versions |
| request_router.dfy | RequestRouter | `do_GET` / `do_POST` dispatch |

## Model

| member | source | states |
|---|---|---|
| Listing.HiddenExactly | server_v.4.py:24-31 | a name is hidden exactly when it equals one of the five HIDDEN_PATTERNS strings (the literal `.~lock.*` included) or starts with `.~lock` |
| PathResolver.SecurePath | server_v.4.py:65-85 | the empty name, `.` and `..` are refused before any decoding, and no accepted path lies outside `abspath(base)` on a separator boundary |
| PathResolver.SecurePathResolves | server_v.4.py:67-85 | below a normalised working directory the final containment test never fires: a name is accepted iff it passes the literal check and its decoded, normalised form is neither absolute nor starts with `..`, and the result is the shared root followed by the plain components of the decoded name |
| PathResolver.DotDotNameRefused | server_v.4.py:72-76 | any plain name starting with `..` (such as `..foo`) is refused as a traversal |
| PathResolver.SecurePathOfQuotedName | server_v.4.py:72-85 | the quoted form of a listed plain ASCII name resolves to that name below the shared root, unless the name starts with `..` |
| Listing.ApiFilesLists | server_v.4.py:122-136 | the file list holds one entry per listed name that is not hidden and is a regular file, each with url `/shared/` + quote(name); the names are the shown names in stable case-insensitive order |
| Listing.ApiFilesOfDirectory | server_v.4.py:122-136 | against the actual directory, a name is listed iff the shared folder holds a regular file of that name that is not hidden |
| Listing.ListedLinkResolves | server_v.4.py:133 | each listed ASCII name's link resolves through `secure_path` to the listed file, except that a name starting with `..` is refused although it is listed |
| RequestRouter.FileListReply | server_v.4.py:122-139 | a listing error gives 500 "Could not list files."; otherwise 200, with the shown names in case-insensitive order |
| RequestRouter.MainPage | server_v.4.py:142-154 | 200 with the stored template iff it is a regular file; 404 iff it does not exist; otherwise 500 |
| RequestRouter.SharedDownload | server_v.4.py:157-178 | a name `secure_path` refuses gives 403 and an accepted name that is not a regular file gives 404; an accepted regular file is handed to the base class, which opens the base translation of its path relative to the working directory, not the validated path itself |
| RequestRouter.SharedDownloadCorrected | server_v.4.py:157-178 | with the validated path handed over as it is, the same 403 and 404 cases hold and what is served is a regular file within the shared root |
| RequestRouter.GetV4 | server_v.4.py:105-193 | a path under `/shared/` is served only after its name was accepted as a regular file, a 403 only happens under `/shared/`, and any unrouted path is opened where the base class's `translate_path` puts it |
| RequestRouter.GetV4Corrected | server_v.4.py:157-184 | with the corrected download, anything served under `/shared/` is a regular file within the shared root, and every other path is answered as the code answers it |
| RequestRouter.GetV4Inside | server_v.4.py:157-184 | whatever is requested, a file handed to the base class lies in the working directory or below it; the shared folder is no boundary for `GET`, since the fallback at line 184 serves the whole directory |
| RequestRouter.DownloadResolves | server_v.4.py:157-173 | `GET /shared/x` gives 403 exactly when x fails the literal or the traversal check, and is handed over exactly when the decoded, normalised x names a regular file below the shared root; the base class then opens the base translation of `shared/` + those components, which is that file when it holds no '%', '?' or '#' and does not end in a space |
| RequestRouter.DownloadResolvesCorrected | server_v.4.py:157-173 | with the corrected download the same 403 and hand-over conditions hold, and the file served is always the decoded, normalised x below the shared root |
| RequestRouter.ListedFileDownloads | server_v.4.py:122-173 | the link of every listed ASCII entry whose name starts with `..` gets 403; any other is served as the base translation of `shared/` + name, which is the listed file itself when the name holds no '%', '?' or '#' and does not end in a space |
| RequestRouter.ListedFileDownloadsCorrected | server_v.4.py:122-173 | with the corrected download every listed ASCII entry is fetched through its own link, except a name starting with `..`, which gets 403 |
| RequestRouter.DownloadEscapes | server_v.4.py:165-167 | a listed file named `%2E%2E%2Fx` is requested through its link `/shared/%252E%252E%252Fx`, and the base class serves `x` in the working directory instead (the note file when x is `note.txt`); the corrected download serves the requested file |
| RequestRouter.EntryServed | server_v.4.py:160-167 | an accepted regular file `shared/n` is handed over as the base translation of `shared/` + n, which is the file itself when n needs no decoding |
| PosixPath.RelPathBelow | server_v.4.py:166 | relative to the working directory, a path below it is the '/'-join of the components it adds |
| PathResolver.BaseTranslateInside | server_v.4.py:166-167 | whatever relative path line 166 hands over, the base translation lies in the working directory or on a component boundary below it |
| PathResolver.BaseTranslatePlain | server_v.4.py:166-167 | the '/'-join of plain components with no '%', '?' or '#' and no trailing space translates back to exactly those components below the working directory |
| PathResolver.SharedEntryPlain | server_v.4.py:166-167 | `shared/n`, for a plain n that needs no decoding, translates to the entry n of the shared root |
| PathResolver.BaseTranslateEncodedParent | server_v.4.py:166-167 | `shared/%2E%2E%2Fx` is decoded to `shared/../x` and translates to `x` in the working directory |
| NoteStore.LastChange | server_v.4.py:35-43 | the stamp is present iff the stamp file reads as text, and is then its stripped content |
| NoteStore.UpdateLastChange | server_v.4.py:45-54 | the stamp is returned iff writing it succeeds; a failed write changes nothing, and no other file changes |
| NoteStore.StampReadBack | server_v.4.py:35-54 | reading the stamp after writing it gives the written time, stripped |
| NoteStore.StoredNote | server_v.4.py:110-117 | the note is the file's text when it reads, and empty otherwise |
| NoteStore.NoteValue | server_v.4.py:200-221 | in the code's order: a missing or zero length gives 400 "No data received.", a malformed length gives the catch-all 500, a body that is not UTF-8 or a JSON value that is not an object gives 500 "Could not save note: ", invalid JSON gives 400, a missing `note` key gives the empty string, and otherwise the value under `note` |
| NoteStore.SaveNoteMissingKey | server_v.4.py:207-215 | a JSON object without a `note` key saves the empty note: 200, and the note file is then empty |
| NoteStore.SaveNote | server_v.4.py:200-221 | every outcome is a reply, a 400 changes nothing, and only the note and the stamp files can change |
| NoteStore.SaveNoteSucceeds | server_v.4.py:205-215 | a save gives 200 iff the request carries a string note and the note file can be written |
| NoteStore.FailedSaveTruncates | server_v.4.py:208-211 | a failed save that changed the filesystem was given a non-string note, which truncated the file before the write raised (see also lines 219-221) |
| NoteStore.NoteRoundTrip | server_v.4.py:200-215 | after a 200 save, `GET /api/note` returns the saved note with line ends translated, and the stamp written (see also lines 109-119) |
| RequestRouter.PostV4 | server_v.4.py:196-301 | every POST gets a reply; only the shared folder, the note and the stamp change; an unknown path gives 404 and changes nothing |
| RequestRouter.NoteThroughRoutes | server_v.4.py:200-215 | a note saved through `do_POST` is what `do_GET /api/note` returns next, with line ends translated (see also lines 109-119) |
| UploadHandler.SaveItem | server_v.4.py:247-267 | a part without a file name changes nothing; otherwise exactly one of the saved list and the error list grows by one; an error is "Blocked" exactly when `secure_path` (or a NUL in the path) refuses the basename; the filesystem changes only if a name was saved, and then only at that name's target |
| UploadHandler.SaveItemSaved | server_v.4.py:252-257 | a saved name is the basename of the part's file name, a plain name, and its target is now a regular file holding the part's content |
| UploadHandler.SaveItemFrame | server_v.4.py:253-256 | one pass changes nothing outside the shared folder |
| UploadHandler.SaveItemStored | server_v.4.py:247-257 | a pass keeps every earlier saved name stored as a file |
| UploadHandler.SaveItems | server_v.4.py:238-267 | each named part is counted once, as a saved name or as an error; the only entries that change are the targets of the names saved in this run, so nothing outside the shared folder changes; the filesystem is unchanged when nothing was saved |
| UploadHandler.Upload | server_v.4.py:224-288 | every outcome is a reply; a non-200 changes nothing; only the shared folder and the stamp can change (see also lines 299-301) |
| UploadHandler.UploadFrame | server_v.4.py:238-279 | the only entries an upload changes are the stamp file and the targets of the names its reply lists as uploaded |
| UploadHandler.UploadOutcome | server_v.4.py:241-283 | 200 iff the request is well formed and at least one part was saved; then every named part is reported once, and every saved name is a plain name whose file is in place (see also line 226) |
| UploadHandler.UploadStatus | server_v.4.py:224-288 | no `Content-Type`, a missing boundary, a missing or malformed length, or a body the parser rejects gives the catch-all 500; another media type gives 400 "Invalid content type..."; no `files[]` field gives 400; a batch that saved nothing gives 400 listing its errors, or "No valid files were uploaded." when there were none; none of these changes anything; a 200 carries the stamp just written (see also lines 299-301) |
| PathResolver.TranslatePathAsWritten | server_v.3.py:70-79 | the result is the sentinel, or it starts with the shared root as text (see also lines 30-32, 65) |
| PathResolver.TranslatePath | server_v.3.py:70-79 | the result is the sentinel or lies within the shared root, and it agrees with the code whenever the code's result really lies within the root |
| PathResolver.TranslateRootedTarget | server_v.3.py:70-79 | a request target that is absolute once the query and fragment are dropped resolves below the shared root to its plain components, and the code and the corrected test agree on it (see also lines 30-32) |
| PathResolver.TranslateSiblingEscapes | server_v.3.py:74 | the request target `../s/t`, for any folder name `s` that starts with `shared`, reaches `cwd/s/t` outside the shared root as written, and the corrected test sends it to the sentinel |
| PathResolver.SiblingExample | server_v.3.py:74 | as written, `../shared2/secret.txt` reaches a file outside the shared root |
| Listing.ListDirectoryV3Spec | server_v.3.py:366-396 | 403 for any folder but the shared one, 404 when it cannot be read; listed entries are never directories, lock files, `note.txt` or `nots.txt`, every visible name is listed, links are `/` + quote(name), order is case-insensitive, and the "No files found" item appears iff the directory is empty (see also lines 83-96) |
| Listing.OnlyHiddenV3 | server_v.3.py:367-380 | a folder holding only hidden names shows neither items nor the notice |
| NoteStore.PageNoteV3 | server_v.3.py:98-106 | the page shows the note file's text, nothing when it is missing, and "Error loading notes." when it exists but cannot be read |
| NoteStore.SaveNoteV3 | server_v.3.py:481-503 | a redirect to `/` iff the body could be read, even when the write fails; otherwise the catch-all 500 with nothing changed; only the note file can change |
| NoteStore.SaveNoteV3Stores | server_v.3.py:485-498 | what is written is the value of the first `note` field of the body, or the empty note when there is none; a failed write changes nothing |
| NoteStore.SaveNoteV3NoField | server_v.3.py:485-503 | a readable body without a `note` field empties the note file when it can be written, and the reply is still the redirect |
| NoteStore.NoteRoundTripV3 | server_v.3.py:481-503 | a note posted from the page's form is on the next page, with line ends translated (see also lines 98-106) |
| UploadHandler.UploadV3 | server_v.3.py:439-479 | the reply is a redirect to `/` or the catch-all 500, and a 500 changes nothing (see also lines 512-515) |
| UploadHandler.UploadV3Outcome | server_v.3.py:439-479 | a missing `file` field or a part without a file name is a redirect with nothing written; a list of parts, an empty basename, a failed prefix test, or the basename `.` or `..` (whose joined path `./shared/.` or `./shared/..` `open` refuses) is a 500 with nothing written; for any other basename the redirect comes exactly when writing its normalised path succeeds, and the filesystem is then that write's |
| UploadHandler.PrefixCheckV3 | server_v.3.py:456-460 | for a non-empty basename the prefix test without a separator passes iff the target is within the shared root |
| UploadHandler.UploadV3Confined | server_v.3.py:448-469 | an upload changes nothing outside the shared folder |
| UploadHandler.UploadV3Stores | server_v.3.py:452-479 | for a plain basename the reply is a redirect iff writing `root/basename` succeeds, and the file then holds the part's content |
| RequestRouter.ListingReply | server_v.3.py:83-96 | 403, 404 and 200 correspond exactly to a refused folder, an unreadable one and a page (see also lines 408-418) |
| RequestRouter.GetV3 | server_v.3.py:421-433 | `/` is answered directly and never with 403; every other path is served through the code's `translate_path`, at the sentinel or at a path whose text starts with the shared root's (see also line 74) |
| RequestRouter.GetV3Corrected | server_v.3.py:421-433 | with the separator-bounded test, every other path is served at the sentinel or within the shared root, and the answer is the code's own whenever the code's file already lies within the root |
| RequestRouter.GetV3SiblingEscape | server_v.3.py:74 | as written, `GET ../shared2/secret.txt` serves `cwd/shared2/secret.txt`, outside the shared root; the corrected route sends it to the sentinel |
| RequestRouter.MainListingV3 | server_v.3.py:86-106 | the main page is never refused, is 404 iff the folder cannot be read, and otherwise shows the stored note, the visible names in order, and the notice iff the folder is empty (see also lines 421-424) |
| RequestRouter.PostV3 | server_v.3.py:437-515 | every POST gets a reply, an unknown path gives 404, and anything but a redirect changes nothing |
| RequestRouter.PostV3Confined | server_v.3.py:437-507 | a POST changes nothing but the shared folder and the note |
| Listing.ListDirectoryV1Spec | server_v.1.py:17-31 | a listed name is never in HIDDEN_FILES, a lock file, a `.py` file or a directory; every other name is listed, in case-insensitive order, linking to `/` + quote(name) and showing the raw name (see also lines 79-91) |
| NoteStore.PageNoteV1 | server_v.1.py:33-36 | the page fails exactly when the note exists but cannot be read, shows the empty note when the file is missing, and otherwise shows its text |
| RequestRouter.ListingReplyV1 | server_v.1.py:24-36 | a listing failure gives 404; a failed note read leaves the request without a reply; a page carries the note and no "No files found" item (see also lines 93-101) |
| RequestRouter.ListingV1Outcome | server_v.1.py:24-36 | the listing fails exactly when the folder was listed but the note exists and cannot be read, and a page shows the stored note |
| NoteStore.NoteFieldV1 | server_v.1.py:122 | a note field is found iff the body contains `note=`; otherwise the IndexError |
| NoteStore.SaveNoteV1 | server_v.1.py:119-127 | a redirect iff the length is given, the body decodes, holds `note=`, and the note can be written; every failure leaves no reply and no change; only the note file can change |
| NoteStore.NoteRoundTripV1 | server_v.1.py:119-127 | an ASCII note without carriage returns, posted from the page's form, is on the next page exactly (see also lines 33-36) |
| UploadHandler.UploadV1 | server_v.1.py:105-118 | the reply is a redirect or none at all, and no reply means no change |
| UploadHandler.UploadV1DirectoryName | server_v.1.py:111-114 | a `file` value whose basename is empty, `.` or `..` (such as `a/`) leaves the request without a reply and changes nothing, whatever the filesystem holds, because the joined path names a directory |
| UploadHandler.UploadV1Confined | server_v.1.py:111-115 | with no check at all the write still stays in the shared folder, because a basename holds no '/' and the joined path for `..` ends in `/..`, which cannot be opened as a file |
| UploadHandler.UploadV1StoresName | server_v.1.py:109-115 | posting a plain file name `f` redirects exactly when `shared/f` can be written, and `shared/f` then holds the name `f` itself, UTF-8 encoded, not a file's content |
| RequestRouter.PostV1AsWritten | server_v.1.py:104 | as written, every POST gets 501 and changes nothing, since the handler class has no `do_POST` |
| RequestRouter.PostV1Unhandled | server_v.1.py:119-127 | a note posted from the page's form is refused with 501 as written, while the intended handler saves it and redirects (see also line 104) |
| RequestRouter.PostV1 | server_v.1.py:104-127 | with `do_POST` as a handler method: a redirect or no reply; no reply means no change; an unknown path gets no reply |
| RequestRouter.PostV1SavesNote | server_v.1.py:119-127 | with the fix, a note posted from the form is on the next listing page (see also lines 33-36) |
| RequestRouter.PostV1Confined | server_v.1.py:104-127 | with the fix, a POST changes nothing but the shared folder and the note |
| FileStore.WriteEntry | server_v.3.py:456-464 | opening `os.path.join(folder, name)` always fails for the name "", `.` or `..`; for any other name it succeeds exactly when writing the normalised path does, and then that file holds the data and nothing else changes |
| FileStore.WriteFile | server_v.4.py:255-256 | a write succeeds iff the path holds no NUL, the target is not a directory and its parent is; a NUL gives the `ValueError`; the target then holds exactly the data and no other path changes |
| FileStore.ReadAfterWriteText | server_v.4.py:110-114 | text read back after a write is what was written, with line ends translated (see also lines 210-211) |
| Percent.UnquoteQuote | server_v.4.py:72 | `unquote(quote(s)) == s` for ASCII s, which is what makes listed links resolve (see also line 133) |
| Form.FormRoundTrip | server_v.3.py:486-488 | decoding the `+`-form encoding of an ASCII string gives it back |
| Form.FirstValue | server_v.3.py:486-488 | the value found is that of the first pair with the key, and there is none only when no pair has the key |
| Form.QueryOfEncoded | server_v.3.py:486-488 | for an ASCII n, the first value of `key=` + encoding of n is n, and there is none when n is empty |
| Utf8.DecodeEncode | server_v.4.py:207 | every string survives UTF-8 encoding and strict decoding |
| Sorting.SortBy | server_v.4.py:135 | the sort returns a permutation, ordered by key, that keeps elements with equal keys in their original order |
| Sorting.FilterSortBy | server_v.3.py:370-386 | filtering a sorted listing gives the sorted filtered listing, so filtering after the sort (v3, v1) and before it (v4) agree (see also line 96) |

## Left out

- TCP server setup, `serve_forever`, port parsing and startup file creation are left out. They are process and network plumbing.
- How `SimpleHTTPRequestHandler` sends a file is left out: MIME types, headers and streaming.
- The base class's `translate_path` and `os.path.relpath` are modelled from their standard-library definitions (`PathResolver.BaseTranslate`, `PosixPath.RelPath`), with `self.directory` the working directory. The base class decodes with `errors='surrogatepass'`; the model uses the same `Unquote` as above.
- What the base class does after translating is left out: Range requests, HEAD, the directory listing and redirect, and the 404 for a file path that ends in '/'. The model stops at `Serve(target)`.
- In server_v.1.py, which folder the base class lists for `GET /` is left out. `RequestRouter.ListingV1` takes that folder as a parameter.
- `cgi.FieldStorage`, `cgi.parse_header` and `json.loads` are left out. Their outcomes are inputs: `ParsedUpload`, `ContentType`, `FileField`, and a `JsonParser` function.
- `datetime.now().isoformat()` is left out. The time is a parameter.
- Request bodies, sockets, `shutil.copyfileobj` and `print` are left out. A part's content is a byte sequence, and the logging has no effect on the outcome.
- Exception texts after "Server error processing request: " and "Could not save note: " are left out. The body records only the prefix (`JsonFault`, `ErrorPageFault`).
- ConnectionResetError and BrokenPipeError handlers are left out. They are transport concerns.
- The HTML, CSS and JavaScript page text is left out. A page is modelled as its list items, its "No files found" item and its note. The note is inserted unescaped, so escaping is not modelled either.
- The dead loop at server_v.3.py:33-48 and the unused `super().translate_path` at server_v.3.py:66 are left out. They do not affect the result.
- RequestRouter.MainPage: a template that exists but cannot be read is modelled as a plain 500. The code has already sent the 200 status line and headers when the read raises, so the client sees a 200 followed by a 500 error page.
- Text.Lower: `str.lower` is modelled for ASCII letters only. Other characters are left unchanged.
- Percent.Unquote: a `%XX` escape of a byte at or above 0x80 becomes the character with that code. Python decodes such sequences as UTF-8 instead. The round trips are proved for ASCII only.
- Percent.UnquoteQuote, Form.FormRoundTrip, NoteStore.NoteRoundTripV3 and NoteStore.NoteRoundTripV1 hold for ASCII text only, for the reason above. NoteRoundTripV1 also excludes carriage returns, because the decoder at server_v.1.py:122 only turns `%0D%0A` into a line feed.
- A browser normalises the line ends of a posted textarea to CRLF. Such posts are covered by the `UniversalNewlines` forms of the round trips, not by the exact ones.
- Utf8.Decode: Python's `surrogateescape` and other error handlers are not used by the code and are not modelled. Strict decoding is.
- FileStore.WriteFile: permission errors, full disks and symbolic links are not modelled. A write fails only on a path holding NUL (the `ValueError` of `open`, which `UploadHandler.SaveItem` reports as "Blocked"), on a directory, or on a missing parent.
- Form.QueryOfEncoded: the round trip is proved for ASCII values only, because `Percent.Unquote` decodes a `%XX` escape to one character rather than to UTF-8.
- Listing.ApiFiles: a name `os.listdir` returns with a lone surrogate (bytes that are not UTF-8) cannot be a Dafny `char`. In the code `quote` then raises and `/api/files` gives 500 "Internal Server Error"; the model does not cover such names.
- NoteStore.SaveNote: a JSON note holding a lone surrogate such as `"\ud800"` cannot be a Dafny `char`. In the code the note file is truncated, the write raises, and the reply is 500 "Could not save note: ..."; the model does not cover such notes.
- RequestRouter.ListedFileDownloads and RequestRouter.DownloadResolves: the clause that the listed or named file itself is served holds only for names without '%', '?' or '#' that do not end in a space. For other names only the base translation is stated; see Findings.
- Password_Encription_V.1.py (interactive password storage) and gmail.py (an SMTP send) are left out. They are not part of the request handling.

## Findings

| source | as written | input that shows it | evidently intended | confidence | as-written member | corrected member |
|---|---|---|---|---|---|---|
| server_v.3.py:74 | `full_intended_path.startswith(abspath(cwd/shared))`, a string prefix test without a separator | the request target `../shared2/secret.txt` resolves to `cwd/shared2/secret.txt`, which starts with `cwd/shared`, so it passes and is served | containment on a path-component boundary, as the comment at line 73 says ("inside the shared folder") | medium, not executed (it needs a client that sends a request target without a leading `/`) | PathResolver.TranslatePathAsWritten, PathResolver.SiblingExample, RequestRouter.GetV3, RequestRouter.GetV3SiblingEscape | PathResolver.TranslatePath, RequestRouter.GetV3Corrected |
| server_v.4.py:166 | `self.path = os.path.relpath(file_path, os.getcwd())`, after which the base class's `translate_path` cuts the relative path at '?' and '#' and decodes it a second time | a shared file named `%2E%2E%2Fnote.txt` (uploaded as `%252E%252E%252Fnote.txt`) is listed with the link `/shared/%252E%252E%252Fnote.txt`; that request passes `secure_path` and `isfile`, and the base class then serves `cwd/note.txt` | serve the file `secure_path` validated, as the comment at line 165 says | medium, not executed | RequestRouter.SharedDownload, RequestRouter.DownloadEscapes | RequestRouter.SharedDownloadCorrected, RequestRouter.GetV4Corrected, RequestRouter.DownloadResolvesCorrected |
| server_v.1.py:104 | `def do_POST(self):` at module level, outside `CustomHandler` | any POST, such as the page's own note form to `/save_note`, gets 501 "Unsupported method ('POST')" | a method of the handler that handles `/upload` and `/save_note` | high, not executed | RequestRouter.PostV1AsWritten, RequestRouter.PostV1Unhandled | RequestRouter.PostV1 |

The file reached through the server_v.4.py:166 discrepancy lies in the working directory, which the fallback at line 184 serves anyway, so nothing new is exposed. What goes wrong is that the listed file is replaced by another one, and a listed name holding '?' or '#' is fetched cut short at that mark.

=== FILE: file_store.dfy ===
/** The part of the filesystem the server touches: a map from absolute,
    normalised path to node. Writes and reads follow the outcomes of
    Python's `open` on POSIX: a directory cannot be opened as a file, and a
    file can only be created in an existing directory. */
module FileStore {
  import opened Wrappers
  import opened Text
  import opened Utf8
  import opened PosixPath

  datatype Node = File(content: seq<Byte>) | Dir

  type FileSystem = map<string, Node>

  /** The exceptions `open` and a text-mode read can raise. */
  datatype IoError =
    | NotFound        // FileNotFoundError
    | IsADirectory    // IsADirectoryError
    | NotUtf8         // UnicodeDecodeError while reading in text mode
    | EmbeddedNul     // ValueError: a path holding '\0' never reaches the system

  /** A path the operating system can be asked about: Python refuses one
      holding a NUL character before any system call. */
  predicate Acceptable(p: string) {
    '\0' !in p
  }

  /** `os.path.exists(p)`: false for a path holding NUL, which Python
      reports as absent rather than raising. */
  predicate Exists(fs: FileSystem, p: string) {
    Acceptable(p) && p in fs
  }

  /** `os.path.isfile(p)` */
  predicate IsFile(fs: FileSystem, p: string) {
    Exists(fs, p) && fs[p].File?
  }

  /** `os.path.isdir(p)` */
  predicate IsDir(fs: FileSystem, p: string) {
    Exists(fs, p) && fs[p].Dir?
  }

  /** `q` is the same in both states: present in both with the same node, or
      absent from both. */
  predicate Same(fs: FileSystem, fs': FileSystem, q: string) {
    (q in fs <==> q in fs') && (q in fs ==> fs[q] == fs'[q])
  }

  /** `open(p, 'wb').write(data)`, and the text-mode write once encoded:
      the file is created or truncated and then holds exactly `data`, and no
      other path changes. It fails with a `ValueError` on a path holding NUL,
      on a directory, and when the parent directory does not exist. */
  function WriteFile(fs: FileSystem, p: string, data: seq<Byte>): (r: Result<FileSystem, IoError>)
    ensures r.Ok? <==> Acceptable(p) && !IsDir(fs, p) && IsDir(fs, Dirname(p))
    ensures r == Err(EmbeddedNul) <==> !Acceptable(p)
    ensures Acceptable(p) && IsDir(fs, p) ==> r == Err(IsADirectory)
    ensures r.Ok? ==> IsFile(r.value, p) && r.value[p].content == data
    ensures r.Ok? ==> forall q :: q != p ==> Same(fs, r.value, q)
  {
    if !Acceptable(p) then Err(EmbeddedNul)
    else if IsDir(fs, p) then Err(IsADirectory)
    else if !IsDir(fs, Dirname(p)) then Err(NotFound)
    else Ok(fs[p := File(data)])
  }

  /** `open(os.path.join(folder, name), 'wb').write(data)` for a basename
      `name` and a `folder` relative to the working directory `cwd`. The
      system resolves the path as written: for the name "", "." or ".." it
      ends in `/`, `/.` or `/..` and so names the folder or its parent, which
      is a directory when it exists at all, and `open` raises whatever the
      filesystem holds. Any other name writes the normalised path. The
      error for those three names is `IsADirectory` when that directory
      exists and `NotFound` otherwise; no caller tells the two apart. */
  function WriteEntry(fs: FileSystem, cwd: string, folder: string, name: string, data: seq<Byte>): (r: Result<FileSystem, IoError>)
    ensures name == "" || name == "." || name == ".." ==> r.Err?
    ensures r.Ok? <==> name != "" && name != "." && name != ".."
                       && WriteFile(fs, AbsPath(cwd, PathJoin(folder, name)), data).Ok?
    ensures r.Ok? ==> var p := AbsPath(cwd, PathJoin(folder, name));
                      && IsFile(r.value, p) && r.value[p].content == data
                      && forall q :: q != p ==> Same(fs, r.value, q)
  {
    var p := AbsPath(cwd, PathJoin(folder, name));
    if name == "" || name == "." || name == ".." then
      if IsDir(fs, p) then Err(IsADirectory) else Err(NotFound)
    else WriteFile(fs, p, data)
  }

  /** `open(p, 'rb').read()` */
  function ReadFile(fs: FileSystem, p: string): (r: Result<seq<Byte>, IoError>)
    ensures r.Ok? <==> IsFile(fs, p)
    ensures r.Ok? ==> r.value == fs[p].content
  {
    if !Acceptable(p) then Err(EmbeddedNul)
    else if p !in fs then Err(NotFound)
    else match fs[p]
      case Dir => Err(IsADirectory)
      case File(content) => Ok(content)
  }

  /** `open(p, 'w', encoding='utf-8').write(s)` */
  function WriteText(fs: FileSystem, p: string, s: string): Result<FileSystem, IoError> {
    WriteFile(fs, p, Encode(s))
  }

  /** `open(p, 'r', encoding='utf-8').read()`: the bytes are decoded strictly
      and line ends are translated as text mode does. */
  function ReadText(fs: FileSystem, p: string): (r: Result<string, IoError>)
    ensures r.Ok? ==> IsFile(fs, p) && Decode(fs[p].content).Some?
    ensures r.Ok? ==> '\r' !in r.value
  {
    match ReadFile(fs, p)
    case Err(e) => Err(e)
    case Ok(bytes) =>
      match Decode(bytes)
      case None => Err(NotUtf8)
      case Some(s) => Ok(UniversalNewlines(s))
  }

  /** Reading a text file back gives what was written, with line ends
      translated (so exactly the text when it holds no carriage return). */
  lemma ReadAfterWriteText(fs: FileSystem, p: string, s: string)
    requires WriteText(fs, p, s).Ok?
    ensures ReadText(WriteText(fs, p, s).value, p) == Ok(UniversalNewlines(s))
    ensures '\r' !in s ==> ReadText(WriteText(fs, p, s).value, p) == Ok(s)
  {
    DecodeEncode(s);
  }

  /** A write leaves every other path readable exactly as before. */
  lemma ReadOtherAfterWrite(fs: FileSystem, p: string, data: seq<Byte>, q: string)
    requires WriteFile(fs, p, data).Ok? && q != p
    ensures ReadFile(WriteFile(fs, p, data).value, q) == ReadFile(fs, q)
    ensures ReadText(WriteFile(fs, p, data).value, q) == ReadText(fs, q)
  {
  }

  /** `names` is what `os.listdir(dir)` returned: every entry of the directory
      exactly once, in some order the operating system chooses. */
  ghost predicate ListsDirectory(fs: FileSystem, dir: string, names: seq<string>) {
    && (forall i, j :: 0 <= i < j < |names| ==> names[i] != names[j])
    && (forall i :: 0 <= i < |names| ==> Plain(names[i]) && dir + [Sep] + names[i] in fs)
    && (forall n :: Plain(n) && dir + [Sep] + n in fs ==> n in names)
  }
}

=== FILE: form.dfy ===
/** `application/x-www-form-urlencoded` bodies: how a client encodes a field
    value (`urllib.parse.quote_plus`, as `urlencode` applies it), and how
    `urllib.parse.parse_qs` takes a body apart again. */
module Form {
  import opened Wrappers
  import opened Text
  import opened Utf8
  import opened Percent

  /** One character as `quote_plus` writes it: a space becomes '+', an
      unreserved character stays, anything else becomes the `%XX` triplets
      of its UTF-8 bytes. */
  function FormChar(c: char): (r: string)
    ensures |r| >= 1
    ensures forall i :: 0 <= i < |r| ==> IsUnreserved(r[i]) || r[i] == '%' || r[i] == '+'
    ensures c != ' ' ==> '+' !in r
  {
    if c == ' ' then "+" else if IsUnreserved(c) then [c] else EscapeBytes(EncodeChar(c))
  }

  /** `quote_plus(s)`: never '=' or '&', so the value cannot break its field. */
  function FormEncode(s: string): (r: string)
    ensures forall i :: 0 <= i < |r| ==> IsUnreserved(r[i]) || r[i] == '%' || r[i] == '+'
    ensures |r| >= |s|
  {
    if |s| == 0 then [] else FormChar(s[0]) + FormEncode(s[1..])
  }

  /** What one encoded character looks like once '+' is read as a space. */
  function SpacedChar(c: char): (r: string)
    ensures |r| >= 1
  {
    if c == ' ' then " " else FormChar(c)
  }

  function Spaced(s: string): string {
    if |s| == 0 then [] else SpacedChar(s[0]) + Spaced(s[1..])
  }

  /** Reading '+' as a space undoes exactly the spaces `quote_plus` wrote. */
  lemma {:induction false} PlusToSpace(s: string)
    ensures ReplaceAll(FormEncode(s), "+", " ") == Spaced(s)
  {
    if |s| > 0 {
      var a := FormChar(s[0]);
      ReplaceCharConcat(a, FormEncode(s[1..]), '+', " ");
      PlusToSpace(s[1..]);
      if s[0] == ' ' {
        assert ReplaceAll(a, "+", " ") == " " + ReplaceAll([], "+", " ");
      }
    }
  }

  /** Unquoting one spaced character gives the ASCII character back. */
  lemma UnquoteSpacedChar(c: char, t: string)
    requires c as int < 0x80
    ensures Unquote(SpacedChar(c) + t) == [c] + Unquote(t)
  {
    if c == ' ' || IsUnreserved(c) {
      assert (SpacedChar(c) + t)[1..] == t;
    } else {
      var e := EscapeByte(c as int);
      assert SpacedChar(c) == e + [] by {
        assert EncodeChar(c) == [c as int];
      }
      assert (e + t)[3..] == t;
    }
  }

  lemma {:induction false} UnquoteSpaced(s: string)
    requires IsAscii(s)
    ensures Unquote(Spaced(s)) == s
  {
    if |s| > 0 {
      UnquoteSpaced(s[1..]);
      UnquoteSpacedChar(s[0], Spaced(s[1..]));
    }
  }

  /** Round trip: the value a client encodes is the value `parse_qs` decodes,
      for ASCII text. */
  lemma FormRoundTrip(s: string)
    requires IsAscii(s)
    ensures Unquote(ReplaceAll(FormEncode(s), "+", " ")) == s
  {
    PlusToSpace(s);
    UnquoteSpaced(s);
  }

  /** A spaced character other than a carriage return never starts the
      triplets `%0D%0A`, so replacing them passes over it. */
  lemma SpacedCharNoCrLf(c: char, t: string)
    requires c as int < 0x80 && c != '\r'
    ensures ReplaceAll(SpacedChar(c) + t, "%0D%0A", "\n") == SpacedChar(c) + ReplaceAll(t, "%0D%0A", "\n")
  {
    var a := SpacedChar(c);
    var x := a + t;
    if c == ' ' || IsUnreserved(c) {
      assert x[0] != '%' && x[1..] == t;
    } else {
      assert a == EscapeByte(c as int) by {
        assert EncodeChar(c) == [c as int];
      }
      assert 16 * HexValue(a[1]) + HexValue(a[2]) == c as int;
      assert HexValue('0') == 0 && HexValue('D') == 13;
      assert x[1] == a[1] && x[2] == a[2];
      assert !StartsWith(x, "%0D%0A");
      var x1 := x[1..];
      var x2 := x1[1..];
      assert x1[0] == a[1] && x2[0] == a[2] && x2[1..] == t;
      assert ReplaceAll(x, "%0D%0A", "\n") == [x[0]] + ReplaceAll(x1, "%0D%0A", "\n");
      assert ReplaceAll(x1, "%0D%0A", "\n") == [x1[0]] + ReplaceAll(x2, "%0D%0A", "\n");
      assert ReplaceAll(x2, "%0D%0A", "\n") == [x2[0]] + ReplaceAll(t, "%0D%0A", "\n");
      assert a == [x[0], x1[0], x2[0]];
    }
  }

  lemma {:induction false} SpacedNoCrLf(s: string)
    requires IsAscii(s) && '\r' !in s
    ensures ReplaceAll(Spaced(s), "%0D%0A", "\n") == Spaced(s)
  {
    if |s| > 0 {
      SpacedNoCrLf(s[1..]);
      SpacedCharNoCrLf(s[0], Spaced(s[1..]));
    }
  }

  /** One `name=value` piece as `parse_qsl` keeps it with blank values off:
      a piece without '=' or with an empty value is dropped; in both halves
      '+' means a space and `%XX` escapes are then decoded. */
  function QsField(piece: string): (r: Option<(string, string)>)
    ensures r.Some? ==> |r.value.1| > 0
    ensures '=' !in piece ==> r.None?
  {
    var name := BeforeFirst(piece, '=');
    if |name| == |piece| then None
    else
      var value := piece[|name| + 1..];
      if |value| == 0 then None
      else Some((Unquote(ReplaceAll(name, "+", " ")), Unquote(ReplaceAll(value, "+", " "))))
  }

  function QsPairs(pieces: seq<string>): (r: seq<(string, string)>)
    ensures |r| <= |pieces|
    ensures forall p :: p in r ==> |p.1| > 0
  {
    if |pieces| == 0 then []
    else match QsField(pieces[0])
      case None => QsPairs(pieces[1..])
      case Some(p) => [p] + QsPairs(pieces[1..])
  }

  /** `parse_qsl(s)`: the fields of a body, in order. */
  function ParseQs(s: string): seq<(string, string)> {
    QsPairs(SplitOn(s, "&"))
  }

  /** The value of the first pair named `key`. */
  function FirstValue(pairs: seq<(string, string)>, key: string): (r: Option<string>)
    ensures r.Some? ==> exists i :: 0 <= i < |pairs| && pairs[i] == (key, r.value)
                                     && forall j :: 0 <= j < i ==> pairs[j].0 != key
    ensures r.None? ==> forall p :: p in pairs ==> p.0 != key
  {
    if |pairs| == 0 then None
    else if pairs[0].0 == key then Some(pairs[0].1)
    else
      var r := FirstValue(pairs[1..], key);
      FirstAfterHead(pairs, key, r);
      r
  }

  /** A first occurrence in the tail is the first one overall when the head
      has another name. */
  lemma FirstAfterHead(pairs: seq<(string, string)>, key: string, r: Option<string>)
    requires |pairs| > 0 && pairs[0].0 != key
    requires r.Some? ==> exists i :: 0 <= i < |pairs[1..]| && pairs[1..][i] == (key, r.value)
                                    && forall j :: 0 <= j < i ==> pairs[1..][j].0 != key
    ensures r.Some? ==> exists i :: 0 <= i < |pairs| && pairs[i] == (key, r.value)
                                   && forall j :: 0 <= j < i ==> pairs[j].0 != key
  {
    if r.Some? {
      var i :| 0 <= i < |pairs[1..]| && pairs[1..][i] == (key, r.value)
               && forall j :: 0 <= j < i ==> pairs[1..][j].0 != key;
      assert pairs[i + 1] == (key, r.value);
      forall j | 0 <= j < i + 1 ensures pairs[j].0 != key {
        if j > 0 { assert pairs[j] == pairs[1..][j - 1]; }
      }
    }
  }

  /** `parse_qs(s).get(key, [None])[0]`: the first value given for `key`;
      it is never empty. */
  function QueryValue(s: string, key: string): (r: Option<string>)
    ensures r.Some? ==> |r.value| > 0
  {
    FirstValue(ParseQs(s), key)
  }

  /** A name made of unreserved characters: it needs no encoding. */
  predicate PlainName(key: string) {
    |key| > 0 && forall i :: 0 <= i < |key| ==> IsUnreserved(key[i])
  }

  lemma {:induction false} BeforeFirstAt(a: string, c: char, b: string)
    requires c !in a
    ensures BeforeFirst(a + [c] + b, c) == a
  {
    if |a| > 0 {
      BeforeFirstAt(a[1..], c, b);
      assert (a + [c] + b)[1..] == a[1..] + [c] + b;
    }
  }

  lemma SplitOnNoChar(s: string, c: char)
    requires c !in s
    ensures SplitOn(s, [c]) == [s]
  {
    forall i | 0 <= i <= |s| ensures !StartsWith(s[i..], [c]) {
      if i < |s| {
        assert s[i..][0] == s[i];
      }
    }
    SplitOnAbsent(s, [c]);
  }

  /** An encoded value keeps its field whole: the body has no '&'. */
  lemma EncodedFieldWhole(key: string, n: string)
    requires PlainName(key)
    ensures SplitOn(key + "=" + FormEncode(n), "&") == [key + "=" + FormEncode(n)]
  {
    var v := FormEncode(n);
    var s := key + "=" + v;
    forall i | 0 <= i < |s| ensures s[i] != '&' {
      if i > |key| {
        assert s[i] == v[i - |key| - 1];
      }
    }
    SplitOnNoChar(s, '&');
  }

  /** The field `key=v` under a plain name. */
  lemma QsFieldOf(key: string, v: string)
    requires PlainName(key)
    ensures QsField(key + "=" + v) == if v == [] then None else Some((key, Unquote(ReplaceAll(v, "+", " "))))
  {
    BeforeFirstAt(key, '=', v);
    assert (key + "=" + v)[|key| + 1..] == v;
    assert ReplaceAll(key, "+", " ") == key;
  }

  /** A body holding one encoded field gives that field's value back, and
      nothing when the value was empty (blank values are dropped). */
  lemma QueryOfEncoded(key: string, n: string)
    requires PlainName(key) && IsAscii(n)
    ensures QueryValue(key + "=" + FormEncode(n), key) == if n == [] then None else Some(n)
  {
    var v := FormEncode(n);
    EncodedFieldWhole(key, n);
    QsFieldOf(key, v);
    FormRoundTrip(n);
    assert n == [] <==> v == [];
  }
}

=== FILE: http.dfy ===
/** What a request handler sends back, at the level of detail the handlers
    decide: the status line, which kind of body, and the fields of a JSON
    body. Header lines other than `Location` are not modelled. */
module Http {
  import opened Wrappers
  import opened Utf8
  import opened Listing

  /** The `Content-Length` header as a handler reads it: missing, not a
      decimal integer (so `int()` raises), or a number. */
  datatype ContentLength = Absent | Malformed | Length(n: int)

  datatype Body =
    | Empty                                   // headers only
    | ErrorPage(message: string)              // `send_error(code, message)`: the standard HTML error page
    | ErrorPageFault(prefix: string)          // the same, with the exception text after `prefix`
    | JsonError(message: string)              // {"success": false, "message": message}
    | JsonFault(prefix: string)               // the same, with the exception text after `prefix`
    | NoteJson(note: string, lastChange: Option<string>)
    | NoteSaved(lastChange: Option<string>)  // {"success": true, "message": "Note saved!", ...}
    | FileList(files: seq<FileEntry>)
    | UploadSummary(message: string, uploaded: seq<string>, errors: seq<string>, lastChange: Option<string>)
    | Template(content: seq<Byte>)            // template.html as stored
    | ListingPage(links: seq<Link>, noFilesNotice: bool, note: string)

  datatype Response =
    | Reply(status: int, body: Body, location: Option<string>)
    | Serve(target: string)    // a filesystem path, as `translate_path` returns it, that the base class's `send_head` opens
    | NoReply                  // an exception left the handler: the connection closes without a response

  function Send(status: int, body: Body): Response {
    Reply(status, body, None)
  }

  /** `303 See Other` back to the main page. */
  const SeeMain: Response := Reply(303, Empty, Some("/"))

  /** The message of server_v.4.py's catch-all handler in `do_POST`. */
  const RequestFault: string := "Server error processing request: "
}

=== FILE: listing.dfy ===
/** The three file listings: the `/api/files` JSON list of server_v.4.py and
    the `list_directory` pages of server_v.3.py and server_v.1.py. Each takes
    what `os.listdir` returned, filters out hidden names and directories,
    orders the names case-insensitively and builds a link per name. */
module Listing {
  import opened Wrappers
  import opened Text
  import opened Percent
  import opened PosixPath
  import opened PathResolver
  import opened FileStore
  import opened Sorting

  const NoteFile: string := "note.txt"
  const LastChangeFile: string := "last_change.txt"
  const TemplateFile: string := "template.html"
  /** `os.path.basename(__file__)` when the v4 script runs under its own name. */
  const ScriptName: string := "server_v.4.py"
  const LockPrefix: string := ".~lock"

  /** `HIDDEN_PATTERNS` of server_v.4.py. */
  const HiddenPatterns: seq<string> := [".~lock.*", NoteFile, LastChangeFile, TemplateFile, ScriptName]

  /** `is_hidden(filename)`: exact membership, or the lock-file prefix. */
  predicate IsHidden(n: string) {
    n in HiddenPatterns || StartsWith(n, LockPrefix)
  }

  /** The first pattern is never used as a glob: it hides only the file
      literally called `.~lock.*`, which the prefix test hides anyway, so
      the hidden names are the four exact names and the lock files. */
  lemma HiddenExactly(n: string)
    ensures IsHidden(n) <==> (n == NoteFile || n == LastChangeFile || n == TemplateFile
                              || n == ScriptName || StartsWith(n, LockPrefix))
    ensures IsHidden(".~lock.*") && IsHidden(".~lock.report.odt#")
    ensures !IsHidden("report.~lock.odt") && !IsHidden("Note.txt")
  {
    assert ".~lock.*"[..6] == LockPrefix;
    assert ".~lock.report.odt#"[..6] == LockPrefix;
    assert "report.~lock.odt"[0] != LockPrefix[0];
  }

  // ---------------------------------------------------------------------
  // server_v.4.py: GET /api/files

  /** One element of the `/api/files` reply. */
  datatype FileEntry = FileEntry(name: string, url: string)

  function EntryOf(n: string): FileEntry {
    FileEntry(n, "/shared/" + Quote(n))
  }

  function EntryKey(e: FileEntry): string {
    Lower(e.name)
  }

  function Entries(names: seq<string>): (r: seq<FileEntry>)
    ensures |r| == |names|
    ensures forall i :: 0 <= i < |r| ==> r[i] == EntryOf(names[i])
  {
    if |names| == 0 then [] else [EntryOf(names[0])] + Entries(names[1..])
  }

  function Names(es: seq<FileEntry>): (r: seq<string>)
    ensures |r| == |es|
    ensures forall i :: 0 <= i < |r| ==> r[i] == es[i].name
  {
    if |es| == 0 then [] else [es[0].name] + Names(es[1..])
  }

  /** `os.path.join(SHARED_FOLDER, name)` as the process sees it. */
  function SharedEntry(cwd: string, n: string): string {
    AbsPath(cwd, PathJoin(SharedFolder, n))
  }

  /** The names the loop at lines 125-134 keeps: not hidden, regular files. */
  function ShownV4(fs: FileSystem, cwd: string): string -> bool {
    n => !IsHidden(n) && IsFile(fs, SharedEntry(cwd, n))
  }

  /** The reply to `GET /api/files` when `os.listdir` returned `names`. */
  function ApiFiles(fs: FileSystem, cwd: string, names: seq<string>): seq<FileEntry> {
    SortBy(Entries(Filter(names, ShownV4(fs, cwd))), EntryKey)
  }

  lemma {:induction false} NamesEntries(xs: seq<string>)
    ensures Names(Entries(xs)) == xs
  {
    if |xs| > 0 {
      NamesEntries(xs[1..]);
      assert Entries(xs) == [EntryOf(xs[0])] + Entries(xs[1..]);
    }
  }

  lemma {:induction false} InsertEntries(x: string, ys: seq<string>)
    ensures Insert(EntryOf(x), Entries(ys), EntryKey) == Entries(Insert(x, ys, Lower))
  {
    if |ys| > 0 {
      var es := Entries(ys);
      assert es == [EntryOf(ys[0])] + Entries(ys[1..]);
      if !LexLe(Lower(x), Lower(ys[0])) {
        InsertEntries(x, ys[1..]);
        assert es[1..] == Entries(ys[1..]);
      }
    }
  }

  /** Sorting the entries by lower-cased name is sorting the names and then
      building the entries. */
  lemma {:induction false} EntriesSortBy(xs: seq<string>)
    ensures SortBy(Entries(xs), EntryKey) == Entries(SortBy(xs, Lower))
  {
    if |xs| > 0 {
      var es := Entries(xs);
      assert es[1..] == Entries(xs[1..]);
      EntriesSortBy(xs[1..]);
      InsertEntries(xs[0], SortBy(xs[1..], Lower));
    }
  }

  lemma {:induction false} ApiNames(fs: FileSystem, cwd: string, names: seq<string>)
    ensures ApiFiles(fs, cwd, names) == Entries(SortBy(Filter(names, ShownV4(fs, cwd)), Lower))
    ensures Names(ApiFiles(fs, cwd, names)) == SortBy(Filter(names, ShownV4(fs, cwd)), Lower)
  {
    var sorted := SortBy(Filter(names, ShownV4(fs, cwd)), Lower);
    EntriesSortBy(Filter(names, ShownV4(fs, cwd)));
    NamesEntries(sorted);
  }

  lemma {:induction false} ApiMembers(fs: FileSystem, cwd: string, names: seq<string>)
    ensures forall n :: n in Names(ApiFiles(fs, cwd, names))
                        <==> (n in names && !IsHidden(n) && IsFile(fs, SharedEntry(cwd, n)))
  {
    ApiNames(fs, cwd, names);
    var shown := ShownV4(fs, cwd);
    var kept := Filter(names, shown);
    SortByMembers(kept, Lower);
    forall n ensures n in SortBy(kept, Lower) <==> (n in names && !IsHidden(n) && IsFile(fs, SharedEntry(cwd, n))) {
      assert shown(n) == (!IsHidden(n) && IsFile(fs, SharedEntry(cwd, n)));
      assert n in kept <==> n in names && shown(n);
    }
  }

  lemma {:induction false} ApiUrls(fs: FileSystem, cwd: string, names: seq<string>)
    ensures var r := ApiFiles(fs, cwd, names);
            forall i :: 0 <= i < |r| ==> r[i].url == "/shared/" + Quote(r[i].name)
  {
    ApiNames(fs, cwd, names);
  }

  lemma {:induction false} ApiOrder(fs: FileSystem, cwd: string, names: seq<string>)
    ensures var r := ApiFiles(fs, cwd, names);
            forall i, j :: 0 <= i < j < |r| ==> LexLe(Lower(r[i].name), Lower(r[j].name))
  {
    var r := ApiFiles(fs, cwd, names);
    ApiNames(fs, cwd, names);
    var t := Names(r);
    assert SortedBy(t, Lower);
    forall i, j | 0 <= i < j < |r| ensures LexLe(Lower(r[i].name), Lower(r[j].name)) {
      assert t[i] == r[i].name && t[j] == r[j].name;
    }
  }

  /** The list holds exactly one entry per listed name that is neither hidden
      nor anything but a regular file; each entry links to
      `/shared/` + quote(name); the names are the shown names in stable
      case-insensitive order. */
  lemma {:induction false} ApiFilesLists(fs: FileSystem, cwd: string, names: seq<string>)
    ensures var r := ApiFiles(fs, cwd, names);
            && Names(r) == SortBy(Filter(names, ShownV4(fs, cwd)), Lower)
            && (forall i :: 0 <= i < |r| ==> r[i].url == "/shared/" + Quote(r[i].name))
            && (forall n :: n in Names(r) <==> (n in names && !IsHidden(n) && IsFile(fs, SharedEntry(cwd, n))))
            && (forall i, j :: 0 <= i < j < |r| ==> LexLe(Lower(r[i].name), Lower(r[j].name)))
  {
    ApiNames(fs, cwd, names);
    ApiMembers(fs, cwd, names);
    ApiUrls(fs, cwd, names);
    ApiOrder(fs, cwd, names);
  }

  /** Against the real directory: a name is listed exactly when the shared
      folder holds a regular file of that name that is not hidden. */
  lemma {:induction false} ApiFilesOfDirectory(fs: FileSystem, cs: seq<string>, names: seq<string>)
    requires AllPlain(cs)
    requires ListsDirectory(fs, SharedRoot(Rooted(cs)), names)
    ensures forall n :: n in Names(ApiFiles(fs, Rooted(cs), names))
                        <==> Plain(n) && !IsHidden(n) && IsFile(fs, SharedRoot(Rooted(cs)) + [Sep] + n)
  {
    var cwd := Rooted(cs);
    var root := SharedRoot(cwd);
    ApiFilesLists(fs, cwd, names);
    forall n | Plain(n)
      ensures SharedEntry(cwd, n) == root + [Sep] + n
    {
      SharedChild(cs, n);
    }
  }

  /** The `..foo` case: a file whose name starts with `..` is listed, yet its
      link `/shared/..foo` is refused by `secure_path`; every other listed
      ASCII name's link resolves to the listed file. */
  lemma {:induction false} ListedLinkResolves(fs: FileSystem, cs: seq<string>, names: seq<string>, e: FileEntry)
    requires AllPlain(cs)
    requires ListsDirectory(fs, SharedRoot(Rooted(cs)), names)
    requires e in ApiFiles(fs, Rooted(cs), names) && IsAscii(e.name)
    ensures e.url == "/shared/" + Quote(e.name)
    ensures var r := SecurePath(Rooted(cs), SharedFolder, Quote(e.name));
            && (StartsWith(e.name, "..") ==> r == Err(Traversal))
            && (!StartsWith(e.name, "..") ==> r == Ok(SharedRoot(Rooted(cs)) + [Sep] + e.name)
                                              && IsFile(fs, r.value))
  {
    var cwd := Rooted(cs);
    var n := e.name;
    ApiEntry(fs, cwd, names, e);
    var k :| 0 <= k < |names| && names[k] == n;
    assert Plain(n);
    SecurePathOfQuotedName(cs, n);
    SharedChild(cs, n);
  }

  /** What one entry of the list guarantees about its name. */
  lemma {:induction false} ApiEntry(fs: FileSystem, cwd: string, names: seq<string>, e: FileEntry)
    requires e in ApiFiles(fs, cwd, names)
    ensures e.url == "/shared/" + Quote(e.name)
    ensures e.name in names && !IsHidden(e.name) && IsFile(fs, SharedEntry(cwd, e.name))
  {
    var r := ApiFiles(fs, cwd, names);
    ApiUrls(fs, cwd, names);
    ApiMembers(fs, cwd, names);
    var i :| 0 <= i < |r| && r[i] == e;
    assert Names(r)[i] == e.name;
  }

  // ---------------------------------------------------------------------
  // The HTML listings of server_v.3.py and server_v.1.py

  /** One list item: the `href` and the text shown. */
  datatype Link = Link(href: string, text: string)

  /** What `list_directory` produces: a 403, a 404 when the directory cannot
      be read, or the page's list items and whether it carries the
      "No files found" item. */
  datatype Listing =
    | Forbidden
    | Unlistable
    | Page(links: seq<Link>, noFilesNotice: bool)

  function LinkOf(n: string): Link {
    Link("/" + Quote(n), n)
  }

  function Links(names: seq<string>): (r: seq<Link>)
    ensures |r| == |names|
    ensures forall i :: 0 <= i < |r| ==> r[i] == LinkOf(names[i])
  {
    if |names| == 0 then [] else [LinkOf(names[0])] + Links(names[1..])
  }

  function Texts(ls: seq<Link>): (r: seq<string>)
    ensures |r| == |ls|
    ensures forall i :: 0 <= i < |r| ==> r[i] == ls[i].text
  {
    if |ls| == 0 then [] else [ls[0].text] + Texts(ls[1..])
  }

  /** The list items of a page: the names sorted by `str.lower`, then
      filtered, each rendered as a link. */
  function PageLinks(items: seq<string>, shown: string -> bool): seq<Link> {
    Links(Filter(SortBy(items, Lower), shown))
  }

  lemma {:induction false} TextsLinks(xs: seq<string>)
    ensures Texts(Links(xs)) == xs
  {
    if |xs| > 0 {
      TextsLinks(xs[1..]);
      assert Links(xs) == [LinkOf(xs[0])] + Links(xs[1..]);
    }
  }

  lemma {:induction false} PageTexts(items: seq<string>, shown: string -> bool)
    ensures Texts(PageLinks(items, shown)) == SortBy(Filter(items, shown), Lower)
  {
    FilterSortBy(items, shown, Lower);
    TextsLinks(Filter(SortBy(items, Lower), shown));
  }

  lemma {:induction false} PageMembers(items: seq<string>, shown: string -> bool)
    ensures forall n :: n in Texts(PageLinks(items, shown)) <==> (n in items && shown(n))
  {
    PageTexts(items, shown);
    SortByMembers(Filter(items, shown), Lower);
  }

  lemma {:induction false} PageOrder(items: seq<string>, shown: string -> bool)
    ensures var ls := PageLinks(items, shown);
            forall i, j :: 0 <= i < j < |ls| ==> LexLe(Lower(ls[i].text), Lower(ls[j].text))
  {
    var ls := PageLinks(items, shown);
    PageTexts(items, shown);
    var t := Texts(ls);
    assert SortedBy(t, Lower);
    forall i, j | 0 <= i < j < |ls| ensures LexLe(Lower(ls[i].text), Lower(ls[j].text)) {
      assert t[i] == ls[i].text && t[j] == ls[j].text;
    }
  }

  lemma {:induction false} PageHrefs(items: seq<string>, shown: string -> bool)
    ensures var ls := PageLinks(items, shown);
            forall i :: 0 <= i < |ls| ==> ls[i].href == "/" + Quote(ls[i].text) && shown(ls[i].text)
  {
    var f := Filter(SortBy(items, Lower), shown);
    var ls := Links(f);
    forall i | 0 <= i < |ls| ensures ls[i].href == "/" + Quote(ls[i].text) && shown(ls[i].text) {
      assert ls[i] == LinkOf(f[i]);
    }
  }

  /** The list items are exactly the shown names, in case-insensitive order,
      each linking to `/` + quote(name) and displaying the raw name; sorting
      before filtering gives the same page as filtering first. */
  lemma {:induction false} PageLinksSpec(items: seq<string>, shown: string -> bool)
    ensures var ls := PageLinks(items, shown);
            && Texts(ls) == SortBy(Filter(items, shown), Lower)
            && (forall i :: 0 <= i < |ls| ==> ls[i].href == "/" + Quote(ls[i].text) && shown(ls[i].text))
            && (forall n :: n in Texts(ls) <==> (n in items && shown(n)))
            && (forall i, j :: 0 <= i < j < |ls| ==> LexLe(Lower(ls[i].text), Lower(ls[j].text)))
  {
    PageTexts(items, shown);
    PageMembers(items, shown);
    PageOrder(items, shown);
    PageHrefs(items, shown);
  }

  /** The names the server_v.3.py loop skips by name (lines 373-376). */
  predicate HiddenV3(n: string) {
    StartsWith(n, LockPrefix) || n == NoteFile || n == "nots.txt"
  }

  /** The names the server_v.3.py loop keeps: not hidden by name, and not a
      directory once joined to the listed folder. */
  predicate VisibleV3(fs: FileSystem, cwd: string, path: string, n: string) {
    !HiddenV3(n) && !IsDir(fs, AbsPath(cwd, PathJoin(path, n)))
  }

  function ShownV3(fs: FileSystem, cwd: string, path: string): string -> bool {
    n => VisibleV3(fs, cwd, path, n)
  }

  /** `list_directory(path)` of server_v.3.py, given the outcome of
      `os.listdir(path)` (`None` when it raised `OSError`). */
  function ListDirectoryV3(fs: FileSystem, cwd: string, path: string, listed: Option<seq<string>>): Listing {
    if AbsPath(cwd, path) != SharedRoot(cwd) then Forbidden
    else match listed
      case None => Unlistable
      case Some(items) => Page(PageLinks(items, ShownV3(fs, cwd, path)), |items| == 0)
  }

  /** Any folder but the shared one is refused; a listed entry is never a
      directory, a lock file, `note.txt` or `nots.txt`; the "No files found"
      item appears exactly when the directory is empty, so a folder holding
      only hidden files shows neither items nor the notice. */
  lemma {:induction false} ListDirectoryV3Spec(fs: FileSystem, cwd: string, path: string, listed: Option<seq<string>>)
    ensures var l := ListDirectoryV3(fs, cwd, path, listed);
            && (l == Forbidden <==> AbsPath(cwd, path) != SharedRoot(cwd))
            && (l == Unlistable <==> AbsPath(cwd, path) == SharedRoot(cwd) && listed.None?)
            && (l.Page? ==> (
                  && listed.Some?
                  && (l.noFilesNotice <==> |listed.value| == 0)
                  && (forall i :: 0 <= i < |l.links| ==> l.links[i].href == "/" + Quote(l.links[i].text))
                  && (forall i :: 0 <= i < |l.links| ==> (
                        && !StartsWith(l.links[i].text, LockPrefix)
                        && l.links[i].text != NoteFile && l.links[i].text != "nots.txt"
                        && !IsDir(fs, AbsPath(cwd, PathJoin(path, l.links[i].text)))))
                  && (forall n :: n in Texts(l.links) <==> (n in listed.value && VisibleV3(fs, cwd, path, n)))
                  && (forall i, j :: 0 <= i < j < |l.links| ==> LexLe(Lower(l.links[i].text), Lower(l.links[j].text)))))
  {
    if AbsPath(cwd, path) == SharedRoot(cwd) && listed.Some? {
      PageLinksSpec(listed.value, ShownV3(fs, cwd, path));
    }
  }

  /** Only hidden files present: the page has no items and no notice. */
  lemma {:induction false} OnlyHiddenV3(fs: FileSystem, cwd: string, items: seq<string>)
    requires |items| > 0 && forall i :: 0 <= i < |items| ==> HiddenV3(items[i])
    ensures ListDirectoryV3(fs, cwd, SharedFolder, Some(items)) == Page([], false)
  {
    PageLinksSpec(items, ShownV3(fs, cwd, SharedFolder));
  }

  /** `HIDDEN_FILES` of server_v.1.py. */
  const HiddenFilesV1: seq<string> := [".~lock.*", "nots.txt", NoteFile]

  predicate HiddenV1(n: string) {
    n in HiddenFilesV1 || StartsWith(n, LockPrefix)
  }

  /** The names the server_v.1.py loop keeps: not hidden, not a script, and
      not a directory once joined to the listed folder. */
  predicate VisibleV1(fs: FileSystem, cwd: string, path: string, n: string) {
    !HiddenV1(n) && !EndsWith(n, ".py") && !IsDir(fs, AbsPath(cwd, PathJoin(path, n)))
  }

  function ShownV1(fs: FileSystem, cwd: string, path: string): string -> bool {
    n => VisibleV1(fs, cwd, path, n)
  }

  /** `list_directory(path)` of server_v.1.py: no folder check and no
      "No files found" item. */
  function ListDirectoryV1(fs: FileSystem, cwd: string, path: string, listed: Option<seq<string>>): Listing {
    match listed
    case None => Unlistable
    case Some(items) => Page(PageLinks(items, ShownV1(fs, cwd, path)), false)
  }

  /** A listed name is never one of `HIDDEN_FILES`, a lock file, a `.py`
      file or a directory; every other name is listed, in case-insensitive
      order, linking to `/` + quote(name). */
  lemma {:induction false} ListDirectoryV1Spec(fs: FileSystem, cwd: string, path: string, listed: Option<seq<string>>)
    ensures var l := ListDirectoryV1(fs, cwd, path, listed);
            && (l == Unlistable <==> listed.None?)
            && (l.Page? ==> (
                  && !l.noFilesNotice
                  && (forall i :: 0 <= i < |l.links| ==> l.links[i].href == "/" + Quote(l.links[i].text))
                  && (forall i :: 0 <= i < |l.links| ==> (
                        && l.links[i].text !in HiddenFilesV1 && !StartsWith(l.links[i].text, LockPrefix)
                        && !EndsWith(l.links[i].text, ".py")
                        && !IsDir(fs, AbsPath(cwd, PathJoin(path, l.links[i].text)))))
                  && (forall n :: n in Texts(l.links) <==> (listed.Some? && n in listed.value && VisibleV1(fs, cwd, path, n)))
                  && (forall i, j :: 0 <= i < j < |l.links| ==> LexLe(Lower(l.links[i].text), Lower(l.links[j].text)))))
  {
    if listed.Some? {
      PageLinksSpec(listed.value, ShownV1(fs, cwd, path));
    }
  }
}

=== FILE: note_store.dfy ===
/** The instructor note: `GET`/`POST /api/note` and the last-change stamp of
    server_v.4.py, and `save_note` with the note shown on the page in
    server_v.3.py and server_v.1.py. */
module NoteStore {
  import opened Wrappers
  import opened Text
  import opened Utf8
  import opened Percent
  import opened PosixPath
  import opened PathResolver
  import opened FileStore
  import opened Form
  import opened Listing
  import opened Http

  /** A JSON value as `json.loads` returns it. */
  datatype Json =
    | JNull
    | JBool(b: bool)
    | JNumber(literal: string)
    | JString(text: string)
    | JArray(items: seq<Json>)
    | JObject(fields: map<string, Json>)

  /** `json.loads` on a text: `None` is `JSONDecodeError`. The parser belongs
      to the standard library and is a parameter here. */
  type JsonParser = string -> Option<Json>

  /** `NOTE_FILE` and `LAST_CHANGE_FILE` are opened relative to the working
      directory. */
  function NotePath(cwd: string): string {
    AbsPath(cwd, NoteFile)
  }

  function LastChangePath(cwd: string): string {
    AbsPath(cwd, LastChangeFile)
  }

  // ---------------------------------------------------------------------
  // server_v.4.py: the last-change stamp

  /** `get_last_change_time()`: the stripped text of the stamp file, or
      `None` when it is missing or cannot be read. */
  function LastChange(fs: FileSystem, cwd: string): (r: Option<string>)
    ensures r.Some? <==> ReadText(fs, LastChangePath(cwd)).Ok?
    ensures r.Some? ==> r.value == Strip(ReadText(fs, LastChangePath(cwd)).value)
  {
    var p := LastChangePath(cwd);
    if !Exists(fs, p) then None
    else match ReadText(fs, p)
      case Ok(s) => Some(Strip(s))
      case Err(_) => None
  }

  /** `update_last_change_time()` with the clock reading `now` (the ISO text
      of `datetime.now()`): the new stamp, or `None` with nothing changed
      when the file cannot be written. Only the stamp file changes. */
  function UpdateLastChange(fs: FileSystem, cwd: string, now: string): (r: (FileSystem, Option<string>))
    ensures r.1.Some? <==> WriteText(fs, LastChangePath(cwd), now).Ok?
    ensures r.1.Some? ==> r.1.value == now
    ensures r.1.None? ==> r.0 == fs
    ensures forall q :: q != LastChangePath(cwd) ==> Same(fs, r.0, q)
  {
    match WriteText(fs, LastChangePath(cwd), now)
    case Ok(fs') => (fs', Some(now))
    case Err(_) => (fs, None)
  }

  /** A stamp that was written is the stamp read back. */
  lemma StampReadBack(fs: FileSystem, cwd: string, now: string)
    requires WriteText(fs, LastChangePath(cwd), now).Ok?
    ensures LastChange(UpdateLastChange(fs, cwd, now).0, cwd) == Some(Strip(UniversalNewlines(now)))
  {
    ReadAfterWriteText(fs, LastChangePath(cwd), now);
  }

  // ---------------------------------------------------------------------
  // server_v.4.py: GET /api/note

  /** The note text `GET /api/note` returns: the file's text, or empty when
      it is missing or cannot be read. */
  function StoredNote(fs: FileSystem, cwd: string): (r: string)
    ensures ReadText(fs, NotePath(cwd)).Ok? ==> r == ReadText(fs, NotePath(cwd)).value
    ensures ReadText(fs, NotePath(cwd)).Err? ==> r == ""
  {
    var p := NotePath(cwd);
    if !Exists(fs, p) then ""
    else match ReadText(fs, p)
      case Ok(s) => s
      case Err(_) => ""
  }

  /** `GET /api/note`: always 200. */
  function GetNote(fs: FileSystem, cwd: string): Response {
    Send(200, NoteJson(StoredNote(fs, cwd), LastChange(fs, cwd)))
  }

  // ---------------------------------------------------------------------
  // server_v.4.py: POST /api/note

  const NoData: string := "No data received."
  const InvalidJson: string := "Invalid JSON data."
  const NoteFault: Response := Send(500, JsonFault("Could not save note: "))

  /** How far a `POST /api/note` gets before the note file is opened: a reply
      already decided, or the JSON value under "note" (an empty string when
      the key is missing). */
  function NoteValue(length: ContentLength, body: seq<Byte>, parse: JsonParser): (r: Result<Json, Response>)
    ensures r.Err? ==> r.error.Reply? && (r.error.status == 400 || r.error.status == 500)
    ensures length.Absent? || length == Length(0) ==> r == Err(Send(400, JsonError(NoData)))
    ensures length.Malformed? ==> r == Err(Send(500, JsonFault(RequestFault)))
    ensures length.Length? && length.n != 0 ==>
              var text := Decode(body);
              && (text.None? ==> r == Err(NoteFault))
              && (text.Some? && parse(text.value).None? ==> r == Err(Send(400, JsonError(InvalidJson))))
              && (text.Some? && parse(text.value).Some? ==>
                    var doc := parse(text.value).value;
                    && (!doc.JObject? ==> r == Err(NoteFault))
                    && (doc.JObject? && "note" !in doc.fields ==> r == Ok(JString("")))
                    && (doc.JObject? && "note" in doc.fields ==> r == Ok(doc.fields["note"])))
  {
    match length
    case Absent => Err(Send(400, JsonError(NoData)))
    case Malformed => Err(Send(500, JsonFault(RequestFault)))
    case Length(n) =>
      if n == 0 then Err(Send(400, JsonError(NoData)))
      else match Decode(body)
        case None => Err(NoteFault)
        case Some(text) =>
          match parse(text)
          case None => Err(Send(400, JsonError(InvalidJson)))
          case Some(doc) =>
            if !doc.JObject? then Err(NoteFault)
            else Ok(if "note" in doc.fields then doc.fields["note"] else JString(""))
  }

  /** The note a request carries when it is well formed: a string under
      "note" in a JSON object. */
  function RequestedNote(length: ContentLength, body: seq<Byte>, parse: JsonParser): Option<string> {
    match NoteValue(length, body, parse)
    case Ok(JString(s)) => Some(s)
    case _ => None
  }

  /** `POST /api/note` (lines 200-221): 200 exactly when the request carries a
      note and the note file could be written; a 400 changes nothing; no
      file but the note and the stamp ever changes. */
  function SaveNote(fs: FileSystem, cwd: string, length: ContentLength, body: seq<Byte>,
                    parse: JsonParser, now: string): (r: (Response, FileSystem))
    ensures r.0.Reply?
    ensures r.0.status == 200 ==> r.0.body.NoteSaved?
    ensures r.0.status == 400 ==> r.1 == fs
    ensures forall q :: q != NotePath(cwd) && q != LastChangePath(cwd) ==> Same(fs, r.1, q)
  {
    match NoteValue(length, body, parse)
    case Err(reply) => (reply, fs)
    case Ok(v) =>
      var text := if v.JString? then v.text else "";
      match WriteText(fs, NotePath(cwd), text)
      case Err(_) => (NoteFault, fs)
      case Ok(fs1) =>
        if !v.JString? then (NoteFault, fs1)
        else
          var (fs2, stamp) := UpdateLastChange(fs1, cwd, now);
          FrameCompose(fs, fs1, fs2, NotePath(cwd), LastChangePath(cwd));
          (Send(200, NoteSaved(stamp)), fs2)
  }

  /** Two writes, each leaving all but one path alone, leave all but those
      two paths alone. */
  lemma FrameCompose(fs: FileSystem, fs1: FileSystem, fs2: FileSystem, a: string, b: string)
    requires forall q :: q != a ==> Same(fs, fs1, q)
    requires forall q :: q != b ==> Same(fs1, fs2, q)
    ensures forall q :: q != a && q != b ==> Same(fs, fs2, q)
  {
    forall q | q != a && q != b
      ensures Same(fs, fs2, q)
    {
      assert Same(fs, fs1, q);
      assert Same(fs1, fs2, q);
    }
  }

  /** A save succeeds exactly when the request carries a note and the note
      file can be written. */
  lemma SaveNoteSucceeds(fs: FileSystem, cwd: string, length: ContentLength, body: seq<Byte>,
                         parse: JsonParser, now: string)
    ensures SaveNote(fs, cwd, length, body, parse, now).0.status == 200
            <==> (var n := RequestedNote(length, body, parse);
                  n.Some? && WriteText(fs, NotePath(cwd), n.value).Ok?)
  {
  }

  /** A JSON object without a "note" key saves the empty note: when the
      note file can be written the reply is 200 and the file reads back
      empty. */
  lemma SaveNoteMissingKey(fs: FileSystem, cs: seq<string>, length: ContentLength, body: seq<Byte>,
                           parse: JsonParser, now: string)
    requires AllPlain(cs)
    requires length.Length? && length.n != 0 && Decode(body).Some?
    requires var doc := parse(Decode(body).value); doc.Some? && doc.value.JObject? && "note" !in doc.value.fields
    requires WriteText(fs, NotePath(Rooted(cs)), "").Ok?
    ensures var r := SaveNote(fs, Rooted(cs), length, body, parse, now);
            && r.0.status == 200
            && IsFile(r.1, NotePath(Rooted(cs)))
            && r.1[NotePath(Rooted(cs))].content == []
  {
    var cwd := Rooted(cs);
    assert Encode("") == [];
    NoteFilesApart(cs);
    var fs1 := WriteText(fs, NotePath(cwd), "").value;
    assert Same(fs1, UpdateLastChange(fs1, cwd, now).0, NotePath(cwd));
  }

  /** A failed save changes the filesystem only when the note was not a
      string: the file was opened for writing, so it is left empty. */
  lemma FailedSaveTruncates(fs: FileSystem, cwd: string, length: ContentLength, body: seq<Byte>,
                            parse: JsonParser, now: string)
    requires var r := SaveNote(fs, cwd, length, body, parse, now); r.0.status != 200 && r.1 != fs
    ensures var v := NoteValue(length, body, parse); v.Ok? && !v.value.JString?
    ensures var fs' := SaveNote(fs, cwd, length, body, parse, now).1;
            IsFile(fs', NotePath(cwd)) && fs'[NotePath(cwd)].content == []
  {
  }

  /** The note and stamp files are different files. */
  lemma NoteFilesApart(cs: seq<string>)
    requires AllPlain(cs)
    ensures NotePath(Rooted(cs)) == DirPrefix(cs) + NoteFile
    ensures LastChangePath(Rooted(cs)) == DirPrefix(cs) + LastChangeFile
    ensures NotePath(Rooted(cs)) != LastChangePath(Rooted(cs))
  {
    assert Plain(NoteFile) && Plain(LastChangeFile);
    WorkingDirChild(cs, NoteFile);
    WorkingDirChild(cs, LastChangeFile);
    assert |NoteFile| != |LastChangeFile|;
  }

  /** Round trip: after a successful save, `GET /api/note` returns the saved
      note (line ends as text mode reads them, so exactly the note when it
      holds no carriage return), and the stamp it reports is the one the save
      reported, when the save could write one. */
  lemma {:induction false} NoteRoundTrip(fs: FileSystem, cs: seq<string>, length: ContentLength,
                                         body: seq<Byte>, parse: JsonParser, now: string)
    requires AllPlain(cs)
    requires SaveNote(fs, Rooted(cs), length, body, parse, now).0.status == 200
    ensures var (resp, fs') := SaveNote(fs, Rooted(cs), length, body, parse, now);
            var n := RequestedNote(length, body, parse).value;
            && GetNote(fs', Rooted(cs)).body.note == UniversalNewlines(n)
            && ('\r' !in n ==> GetNote(fs', Rooted(cs)).body.note == n)
            && (resp.body.lastChange.Some? ==>
                  GetNote(fs', Rooted(cs)).body.lastChange == Some(Strip(UniversalNewlines(now))))
            && (resp.body.lastChange.None? ==>
                  GetNote(fs', Rooted(cs)).body.lastChange == LastChange(fs, Rooted(cs)))
  {
    var cwd := Rooted(cs);
    var n := RequestedNote(length, body, parse).value;
    NoteFilesApart(cs);
    var fs1 := WriteText(fs, NotePath(cwd), n).value;
    ReadAfterWriteText(fs, NotePath(cwd), n);
    ReadOtherAfterWrite(fs, NotePath(cwd), Encode(n), LastChangePath(cwd));
    if WriteText(fs1, LastChangePath(cwd), now).Ok? {
      StampReadBack(fs1, cwd, now);
      ReadOtherAfterWrite(fs1, LastChangePath(cwd), Encode(now), NotePath(cwd));
    }
  }

  // ---------------------------------------------------------------------
  // server_v.3.py: the note on the page and POST /save_note

  /** `os.path.join(os.path.dirname(__file__) or '.', NOTE_FILE)`, opened
      relative to the working directory; `scriptDir` is `dirname(__file__)`. */
  function NotePathV3(cwd: string, scriptDir: string): string {
    AbsPath(cwd, PathJoin(if scriptDir == "" then "." else scriptDir, NoteFile))
  }

  const NoteLoadError: string := "Error loading notes."

  /** The note text `list_directory` puts on the page (lines 98-106). */
  function PageNoteV3(fs: FileSystem, cwd: string, scriptDir: string): (r: string)
    ensures ReadText(fs, NotePathV3(cwd, scriptDir)).Ok? ==> r == ReadText(fs, NotePathV3(cwd, scriptDir)).value
    ensures !Exists(fs, NotePathV3(cwd, scriptDir)) ==> r == ""
    ensures Exists(fs, NotePathV3(cwd, scriptDir)) && ReadText(fs, NotePathV3(cwd, scriptDir)).Err? ==> r == NoteLoadError
  {
    var p := NotePathV3(cwd, scriptDir);
    if !Exists(fs, p) then ""
    else match ReadText(fs, p)
      case Ok(s) => s
      case Err(_) => NoteLoadError
  }

  /** `POST /save_note` (lines 481-503): the first `note` field of the form
      body (empty when there is none) replaces the note; a failed write is
      ignored, and the reply is a redirect whenever the body could be read. */
  function SaveNoteV3(fs: FileSystem, cwd: string, scriptDir: string, length: ContentLength,
                      body: seq<Byte>): (r: (Response, FileSystem))
    ensures r.0 == SeeMain <==> length.Length? && Decode(body).Some?
    ensures r.0 != SeeMain ==> r.0 == Send(500, ErrorPageFault(RequestFault)) && r.1 == fs
    ensures forall q :: q != NotePathV3(cwd, scriptDir) ==> Same(fs, r.1, q)
  {
    if !length.Length? || Decode(body).None? then (Send(500, ErrorPageFault(RequestFault)), fs)
    else
      var note := QueryValue(Decode(body).value, "note").GetOr("");
      match WriteText(fs, NotePathV3(cwd, scriptDir), note)
      case Ok(fs') => (SeeMain, fs')
      case Err(_) => (SeeMain, fs)
  }

  /** What `POST /save_note` stores: the value of the FIRST `note` field of
      the body (`parse_qs(...).get('note', [''])[0]`), or the empty note when
      the body has no `note` field; a failed write leaves everything as it
      was. */
  lemma SaveNoteV3Stores(fs: FileSystem, cwd: string, scriptDir: string, length: ContentLength, body: seq<Byte>)
    requires length.Length? && Decode(body).Some?
    ensures var pairs := ParseQs(Decode(body).value);
            var p := NotePathV3(cwd, scriptDir);
            var r := SaveNoteV3(fs, cwd, scriptDir, length, body);
            && ((forall i :: 0 <= i < |pairs| ==> pairs[i].0 != "note") ==>
                  r.1 == (if WriteText(fs, p, "").Ok? then WriteText(fs, p, "").value else fs))
            && (forall i :: 0 <= i < |pairs| && pairs[i].0 == "note" && (forall j :: 0 <= j < i ==> pairs[j].0 != "note") ==>
                  r.1 == (if WriteText(fs, p, pairs[i].1).Ok? then WriteText(fs, p, pairs[i].1).value else fs))
  {
    var pairs := ParseQs(Decode(body).value);
    var v := FirstValue(pairs, "note");
    if v.Some? {
      var k :| 0 <= k < |pairs| && pairs[k] == ("note", v.value) && forall j :: 0 <= j < k ==> pairs[j].0 != "note";
      forall i | 0 <= i < |pairs| && pairs[i].0 == "note" && (forall j :: 0 <= j < i ==> pairs[j].0 != "note")
        ensures pairs[i].1 == v.value
      {
        assert !(i < k) && !(k < i);
      }
    }
  }

  /** A readable body without a `note` field empties the note file when it
      can be written. */
  lemma SaveNoteV3NoField(fs: FileSystem, cwd: string, scriptDir: string, length: ContentLength, body: seq<Byte>)
    requires length.Length? && Decode(body).Some?
    requires forall i :: 0 <= i < |ParseQs(Decode(body).value)| ==> ParseQs(Decode(body).value)[i].0 != "note"
    requires WriteText(fs, NotePathV3(cwd, scriptDir), "").Ok?
    ensures var r := SaveNoteV3(fs, cwd, scriptDir, length, body);
            r.0 == SeeMain && IsFile(r.1, NotePathV3(cwd, scriptDir)) && r.1[NotePathV3(cwd, scriptDir)].content == []
  {
    SaveNoteV3Stores(fs, cwd, scriptDir, length, body);
    assert Encode("") == [];
  }

  /** The body a browser posts for the note form: `note=` and the encoded
      text. */
  function NoteFormBody(n: string): seq<Byte> {
    Encode("note=" + FormEncode(n))
  }

  /** The note field's name needs no encoding. */
  lemma NoteKeyPlain()
    ensures PlainName("note")
  {
    assert IsUnreserved('n') && IsUnreserved('o') && IsUnreserved('t') && IsUnreserved('e');
  }

  /** The form body decodes, and its `note` field is the note (an empty
      note sends no value, which reads as the empty default). */
  lemma FormNote(n: string)
    requires IsAscii(n)
    ensures Decode(NoteFormBody(n)) == Some("note=" + FormEncode(n))
    ensures QueryValue("note=" + FormEncode(n), "note").GetOr("") == n
  {
    DecodeEncode("note=" + FormEncode(n));
    NoteKeyPlain();
    assert "note=" + FormEncode(n) == "note" + "=" + FormEncode(n);
    QueryOfEncoded("note", n);
  }

  lemma PageNoteAfterWrite(fs: FileSystem, cwd: string, scriptDir: string, n: string)
    requires WriteText(fs, NotePathV3(cwd, scriptDir), n).Ok?
    ensures PageNoteV3(WriteText(fs, NotePathV3(cwd, scriptDir), n).value, cwd, scriptDir) == UniversalNewlines(n)
  {
    ReadAfterWriteText(fs, NotePathV3(cwd, scriptDir), n);
  }

  /** Round trip: a note posted through the form is what the page shows
      next, line ends as text mode reads them. */
  lemma NoteRoundTripV3(fs: FileSystem, cwd: string, scriptDir: string, n: string)
    requires IsAscii(n)
    requires WriteText(fs, NotePathV3(cwd, scriptDir), n).Ok?
    ensures var r := SaveNoteV3(fs, cwd, scriptDir, Length(|NoteFormBody(n)|), NoteFormBody(n));
            r.0 == SeeMain && PageNoteV3(r.1, cwd, scriptDir) == UniversalNewlines(n)
  {
    FormNote(n);
    PageNoteAfterWrite(fs, cwd, scriptDir, n);
  }

  // ---------------------------------------------------------------------
  // server_v.1.py: the note on the page and POST /save_note

  /** The note `list_directory` reads (lines 33-36): `None` when reading
      raises, which the handler does not catch. */
  function PageNoteV1(fs: FileSystem, cwd: string): (r: Option<string>)
    ensures r.None? <==> Exists(fs, NotePath(cwd)) && ReadText(fs, NotePath(cwd)).Err?
    ensures r.Some? && Exists(fs, NotePath(cwd)) ==> r == Some(ReadText(fs, NotePath(cwd)).value)
    ensures !Exists(fs, NotePath(cwd)) ==> r == Some("")
  {
    var p := NotePath(cwd);
    if !Exists(fs, p) then Some("")
    else match ReadText(fs, p)
      case Ok(s) => Some(s)
      case Err(_) => None
  }

  /** The note as line 122 cuts it out of the body: the text after the first
      `note=` up to the next one, '+' read as a space, `%0D%0A` as a line
      feed, then unquoted; `None` is the `IndexError` when there is no
      `note=` at all. */
  function NoteFieldV1(text: string): (r: Option<string>)
    ensures r.Some? <==> Contains(text, "note=")
  {
    var pieces := SplitOn(text, "note=");
    SplitOnPieces(text, "note=");
    if |pieces| < 2 then None
    else Some(Unquote(ReplaceAll(ReplaceAll(pieces[1], "+", " "), "%0D%0A", "\n")))
  }

  /** `save_note` of server_v.1.py (lines 119-127): nothing is caught, so any
      failure leaves the request without a response. */
  function SaveNoteV1(fs: FileSystem, cwd: string, length: ContentLength, body: seq<Byte>): (r: (Response, FileSystem))
    ensures r.0 == SeeMain <==> (&& length.Length? && Decode(body).Some?
                                 && NoteFieldV1(Decode(body).value).Some?
                                 && WriteText(fs, NotePath(cwd), NoteFieldV1(Decode(body).value).value).Ok?)
    ensures r.0 != SeeMain ==> r.0 == NoReply && r.1 == fs
    ensures forall q :: q != NotePath(cwd) ==> Same(fs, r.1, q)
  {
    if !length.Length? then (NoReply, fs)
    else match Decode(body)
      case None => (NoReply, fs)
      case Some(text) =>
        match NoteFieldV1(text)
        case None => (NoReply, fs)
        case Some(note) =>
          match WriteText(fs, NotePath(cwd), note)
          case Ok(fs') => (SeeMain, fs')
          case Err(_) => (NoReply, fs)
  }

  /** The encoded form value never holds `note=`, since '=' is always
      encoded. */
  lemma EncodedHasNoField(n: string)
    ensures !Contains(FormEncode(n), "note=")
  {
    var v := FormEncode(n);
    forall i | 0 <= i < |v| ensures v[i] != '=' {
      assert IsUnreserved(v[i]) || v[i] == '%' || v[i] == '+';
    }
    NoEqualsNoField(v);
  }

  /** A string without '=' cannot hold a `note=` field marker. */
  lemma NoEqualsNoField(v: string)
    requires forall i :: 0 <= i < |v| ==> v[i] != '='
    ensures !Contains(v, "note=")
  {
    forall i | 0 <= i <= |v| ensures !StartsWith(v[i..], "note=") {
      if i + 5 <= |v| {
        assert v[i..][..5][4] == v[i + 4];
      }
    }
  }

  /** Round trip for the form a browser posts: an ASCII note without
      carriage returns is what the page shows next. */
  lemma NoteRoundTripV1(fs: FileSystem, cwd: string, n: string)
    requires IsAscii(n) && '\r' !in n
    requires WriteText(fs, NotePath(cwd), n).Ok?
    ensures var r := SaveNoteV1(fs, cwd, Length(|NoteFormBody(n)|), NoteFormBody(n));
            r.0 == SeeMain && PageNoteV1(r.1, cwd) == Some(n)
  {
    var v := FormEncode(n);
    DecodeEncode("note=" + v);
    SplitOnLeading("note=", v);
    EncodedHasNoField(n);
    SplitOnAbsent(v, "note=");
    PlusToSpace(n);
    SpacedNoCrLf(n);
    UnquoteSpaced(n);
    assert NoteFieldV1("note=" + v) == Some(n);
    ReadAfterWriteText(fs, NotePath(cwd), n);
  }
}

=== FILE: path_resolver.dfy ===
/** Turning a client-supplied name into a filesystem path below the shared
    folder: `secure_path` of server_v.4.py and `CustomHandler.translate_path`
    of server_v.3.py.

    The working directory is an absolute, normalised path; lemmas take it as
    its list of plain components `cs`, so that `Rooted(cs)` is what
    `os.getcwd()` returns and `Rooted(cs + ["shared"])` is the shared root. */
module PathResolver {
  import opened Wrappers
  import opened Text
  import opened Percent
  import opened PosixPath

  /** `SHARED_FOLDER` in every variant. */
  const SharedFolder: string := "./shared"

  /** Where `translate_path` sends a request it refuses (server_v.3.py:77). */
  const Sentinel: string := "nonexistent_path_due_to_security"

  /** The three `ValueError`s `secure_path` raises, in the order it checks. */
  datatype PathError =
    | InvalidComponent   // empty, `.` or `..` as given
    | Traversal          // absolute or starting with `..` once decoded and normalised
    | OutsideRoot        // the joined path left the shared folder

  /** `os.path.abspath(SHARED_FOLDER)` */
  function SharedRoot(cwd: string): string {
    AbsPath(cwd, SharedFolder)
  }

  /** `p` is the root itself or lies below it, on a separator boundary. */
  predicate Within(p: string, root: string) {
    p == root || StartsWith(p, root + [Sep])
  }

  /** The directory prefix every path below `Rooted(cs)` starts with. */
  function DirPrefix(cs: seq<string>): string {
    if |cs| == 0 then [Sep] else Rooted(cs) + [Sep]
  }

  /** `secure_path(base_folder, filename)` (server_v.4.py:65-85). The literal
      check on the name comes first, before any decoding, and no successful
      result lies outside the base folder. */
  function SecurePath(cwd: string, base: string, filename: string): (r: Result<string, PathError>)
    ensures filename == "" || filename == "." || filename == ".." ==> r == Err(InvalidComponent)
    ensures r.Ok? ==> Within(r.value, AbsPath(cwd, base)) && r.value != ""
  {
    if filename == "" || filename == "." || filename == ".." then Err(InvalidComponent)
    else
      var name := NormPath(Unquote(filename));
      if IsAbs(name) || StartsWith(name, "..") then Err(Traversal)
      else
        var full := AbsPath(cwd, PathJoin(base, name));
        var root := AbsPath(cwd, base);
        if !StartsWith(full, root + [Sep]) && full != root then Err(OutsideRoot)
        else Ok(full)
  }

  /** `translate_path(path)` as server_v.3.py writes it (lines 30-32, 65,
      70-79): the prefix test at line 74 has no separator boundary. */
  function TranslatePathAsWritten(cwd: string, path: string): (r: string)
    ensures r == PathJoin(cwd, Sentinel) || StartsWith(r, AbsPath(cwd, PathJoin(cwd, SharedFolder)))
  {
    var full := TranslateCandidate(cwd, path);
    var shared := AbsPath(cwd, PathJoin(cwd, SharedFolder));
    if !StartsWith(full, shared) then PathJoin(cwd, Sentinel) else full
  }

  /** `translate_path` with the containment test bounded by a separator, as
      its comment at line 73 intends. It agrees with the code whenever the
      code's answer really lies inside the shared folder. */
  function TranslatePath(cwd: string, path: string): (r: string)
    ensures r == PathJoin(cwd, Sentinel) || Within(r, AbsPath(cwd, PathJoin(cwd, SharedFolder)))
    ensures Within(TranslatePathAsWritten(cwd, path), AbsPath(cwd, PathJoin(cwd, SharedFolder)))
            ==> r == TranslatePathAsWritten(cwd, path)
  {
    var full := TranslateCandidate(cwd, path);
    var shared := AbsPath(cwd, PathJoin(cwd, SharedFolder));
    WithinStartsWith(full, shared);
    if !Within(full, shared) then PathJoin(cwd, Sentinel) else full
  }

  lemma {:induction false} WithinStartsWith(p: string, root: string)
    ensures Within(p, root) ==> StartsWith(p, root)
  {
    if StartsWith(p, root + [Sep]) {
      assert p[..|root|] == (root + [Sep])[..|root|];
    }
  }

  /** Lines 30-32 and 70-71: drop the query and fragment, decode, normalise,
      strip leading slashes and resolve below `cwd/./shared`. */
  function TranslateCandidate(cwd: string, path: string): string {
    var p := NormPath(Unquote(BeforeFirst(BeforeFirst(path, '?'), '#')));
    var rel := LStrip(p, Sep);
    AbsPath(cwd, PathJoin(PathJoin(cwd, SharedFolder), rel))
  }

  // ---------------------------------------------------------------------
  // Facts about the shared folder below a normalised working directory

  lemma {:induction false} SharedFolderShape()
    ensures SharedFolder == "." + [Sep] + "shared"
    ensures !IsAbs(SharedFolder) && |SharedFolder| == 8 && SharedFolder[7] == 'd'
  {
    assert SharedFolder[..1] == ".";
  }

  lemma {:induction false} SplitSharedFolder()
    ensures Split(SharedFolder) == [".", "shared"]
  {
    SharedFolderShape();
    SplitConcat(".", "shared");
    SplitNoSep(".");
    SplitNoSep("shared");
  }

  lemma {:induction false} SplitShared(rest: string)
    ensures Split(SharedFolder + [Sep] + rest) == [".", "shared"] + Split(rest)
  {
    SplitSharedFolder();
    SplitConcat(SharedFolder, rest);
  }

  lemma {:induction false} NormShared(cs: seq<string>, rest: seq<string>)
    ensures NormSegments([".", "shared"] + rest, true, cs) == NormSegments(rest, true, cs + ["shared"])
  {
    var two: seq<string> := [".", "shared"];
    NormSegmentsConcat(two, rest, true, cs);
    assert NormSegments(two, true, cs) == cs + ["shared"] by {
      assert two[1..] == ["shared"];
      assert NormStep(cs, ".", true) == cs;
      assert NormStep(cs, "shared", true) == cs + ["shared"];
      var one: seq<string> := ["shared"];
      assert one[1..] == [];
    }
  }

  lemma {:induction false} RootedAppend(cs: seq<string>, xs: seq<string>)
    requires |xs| > 0
    ensures Rooted(cs + xs) == DirPrefix(cs) + Join(xs)
  {
    if |cs| == 0 {
      assert cs + xs == xs;
    } else {
      JoinConcat(cs, xs);
    }
  }

  /** A plain name resolves to the entry of that name in the working
      directory, whose parent directory is the working directory again. */
  lemma {:induction false} WorkingDirChild(cs: seq<string>, n: string)
    requires AllPlain(cs) && Plain(n)
    ensures AbsPath(Rooted(cs), n) == Rooted(cs + [n])
    ensures Rooted(cs + [n]) == DirPrefix(cs) + n
    ensures Dirname(Rooted(cs + [n])) == Rooted(cs)
  {
    assert !IsAbs(n) by {
      assert n[0] != Sep;
    }
    AbsPathRelative(cs, n);
    SplitNoSep(n);
    NormSegmentsPlain([n], true, cs);
    RootedAppend(cs, [n]);
    var p := DirPrefix(cs) + n;
    if |cs| == 0 {
      assert p == [] + [Sep] + n;
      BasenameAfterSep([], n);
      assert p[..1] == Repeat(Sep, 1);
    } else {
      JoinLast(cs);
      assert Rooted(cs)[|Rooted(cs)| - 1] == Join(cs)[|Join(cs)| - 1];
      ChildPath(Rooted(cs), n);
    }
  }

  /** The shared root is the working directory plus one `shared` component. */
  lemma {:induction false} SharedRootIs(cs: seq<string>)
    requires AllPlain(cs)
    ensures SharedRoot(Rooted(cs)) == Rooted(cs + ["shared"])
    ensures SharedRoot(Rooted(cs)) == DirPrefix(cs) + "shared"
    ensures AbsPath(Rooted(cs), PathJoin(Rooted(cs), SharedFolder)) == SharedRoot(Rooted(cs))
  {
    var cwd := Rooted(cs);
    SharedFolderShape();
    AbsPathRelative(cs, SharedFolder);
    SplitSharedFolder();
    var two: seq<string> := [".", "shared"];
    var none: seq<string> := [];
    assert two + none == two;
    NormShared(cs, none);
    assert NormSegments(none, true, cs + ["shared"]) == cs + ["shared"];
    RootedAppend(cs, ["shared"]);
    assert IsAbs(PathJoin(cwd, SharedFolder));
  }

  /** Resolving `./shared/rest` against the working directory runs the
      component loop over `rest` from the shared root's components. */
  lemma {:induction false} BelowShared(cs: seq<string>, rest: string)
    requires AllPlain(cs)
    requires !IsAbs(rest)
    ensures AbsPath(Rooted(cs), SharedFolder + [Sep] + rest)
            == Rooted(NormSegments(Split(rest), true, cs + ["shared"]))
  {
    var q := SharedFolder + [Sep] + rest;
    SharedFolderShape();
    assert q[0] == '.';
    AbsPathRelative(cs, q);
    SplitShared(rest);
    NormShared(cs, Split(rest));
  }

  /** Components that are all plain land below the shared root. */
  lemma {:induction false} BelowSharedPlain(cs: seq<string>, segs: seq<string>)
    requires AllPlain(cs) && AllPlain(segs)
    ensures AbsPath(Rooted(cs), SharedFolder + [Sep] + Join(segs)) == Rooted(cs + ["shared"] + segs)
  {
    var rest := Join(segs);
    if |segs| == 0 {
      BelowShared(cs, rest);
      assert Split(rest) == [[]];
      var e: seq<string> := [[]];
      assert e[1..] == [];
      assert NormSegments(e, true, cs + ["shared"]) == cs + ["shared"];
      assert cs + ["shared"] + segs == cs + ["shared"];
    } else {
      JoinPrefix(segs);
      assert rest[0] == segs[0][0];
      BelowShared(cs, rest);
      SplitJoin(segs);
      NormSegmentsPlain(segs, true, cs + ["shared"]);
    }
  }

  /** The same path written as the shared root followed by the components. */
  lemma {:induction false} RootedBelowShared(cs: seq<string>, segs: seq<string>)
    requires |segs| > 0
    ensures Rooted(cs + ["shared"] + segs) == Rooted(cs + ["shared"]) + [Sep] + Join(segs)
  {
    JoinConcat(cs + ["shared"], segs);
  }

  // ---------------------------------------------------------------------
  // secure_path

  /** A name that passed `secure_path`'s traversal test has plain components
      only, and normalises to `.` or to their join. */
  lemma {:induction false} AcceptedNameShape(u: string)
    requires !IsAbs(NormPath(u)) && !StartsWith(NormPath(u), "..")
    ensures AllPlain(Components(u))
    ensures NormPath(u) == (if |Components(u)| == 0 then "." else Join(Components(u)))
  {
    var segs := Components(u);
    NormRelative(u);
    assert |segs| == 0 || segs[0] != ".." by {
      if |segs| > 0 {
        JoinPrefix(segs);
      }
    }
    CanonicalPlain(segs, false);
  }

  /** Where an accepted name lands: root joined with its plain components. */
  lemma {:induction false} AcceptedNameTarget(cs: seq<string>, u: string)
    requires AllPlain(cs)
    requires !IsAbs(NormPath(u)) && !StartsWith(NormPath(u), "..")
    ensures AbsPath(Rooted(cs), PathJoin(SharedFolder, NormPath(u))) == Rooted(cs + ["shared"] + Components(u))
  {
    var name := NormPath(u);
    var segs := Components(u);
    AcceptedNameShape(u);
    SharedFolderShape();
    assert PathJoin(SharedFolder, name) == SharedFolder + [Sep] + name;
    if |segs| == 0 {
      BelowShared(cs, ".");
      SplitNoSep(".");
      var d: seq<string> := ["."];
      assert d[1..] == [];
      assert NormSegments(d, true, cs + ["shared"]) == cs + ["shared"];
      assert cs + ["shared"] + segs == cs + ["shared"];
    } else {
      BelowSharedPlain(cs, segs);
    }
  }

  /** With a normalised working directory the last containment test of
      `secure_path` never fires: the verdict rests on the literal check and
      on the decoded, normalised name, and a success is the shared root
      followed by plain components only. */
  lemma {:induction false} SecurePathResolves(cs: seq<string>, filename: string)
    requires AllPlain(cs)
    ensures var cwd := Rooted(cs);
            var r := SecurePath(cwd, SharedFolder, filename);
            var name := NormPath(Unquote(filename));
            var segs := Components(Unquote(filename));
            && r != Err(OutsideRoot)
            && (r.Ok? <==> filename != "" && filename != "." && filename != ".."
                           && !IsAbs(name) && !StartsWith(name, ".."))
            && (r.Ok? ==> AllPlain(segs) && r.value == Rooted(cs + ["shared"] + segs))
            && (r.Ok? ==> AllPlain(["shared"] + segs) && r.value == Rooted(cs + (["shared"] + segs)))
            && (r.Ok? ==> r.value == (if name == "." then SharedRoot(Rooted(cs)) else SharedRoot(Rooted(cs)) + [Sep] + name))
  {
    var cwd := Rooted(cs);
    var u := Unquote(filename);
    var name := NormPath(u);
    var segs := Components(u);
    if filename != "" && filename != "." && filename != ".." && !IsAbs(name) && !StartsWith(name, "..") {
      AcceptedNameShape(u);
      AcceptedNameTarget(cs, u);
      PrefixedPlain(cs, "shared", segs);
      if |segs| > 0 {
        RootedBelowShared(cs, segs);
      } else {
        assert cs + ["shared"] + segs == cs + ["shared"];
      }
      SharedRootIs(cs);
      var full := Rooted(cs + ["shared"] + segs);
      assert Within(full, SharedRoot(cwd));
      assert SecurePath(cwd, SharedFolder, filename) == Ok(full);
    }
  }

  /** `normpath` leaves a plain name alone. */
  lemma {:induction false} NormPlain(n: string)
    requires Plain(n)
    ensures Components(n) == [n]
    ensures NormPath(n) == n
  {
    SplitNoSep(n);
    var one: seq<string> := [n];
    assert one[1..] == [];
    assert NormSegments(one, false, []) == one;
    NormRelative(n);
  }

  /** `os.path.join(SHARED_FOLDER, n)` for a plain entry name `n` is the
      entry's place below the shared root. */
  lemma {:induction false} SharedChild(cs: seq<string>, n: string)
    requires AllPlain(cs) && Plain(n)
    ensures AbsPath(Rooted(cs), PathJoin(SharedFolder, n)) == SharedRoot(Rooted(cs)) + [Sep] + n
  {
    SharedFolderShape();
    assert n[0] != Sep;
    assert PathJoin(SharedFolder, n) == SharedFolder + [Sep] + Join([n]);
    BelowSharedPlain(cs, [n]);
    RootedBelowShared(cs, [n]);
    SharedRootIs(cs);
  }

  /** `os.path.join(SHARED_FOLDER, name)` for any name without '/': the
      entry below the shared root for a plain name, the root itself for an
      empty name or `.`, and the working directory for `..`. */
  lemma {:induction false} SharedNameTarget(cs: seq<string>, name: string)
    requires AllPlain(cs) && NoSep(name)
    ensures var root := SharedRoot(Rooted(cs));
            AbsPath(Rooted(cs), PathJoin(SharedFolder, name))
            == if name == ".." then Rooted(cs)
               else if name == "" || name == "." then root
               else root + [Sep] + name
  {
    if Plain(name) {
      SharedChild(cs, name);
    } else {
      SharedFolderShape();
      assert !IsAbs(name) by {
        assert name == [] || name[0] != Sep;
      }
      assert PathJoin(SharedFolder, name) == SharedFolder + [Sep] + name;
      BelowShared(cs, name);
      SplitNoSep(name);
      var one: seq<string> := [name];
      assert one[1..] == [];
      var acc := cs + ["shared"];
      assert acc[..|acc| - 1] == cs;
      assert NormSegments(one, true, acc) == NormStep(acc, name, true);
      SharedRootIs(cs);
    }
  }

  /** The shared root is longer than the working directory, so the working
      directory does not start with it. */
  lemma WorkingDirOutsideShared(cs: seq<string>)
    requires AllPlain(cs)
    ensures !StartsWith(Rooted(cs), SharedRoot(Rooted(cs)))
    ensures !Within(Rooted(cs), SharedRoot(Rooted(cs)))
  {
    SharedRootIs(cs);
    assert |DirPrefix(cs)| >= |Rooted(cs)|;
  }

  /** The link `/shared/quote(n)` of a listed ASCII name `n` resolves to
      `root/n` — unless `n` begins with `..`, which `secure_path` refuses
      even when it is an ordinary name such as `..foo`. */
  lemma {:induction false} SecurePathOfQuotedName(cs: seq<string>, n: string)
    requires AllPlain(cs)
    requires Plain(n) && IsAscii(n)
    ensures var r := SecurePath(Rooted(cs), SharedFolder, Quote(n));
            r == if StartsWith(n, "..") then Err(Traversal)
                 else Ok(SharedRoot(Rooted(cs)) + [Sep] + n)
  {
    var q := Quote(n);
    UnquoteQuote(n);
    assert q != "" && q != "." && q != ".." by {
      assert Unquote(".") == "." && Unquote("..") == "..";
    }
    NormPlain(n);
    assert !IsAbs(n) by {
      assert n[0] != Sep;
    }
    SecurePathResolves(cs, q);
  }

  /** A name without '/' or '%' that starts with `..` is refused as a
      traversal attempt, however harmless (`..foo`). */
  lemma {:induction false} DotDotNameRefused(cs: seq<string>, n: string)
    requires AllPlain(cs)
    requires Plain(n) && '%' !in n && StartsWith(n, "..")
    ensures SecurePath(Rooted(cs), SharedFolder, n) == Err(Traversal)
  {
    NormPlain(n);
  }

  // ---------------------------------------------------------------------
  // translate_path

  lemma {:induction false} UnquoteKeepsHead(s: string)
    requires |s| > 0 && s[0] != '%'
    ensures |Unquote(s)| > 0 && Unquote(s)[0] == s[0]
  {
  }

  /** Lines 70-71 resolve `cwd/./shared/rel`. */
  lemma {:induction false} CandidateIs(cs: seq<string>, rel: string)
    requires AllPlain(cs)
    requires !IsAbs(rel)
    ensures AbsPath(Rooted(cs), PathJoin(PathJoin(Rooted(cs), SharedFolder), rel))
            == AbsPath(Rooted(cs), SharedFolder + [Sep] + rel)
  {
    var cwd := Rooted(cs);
    SharedFolderShape();
    var a := PathJoin(cwd, SharedFolder);
    assert a[|a| - 1] == 'd';
    assert PathJoin(a, rel) == a + [Sep] + rel;
    assert (SharedFolder + [Sep] + rel)[0] == '.';
    assert PathJoin(cwd, SharedFolder + [Sep] + rel) == a + [Sep] + rel;
  }

  /** After stripping, an absolute target is the join of plain components. */
  lemma {:induction false} StrippedAbsolute(u: string)
    requires IsAbs(u)
    ensures AllPlain(Components(u))
    ensures LStrip(NormPath(u), Sep) == Join(Components(u))
  {
    NormAbsolute(u);
    var segs := Components(u);
    if |segs| > 0 {
      JoinPrefix(segs);
      assert Join(segs)[0] == segs[0][0];
    }
    LStripRepeat(Sep, LeadingSlashes(u), Join(segs));
  }

  /** Every request target that begins with '/' once the query and fragment
      are dropped resolves inside the shared folder, to the root followed by
      plain components; the code and the corrected test agree on it. */
  lemma {:induction false} TranslateRootedTarget(cs: seq<string>, path: string)
    requires AllPlain(cs)
    requires IsAbs(BeforeFirst(BeforeFirst(path, '?'), '#'))
    ensures var u := Unquote(BeforeFirst(BeforeFirst(path, '?'), '#'));
            && AllPlain(Components(u))
            && TranslatePath(Rooted(cs), path) == Rooted(cs + ["shared"] + Components(u))
            && TranslatePathAsWritten(Rooted(cs), path) == TranslatePath(Rooted(cs), path)
            && Within(TranslatePath(Rooted(cs), path), SharedRoot(Rooted(cs)))
  {
    var cwd := Rooted(cs);
    var p0 := BeforeFirst(BeforeFirst(path, '?'), '#');
    UnquoteKeepsHead(p0);
    var u := Unquote(p0);
    StrippedAbsolute(u);
    var segs := Components(u);
    var rel := Join(segs);
    assert !IsAbs(rel) by {
      if |segs| > 0 {
        JoinPrefix(segs);
        assert rel[0] == segs[0][0];
      }
    }
    CandidateIs(cs, rel);
    BelowSharedPlain(cs, segs);
    if |segs| > 0 {
      RootedBelowShared(cs, segs);
    } else {
      assert cs + ["shared"] + segs == cs + ["shared"];
    }
    SharedRootIs(cs);
    var full := TranslateCandidate(cwd, path);
    assert full == Rooted(cs + ["shared"] + segs);
    assert Within(full, SharedRoot(cwd));
    WithinStartsWith(full, SharedRoot(cwd));
  }

  /** The request target `../s/t`. */
  function SiblingTarget(s: string, t: string): string {
    ".." + [Sep] + s + [Sep] + t
  }

  lemma {:induction false} SiblingTargetSplit(s: string, t: string)
    requires Plain(s) && Plain(t)
    ensures Split(SiblingTarget(s, t)) == ["..", s, t]
  {
    SplitConcat("..", s + [Sep] + t);
    SplitConcat(s, t);
    SplitNoSep("..");
    SplitNoSep(s);
    SplitNoSep(t);
    assert SiblingTarget(s, t) == ".." + [Sep] + (s + [Sep] + t);
  }

  lemma {:induction false} SiblingTargetLoop(s: string, t: string, rooted: bool, acc: seq<string>)
    requires Plain(s) && Plain(t)
    ensures NormSegments(["..", s, t], rooted, acc)
            == NormSegments([t], rooted, NormStep(NormStep(acc, "..", rooted), s, rooted))
  {
    var segs := ["..", s, t];
    assert segs[1..] == [s, t];
    assert segs[1..][1..] == [t];
  }

  /** `../s/t` is normalised to itself. */
  lemma {:induction false} SiblingTargetComponents(s: string, t: string)
    requires Plain(s) && Plain(t)
    ensures Components(SiblingTarget(s, t)) == ["..", s, t]
    ensures NormPath(SiblingTarget(s, t)) == SiblingTarget(s, t)
  {
    var path := SiblingTarget(s, t);
    SiblingTargetSplit(s, t);
    assert path[0] == '.';
    assert LeadingSlashes(path) == 0;
    SiblingTargetLoop(s, t, false, []);
    var a: seq<string> := [".."];
    assert NormStep([], "..", false) == a;
    assert NormStep(a, s, false) == a + [s];
    var one: seq<string> := [t];
    assert one[1..] == [];
    assert NormSegments([t], false, a + [s]) == ["..", s, t];
    NormRelative(path);
    assert Join(["..", s, t]) == path;
  }

  /** Below the shared root, `../s/t` steps out into the sibling `s`. */
  lemma {:induction false} SiblingTargetResolves(cs: seq<string>, s: string, t: string)
    requires AllPlain(cs) && Plain(s) && Plain(t)
    ensures NormSegments(["..", s, t], true, cs + ["shared"]) == cs + [s, t]
  {
    var base := cs + ["shared"];
    SiblingTargetLoop(s, t, true, base);
    assert base[..|base| - 1] == cs;
    assert NormStep(base, "..", true) == cs;
    assert NormStep(cs, s, true) == cs + [s];
    var one: seq<string> := [t];
    assert one[1..] == [];
    assert NormSegments([t], true, cs + [s]) == cs + [s] + [t];
    assert cs + [s] + [t] == cs + [s, t];
  }

  /** The code resolves `../s/t` to the sibling folder `s` of the shared one. */
  lemma {:induction false} SiblingCandidate(cs: seq<string>, s: string, t: string)
    requires AllPlain(cs) && Plain(s) && Plain(t)
    requires '?' !in s + t && '#' !in s + t && '%' !in s + t
    ensures TranslateCandidate(Rooted(cs), SiblingTarget(s, t)) == Rooted(cs + [s, t])
  {
    var cwd := Rooted(cs);
    var path := SiblingTarget(s, t);
    assert '?' !in path && '#' !in path && '%' !in path by {
      assert forall i :: 0 <= i < |path| ==> path[i] == '.' || path[i] == Sep || path[i] in s + t;
    }
    SiblingTargetComponents(s, t);
    assert path[0] == '.';
    assert LStrip(path, Sep) == path;
    CandidateIs(cs, path);
    BelowShared(cs, path);
    SiblingTargetSplit(s, t);
    SiblingTargetResolves(cs, s, t);
  }

  /** The as-written test lets a sibling of the shared folder through: any
      folder whose name merely starts with `shared` (for instance
      `../shared2/secret.txt`) is reached outside the shared root, while the
      corrected test refuses it. */
  lemma {:induction false} TranslateSiblingEscapes(cs: seq<string>, s: string, t: string)
    requires AllPlain(cs) && Plain(s) && Plain(t)
    requires StartsWith(s, "shared") && s != "shared"
    requires '?' !in s + t && '#' !in s + t && '%' !in s + t
    ensures var r := TranslatePathAsWritten(Rooted(cs), SiblingTarget(s, t));
            && r == Rooted(cs + [s, t])
            && !Within(r, SharedRoot(Rooted(cs)))
    ensures TranslatePath(Rooted(cs), SiblingTarget(s, t)) == PathJoin(Rooted(cs), Sentinel)
  {
    var cwd := Rooted(cs);
    var path := SiblingTarget(s, t);
    var full := Rooted(cs + [s, t]);
    SiblingCandidate(cs, s, t);
    SharedRootIs(cs);
    SiblingBesideRoot(cs, s, t);
    AsWrittenAdmits(cwd, path);
    CorrectedRefuses(cwd, path);
  }

  /** The sibling `s/t` starts with the shared root's text but is not below it. */
  lemma {:induction false} SiblingBesideRoot(cs: seq<string>, s: string, t: string)
    requires AllPlain(cs) && Plain(s) && Plain(t)
    requires StartsWith(s, "shared") && s != "shared"
    ensures StartsWith(Rooted(cs + [s, t]), SharedRoot(Rooted(cs)))
    ensures !Within(Rooted(cs + [s, t]), SharedRoot(Rooted(cs)))
  {
    SharedRootIs(cs);
    RootedAppend(cs, [s, t]);
    var d := DirPrefix(cs);
    assert Join([s, t]) == s + [Sep] + t;
    SiblingOutside(d, s, t);
  }

  /** The code keeps a candidate that starts with the shared root. */
  lemma {:induction false} AsWrittenAdmits(cwd: string, path: string)
    requires StartsWith(TranslateCandidate(cwd, path), AbsPath(cwd, PathJoin(cwd, SharedFolder)))
    ensures TranslatePathAsWritten(cwd, path) == TranslateCandidate(cwd, path)
  {
  }

  /** The corrected test refuses a candidate outside the shared root. */
  lemma {:induction false} CorrectedRefuses(cwd: string, path: string)
    requires !Within(TranslateCandidate(cwd, path), AbsPath(cwd, PathJoin(cwd, SharedFolder)))
    ensures TranslatePath(cwd, path) == PathJoin(cwd, Sentinel)
  {
  }

  /** String core of the escape: `d + s/t` starts with `d + "shared"` but
      is not within it on a separator boundary. */
  lemma {:induction false} SiblingOutside(d: string, s: string, t: string)
    requires StartsWith(s, "shared") && s != "shared" && NoSep(s)
    ensures StartsWith(d + s + [Sep] + t, d + "shared")
    ensures !Within(d + s + [Sep] + t, d + "shared")
  {
    var full := d + s + [Sep] + t;
    var root := d + "shared";
    assert full[..|root|] == d + s[..6];
    assert |s| > 6;
    assert full[|d| + 6] == s[6];
    assert (root + [Sep])[|d| + 6] == Sep;
    assert |full| > |root|;
  }

  /** The concrete request of the finding: `GET ../shared2/secret.txt`. */
  lemma {:induction false} SiblingExample(cs: seq<string>)
    requires AllPlain(cs)
    ensures TranslatePathAsWritten(Rooted(cs), "../shared2/secret.txt") == Rooted(cs + ["shared2", "secret.txt"])
    ensures !Within(TranslatePathAsWritten(Rooted(cs), "../shared2/secret.txt"), SharedRoot(Rooted(cs)))
    ensures TranslatePath(Rooted(cs), "../shared2/secret.txt") == PathJoin(Rooted(cs), Sentinel)
  {
    assert SiblingTarget("shared2", "secret.txt") == "../shared2/secret.txt";
    assert "shared2"[..6] == "shared";
    TranslateSiblingEscapes(cs, "shared2", "secret.txt");
  }

  // ---------------------------------------------------------------------
  // SimpleHTTPRequestHandler.translate_path, which server_v.4.py inherits

  /** The words the base class keeps: `filter(None, ...)` drops the empty
      ones, and a word with a `dirname` (one holding '/') or equal to `.` or
      `..` is skipped. */
  function KeptWords(ws: seq<string>): (r: seq<string>)
    ensures AllPlain(r)
    ensures |r| <= |ws|
  {
    if |ws| == 0 then []
    else (if Plain(ws[0]) then [ws[0]] else []) + KeptWords(ws[1..])
  }

  /** `for word in words: path = os.path.join(path, word)` */
  function JoinWords(dir: string, ws: seq<string>): string
    decreases |ws|
  {
    if |ws| == 0 then dir else JoinWords(PathJoin(dir, ws[0]), ws[1..])
  }

  /** `p` is the working directory or lies below it. */
  predicate InWorkingDir(p: string, cs: seq<string>) {
    p == Rooted(cs) || StartsWith(p, DirPrefix(cs))
  }

  /** The base class's `translate_path(path)` with `self.directory` the
      working directory: drop the query and the fragment, note an explicit
      trailing '/', decode, normalise, and join the plain words that remain
      onto the working directory. */
  function BaseTranslate(cwd: string, path: string): (r: string)
    ensures StartsWith(r, cwd)
  {
    var p := BeforeFirst(BeforeFirst(path, '?'), '#');
    var t := JoinWords(cwd, KeptWords(Split(NormPath(Unquote(p)))));
    JoinWordsExtends(cwd, KeptWords(Split(NormPath(Unquote(p)))));
    if EndsWith(RStripSpace(p), [Sep]) then
      assert (t + [Sep])[..|cwd|] == t[..|cwd|];
      t + [Sep]
    else t
  }

  /** Joining plain words only ever extends the directory. */
  lemma {:induction false} JoinWordsExtends(dir: string, ws: seq<string>)
    requires AllPlain(ws)
    ensures StartsWith(JoinWords(dir, ws), dir)
    decreases |ws|
  {
    if |ws| > 0 {
      var d := PathJoin(dir, ws[0]);
      assert !IsAbs(ws[0]) by {
        assert ws[0][0] != Sep;
      }
      assert d[..|dir|] == dir;
      JoinWordsExtends(d, ws[1..]);
      var r := JoinWords(dir, ws);
      assert r[..|dir|] == r[..|d|][..|dir|];
    }
  }

  /** Joining plain words onto the working directory appends them as
      components. */
  lemma {:induction false} JoinWordsRooted(cs: seq<string>, ws: seq<string>)
    requires AllPlain(cs) && AllPlain(ws)
    ensures JoinWords(Rooted(cs), ws) == Rooted(cs + ws)
    decreases |ws|
  {
    if |ws| == 0 {
      assert cs + ws == cs;
    } else {
      var w := ws[0];
      RootedChild(cs, w);
      AppendPlain(cs, w);
      JoinWordsRooted(cs + [w], ws[1..]);
      ShiftFirst(cs, ws);
    }
  }

  /** `os.path.join` of the working directory and a plain word. */
  lemma {:induction false} RootedChild(cs: seq<string>, w: string)
    requires AllPlain(cs) && Plain(w)
    ensures PathJoin(Rooted(cs), w) == Rooted(cs + [w])
  {
    assert !IsAbs(w) by {
      assert w[0] != Sep;
    }
    RootedAppend(cs, [w]);
    assert Join([w]) == w;
    if |cs| == 0 {
      assert PathJoin(Rooted(cs), w) == [Sep] + w;
    } else {
      JoinLast(cs);
      assert Rooted(cs)[|Rooted(cs)| - 1] == Join(cs)[|Join(cs)| - 1];
      assert PathJoin(Rooted(cs), w) == Rooted(cs) + [Sep] + w;
    }
  }

  /** Whatever the request target, the base class resolves it to the
      working directory or to a path below it. */
  lemma {:induction false} BaseTranslateInside(cs: seq<string>, path: string)
    requires AllPlain(cs)
    ensures InWorkingDir(BaseTranslate(Rooted(cs), path), cs)
  {
    var p := BeforeFirst(BeforeFirst(path, '?'), '#');
    var ws := KeptWords(Split(NormPath(Unquote(p))));
    JoinWordsRooted(cs, ws);
    var t := Rooted(cs + ws);
    if |ws| > 0 {
      RootedAppend(cs, ws);
      assert StartsWith(t, DirPrefix(cs));
      assert (t + [Sep])[..|DirPrefix(cs)|] == t[..|DirPrefix(cs)|];
    } else {
      assert cs + ws == cs;
      assert (t + [Sep])[..|DirPrefix(cs)|] == DirPrefix(cs);
    }
  }

  /** For a target that is the join of ordinary words with nothing to decode
      and no query or fragment mark, the base class finds the path those
      words name below the working directory. */
  lemma {:induction false} BaseTranslatePlain(cs: seq<string>, xs: seq<string>)
    requires AllPlain(cs) && AllPlain(xs) && |xs| > 0
    requires '%' !in Join(xs) && '?' !in Join(xs) && '#' !in Join(xs)
    requires !IsSpace(xs[|xs| - 1][|xs[|xs| - 1]| - 1])
    ensures BaseTranslate(Rooted(cs), Join(xs)) == Rooted(cs + xs)
  {
    var p := Join(xs);
    assert BeforeFirst(BeforeFirst(p, '?'), '#') == p;
    assert Unquote(p) == p;
    assert !IsAbs(p) by {
      JoinPrefix(xs);
      assert p[0] == xs[0][0];
    }
    NormRelative(p);
    SplitJoin(xs);
    NormSegmentsPlain(xs, false, []);
    assert [] + xs == xs;
    assert Components(p) == xs;
    JoinEmpty(xs);
    assert NormPath(p) == p;
    KeptPlain(xs);
    JoinWordsRooted(cs, xs);
    JoinLast(xs);
    JoinLastChar(xs);
    assert RStripSpace(p) == p;
    assert !EndsWith(p, [Sep]);
  }

  /** The last character of a join is the last character of its last piece. */
  lemma {:induction false} JoinLastChar(xs: seq<string>)
    requires |xs| > 0 && |xs[|xs| - 1]| > 0
    ensures |Join(xs)| > 0 && Join(xs)[|Join(xs)| - 1] == xs[|xs| - 1][|xs[|xs| - 1]| - 1]
    decreases |xs|
  {
    if |xs| > 1 {
      JoinLastChar(xs[1..]);
    }
  }

  lemma {:induction false} KeptPlain(ws: seq<string>)
    requires AllPlain(ws)
    ensures KeptWords(ws) == ws
    decreases |ws|
  {
    if |ws| > 0 {
      KeptPlain(ws[1..]);
      assert [ws[0]] + ws[1..] == ws;
    }
  }

  /** `shared/%2E%2E%2Fx` decodes to `shared/../x`, which the base class
      resolves to `x` in the working directory itself. */
  lemma {:induction false} BaseTranslateEncodedParent(cs: seq<string>, x: string)
    requires AllPlain(cs) && Plain(x)
    requires '%' !in x && '?' !in x && '#' !in x && !IsSpace(x[|x| - 1])
    ensures BaseTranslate(Rooted(cs), "shared" + [Sep] + ("%2E%2E%2F" + x)) == Rooted(cs + [x])
  {
    assert "shared" + [Sep] + ("%2E%2E%2F" + x) == "shared/%2E%2E%2F" + x;
    EncodedParentOpened(cs, x);
  }

  lemma {:induction false} EncodedParentOpened(cs: seq<string>, x: string)
    requires AllPlain(cs) && Plain(x)
    requires '%' !in x && '?' !in x && '#' !in x && !IsSpace(x[|x| - 1])
    ensures BaseTranslate(Rooted(cs), "shared/%2E%2E%2F" + x) == Rooted(cs + [x])
  {
    var path := "shared/%2E%2E%2F" + x;
    assert '?' !in path && '#' !in path;
    assert BeforeFirst(BeforeFirst(path, '?'), '#') == path;
    UnquoteEncodedParent(x);
    NormParent(x);
    SplitNoSep(x);
    KeptPlain([x]);
    JoinWordsRooted(cs, [x]);
    assert path[|path| - 1] == x[|x| - 1];
    assert RStripSpace(path) == path;
  }

  lemma {:induction false} UnquoteEncodedParent(x: string)
    requires '%' !in x
    ensures Unquote("shared/%2E%2E%2F" + x) == "shared/../" + x
  {
    var dot := "%2E";
    var sl := "%2F";
    assert "shared/%2E%2E%2F" + x == "shared/" + (dot + (dot + (sl + x)));
    UnquoteLiteralPrefix("shared/", dot + (dot + (sl + x)));
    UnquoteTriplet('2', 'E', dot + (sl + x));
    UnquoteTriplet('2', 'E', sl + x);
    UnquoteTriplet('2', 'F', x);
    assert "shared/" + ("." + ("." + ("/" + x))) == "shared/../" + x;
  }

  /** `normpath('shared/../x')` is `x`. */
  lemma {:induction false} NormParent(x: string)
    requires Plain(x)
    ensures NormPath("shared/../" + x) == x
  {
    var u := "shared/../" + x;
    assert !IsAbs(u) by {
      assert u[0] == 's';
    }
    NormRelative(u);
    SplitParent(x);
    ParentSegments(x);
    assert Components(u) == [x];
    var one: seq<string> := [x];
    assert Join(one) == x;
  }

  lemma {:induction false} SplitParent(x: string)
    requires NoSep(x)
    ensures Split("shared/../" + x) == ["shared", "..", x]
  {
    assert "shared/../" + x == "shared" + [Sep] + (".." + [Sep] + x);
    SplitConcat("shared", ".." + [Sep] + x);
    SplitConcat("..", x);
    SplitNoSep("shared");
    SplitNoSep("..");
    SplitNoSep(x);
  }

  lemma {:induction false} ParentSegments(x: string)
    requires Plain(x)
    ensures NormSegments(["shared", "..", x], false, []) == [x]
  {
    var three: seq<string> := ["shared", "..", x];
    var two: seq<string> := ["..", x];
    var one: seq<string> := [x];
    var none: seq<string> := [];
    var sh: seq<string> := ["shared"];
    assert three[1..] == two && two[1..] == one && one[1..] == none;
    assert three[0] == "shared" && two[0] == ".." && one[0] == x;
    assert NormStep(none, "shared", false) == sh;
    assert NormStep(sh, "..", false) == none by {
      assert sh[0] != "..";
    }
    assert NormStep(none, x, false) == one;
    assert NormSegments(three, false, none) == NormSegments(two, false, sh);
    assert NormSegments(two, false, sh) == NormSegments(one, false, none);
    assert NormSegments(one, false, none) == NormSegments(none, false, one);
  }

  /** `%252E%252E%252Fx` decodes once to `%2E%2E%2Fx`. */
  lemma {:induction false} UnquoteDoubleEncoded(x: string)
    requires '%' !in x
    ensures Unquote("%252E%252E%252F" + x) == "%2E%2E%2F" + x
  {
    var t := "%25" + "2F" + x;
    var u := "%25" + "2E" + t;
    DoubleEncodedPieces(x);
    UnquoteEscapedPercent('2', 'E', u);
    UnquoteEscapedPercent('2', 'E', t);
    UnquoteEscapedPercent('2', 'F', x);
    assert Unquote(x) == x;
    EncodedPieces(x);
  }

  lemma DoubleEncodedPieces(x: string)
    ensures "%252E%252E%252F" + x == "%25" + "2E" + ("%25" + "2E" + ("%25" + "2F" + x))
  {
  }

  lemma EncodedPieces(x: string)
    ensures "%" + "2E" + ("%" + "2E" + ("%" + "2F" + x)) == "%2E%2E%2F" + x
  {
  }

  /** The name `%2E%2E%2Fx` that `%252E%252E%252Fx` decodes to is a plain
      name `normpath` keeps as it is. */
  lemma {:induction false} EncodedParentName(x: string)
    requires Plain(x) && '%' !in x
    ensures Plain("%2E%2E%2F" + x)
    ensures Unquote("%252E%252E%252F" + x) == "%2E%2E%2F" + x
    ensures Components("%2E%2E%2F" + x) == ["%2E%2E%2F" + x]
    ensures NormPath("%2E%2E%2F" + x) == "%2E%2E%2F" + x
  {
    UnquoteDoubleEncoded(x);
    var n := "%2E%2E%2F" + x;
    assert NoSep(n);
    NormPlain(n);
  }

  /** `%25` followed by two characters other than '%' decodes to a literal
      `%` and those characters. */
  lemma {:induction false} UnquoteEscapedPercent(a: char, b: char, t: string)
    requires a != '%' && b != '%'
    ensures Unquote("%25" + [a, b] + t) == "%" + [a, b] + Unquote(t)
  {
    assert "%25" + [a, b] + t == ['%', '2', '5'] + ([a, b] + t);
    UnquoteTriplet('2', '5', [a, b] + t);
    UnquoteLiteralPrefix([a, b], t);
  }

  /** The entry `n` of the shared folder, as a component list. */
  lemma {:induction false} SharedEntryRooted(cs: seq<string>, n: string)
    requires AllPlain(cs) && Plain(n)
    ensures AllPlain(["shared", n])
    ensures Join(["shared", n]) == "shared" + [Sep] + n
    ensures Rooted(cs + ["shared", n]) == SharedRoot(Rooted(cs)) + [Sep] + n
  {
    var xs := ["shared", n];
    JoinPair("shared", n);
    RootedAppend(cs, xs);
    SharedRootIs(cs);
    Regroup(DirPrefix(cs), "shared", n);
  }

  /** The base class opens the entry `shared/n` itself when `n` needs no
      decoding and does not end in a space. */
  lemma {:induction false} SharedEntryPlain(cs: seq<string>, n: string)
    requires AllPlain(cs) && Plain(n)
    requires '%' !in n && '?' !in n && '#' !in n && !IsSpace(n[|n| - 1])
    ensures BaseTranslate(Rooted(cs), "shared" + [Sep] + n) == SharedRoot(Rooted(cs)) + [Sep] + n
  {
    SharedEntryRooted(cs, n);
    SharedEntryOpened(cs, n);
  }

  lemma {:induction false} SharedEntryOpened(cs: seq<string>, n: string)
    requires AllPlain(cs) && Plain(n)
    requires '%' !in n && '?' !in n && '#' !in n && !IsSpace(n[|n| - 1])
    ensures BaseTranslate(Rooted(cs), Join(["shared", n])) == Rooted(cs + ["shared", n])
  {
    var xs := ["shared", n];
    JoinPair("shared", n);
    EntryLacks(n, '%');
    EntryLacks(n, '?');
    EntryLacks(n, '#');
    assert Plain(xs[0]) && xs[1] == n;
    BaseTranslatePlain(cs, xs);
  }

  lemma EntryLacks(n: string, c: char)
    requires c !in n && c !in "shared" && c != Sep
    ensures c !in "shared" + [Sep] + n
  {
  }

  lemma {:induction false} JoinPair(a: string, b: string)
    ensures Join([a, b]) == a + [Sep] + b
  {
    var xs := [a, b];
    assert xs[1..] == [b];
  }
}

=== FILE: percent.dfy ===
/** Percent-encoding as `urllib.parse.quote` and `urllib.parse.unquote` apply
    it (section 2.1 of RFC 3986 for the `%XX` triplets, section 2.3 for the
    unreserved characters that are never encoded). */
module Percent {
  import opened Text
  import opened Utf8

  const UpperHex: string := "0123456789ABCDEF"

  predicate IsHexDigit(c: char) {
    '0' <= c <= '9' || 'A' <= c <= 'F' || 'a' <= c <= 'f'
  }

  function HexValue(c: char): (v: nat)
    requires IsHexDigit(c)
    ensures v < 16
  {
    if '0' <= c <= '9' then c as int - '0' as int
    else if 'A' <= c <= 'F' then c as int - 'A' as int + 10
    else c as int - 'a' as int + 10
  }

  /** The unreserved characters of section 2.3 of RFC 3986; `quote` never
      encodes them. */
  predicate IsUnreserved(c: char) {
    'A' <= c <= 'Z' || 'a' <= c <= 'z' || '0' <= c <= '9'
    || c == '-' || c == '.' || c == '_' || c == '~'
  }

  /** `quote(s)` uses its default `safe='/'`, so '/' is kept as well. */
  predicate IsQuoteSafe(c: char) {
    IsUnreserved(c) || c == '/'
  }

  /** One byte as an upper-case `%XX` triplet. */
  function EscapeByte(b: Byte): (r: string)
    ensures |r| == 3 && r[0] == '%' && IsHexDigit(r[1]) && IsHexDigit(r[2])
    ensures 16 * HexValue(r[1]) + HexValue(r[2]) == b
  {
    var hi := UpperHex[b / 16];
    var lo := UpperHex[b % 16];
    HexDigitValue(b / 16);
    HexDigitValue(b % 16);
    ['%', hi, lo]
  }

  lemma HexDigitValue(i: int)
    requires 0 <= i < 16
    ensures IsHexDigit(UpperHex[i]) && HexValue(UpperHex[i]) == i
  {
  }

  function EscapeBytes(bs: seq<Byte>): (r: string)
    ensures |r| == 3 * |bs|
    ensures forall i :: 0 <= i < |r| ==> r[i] == '%' || IsUnreserved(r[i])
  {
    if |bs| == 0 then [] else EscapeByte(bs[0]) + EscapeBytes(bs[1..])
  }

  /** How `quote` renders one character: kept when safe, otherwise each byte
      of its UTF-8 encoding as a `%XX` triplet. */
  function QuoteChar(c: char): (r: string)
    ensures |r| >= 1
    ensures forall i :: 0 <= i < |r| ==> IsQuoteSafe(r[i]) || r[i] == '%'
  {
    if IsQuoteSafe(c) then [c] else EscapeBytes(EncodeChar(c))
  }

  /** `urllib.parse.quote(s)`: the result holds only safe characters and
      `%`, it never shrinks, and a string of safe characters is unchanged. */
  function Quote(s: string): (r: string)
    ensures forall i :: 0 <= i < |r| ==> IsQuoteSafe(r[i]) || r[i] == '%'
    ensures |r| >= |s|
    ensures (forall i :: 0 <= i < |s| ==> IsQuoteSafe(s[i])) ==> r == s
  {
    if |s| == 0 then [] else QuoteChar(s[0]) + Quote(s[1..])
  }

  /** `urllib.parse.unquote(s)`: every `%XX` with two hex digits becomes the
      character with that code; a `%` not followed by two hex digits is kept. */
  function Unquote(s: string): (r: string)
    ensures '%' !in s ==> r == s
    ensures |r| <= |s|
    ensures |s| > 0 ==> |r| > 0
  {
    if |s| == 0 then []
    else if s[0] == '%' && |s| >= 3 && IsHexDigit(s[1]) && IsHexDigit(s[2]) then
      [(16 * HexValue(s[1]) + HexValue(s[2])) as char] + Unquote(s[3..])
    else [s[0]] + Unquote(s[1..])
  }

  /** Unquoting what `quote` produced for one ASCII character gives it back. */
  lemma UnquoteQuoteChar(c: char, t: string)
    requires c as int < 0x80
    ensures Unquote(QuoteChar(c) + t) == [c] + Unquote(t)
  {
    if IsQuoteSafe(c) {
      assert (QuoteChar(c) + t)[1..] == t;
    } else {
      var e := EscapeByte(c as int);
      assert QuoteChar(c) == e + [] by {
        assert EncodeChar(c) == [c as int];
      }
      assert e == ['%', e[1], e[2]];
      UnquoteTriplet(e[1], e[2], t);
    }
  }

  /** Round trip: decoding the link text `quote` builds recovers the name. */
  lemma {:induction false} UnquoteQuote(s: string)
    requires IsAscii(s)
    ensures Unquote(Quote(s)) == s
  {
    if |s| > 0 {
      UnquoteQuote(s[1..]);
      UnquoteQuoteChar(s[0], Quote(s[1..]));
    }
  }

  /** Text without '%' passes through `unquote` unchanged, whatever follows. */
  lemma {:induction false} UnquoteLiteralPrefix(a: string, t: string)
    requires '%' !in a
    ensures Unquote(a + t) == a + Unquote(t)
    decreases |a|
  {
    if |a| > 0 {
      assert (a + t)[1..] == a[1..] + t;
      UnquoteLiteralPrefix(a[1..], t);
      assert [a[0]] + a[1..] == a;
    } else {
      assert a + t == t;
    }
  }

  /** One `%XX` triplet at the head decodes to its character. */
  lemma {:induction false} UnquoteTriplet(h: char, l: char, t: string)
    requires IsHexDigit(h) && IsHexDigit(l)
    ensures Unquote(['%', h, l] + t) == [(16 * HexValue(h) + HexValue(l)) as char] + Unquote(t)
  {
    assert (['%', h, l] + t)[3..] == t;
  }
}

=== FILE: posix_path.dfy ===
/** The `posixpath` functions the server calls: `split('/')`, `'/'.join`,
    `normpath`, `isabs`, `join`, `abspath`, `relpath`, `basename` and
    `dirname`.
    A path is a string; `Split` and `Join` move between it and its list of
    components, and most reasoning happens on the component list. */
module PosixPath {
  import opened Text

  const Sep: char := '/'

  predicate NoSep(s: string) {
    Sep !in s
  }

  /** A component `normpath` keeps verbatim: not empty, not `.`, not `..`. */
  predicate Plain(c: string) {
    c != "" && c != "." && c != ".." && NoSep(c)
  }

  predicate AllPlain(cs: seq<string>) {
    forall i :: 0 <= i < |cs| ==> Plain(cs[i])
  }

  /** A plain component put in front of plain components, below a plain
      directory. */
  lemma PrefixedPlain(cs: seq<string>, head: string, segs: seq<string>)
    requires Plain(head) && AllPlain(segs)
    ensures AllPlain([head] + segs)
    ensures cs + [head] + segs == cs + ([head] + segs)
  {
  }

  /** Appending a plain component keeps a component list plain. */
  lemma AppendPlain(cs: seq<string>, w: string)
    requires AllPlain(cs) && Plain(w)
    ensures AllPlain(cs + [w])
  {
  }

  /** Moving the first of `ws` onto the end of `cs`. */
  lemma ShiftFirst(cs: seq<string>, ws: seq<string>)
    requires |ws| > 0
    ensures cs + [ws[0]] + ws[1..] == cs + ws
  {
  }

  /** Regrouping `d + (a + "/" + b)`. */
  lemma Regroup(d: string, a: string, b: string)
    ensures d + (a + [Sep] + b) == d + a + [Sep] + b
  {
  }

  /** `'/'.join(segs)` */
  function Join(segs: seq<string>): string {
    if |segs| == 0 then []
    else if |segs| == 1 then segs[0]
    else segs[0] + [Sep] + Join(segs[1..])
  }

  /** `s.split('/')`: always at least one piece, none holding '/', and
      joining the pieces gives `s` back. */
  function Split(s: string): (r: seq<string>)
    ensures |r| >= 1
    ensures forall i :: 0 <= i < |r| ==> NoSep(r[i])
    ensures Join(r) == s
  {
    if |s| == 0 then [[]]
    else
      var rest := Split(s[1..]);
      if s[0] == Sep then
        assert Join([[]] + rest) == [Sep] + Join(rest);
        [[]] + rest
      else
        assert s == [s[0]] + s[1..];
        [[s[0]] + rest[0]] + rest[1..]
  }

  /** The absolute path whose components are `segs`. */
  function Rooted(segs: seq<string>): string {
    [Sep] + Join(segs)
  }

  predicate IsAbs(p: string) {
    StartsWith(p, [Sep])
  }

  /** How many leading slashes `normpath` keeps: POSIX lets exactly two
      leading slashes mean something special, and three or more count as one. */
  function LeadingSlashes(p: string): nat {
    if StartsWith(p, "//") && !StartsWith(p, "///") then 2
    else if StartsWith(p, "/") then 1
    else 0
  }

  /** One iteration of `normpath`'s component loop. */
  function NormStep(acc: seq<string>, c: string, rooted: bool): seq<string> {
    if c == "" || c == "." then acc
    else if c != ".." || (!rooted && |acc| == 0) || (|acc| > 0 && acc[|acc| - 1] == "..") then acc + [c]
    else if |acc| > 0 then acc[..|acc| - 1]
    else acc
  }

  /** `normpath`'s component loop: `.` and empty components vanish, `..`
      cancels the component before it, is dropped at the root of an absolute
      path and is kept at the head of a relative one. */
  function NormSegments(comps: seq<string>, rooted: bool, acc: seq<string>): seq<string>
    decreases |comps|
  {
    if |comps| == 0 then acc
    else NormSegments(comps[1..], rooted, NormStep(acc, comps[0], rooted))
  }

  /** The shape of every component list `normpath` produces: no empty
      component, no `.`, no '/', `..` only as a leading run, and no `..` at
      all under the root. */
  predicate Canonical(segs: seq<string>, rooted: bool) {
    && (forall i :: 0 <= i < |segs| ==> segs[i] != "" && segs[i] != "." && NoSep(segs[i]))
    && (forall i, j :: 0 <= i < j < |segs| && segs[j] == ".." ==> segs[i] == "..")
    && (rooted ==> forall i :: 0 <= i < |segs| ==> segs[i] != "..")
  }

  /** The components `normpath` keeps for `p`. */
  function Components(p: string): (r: seq<string>)
    ensures Canonical(r, LeadingSlashes(p) > 0)
  {
    NormSegmentsCanonical(Split(p), LeadingSlashes(p) > 0, []);
    NormSegments(Split(p), LeadingSlashes(p) > 0, [])
  }

  /** `posixpath.normpath(p)`: never empty, and absolute exactly when `p` is. */
  function NormPath(p: string): (r: string)
    ensures r != []
    ensures IsAbs(r) <==> IsAbs(p)
  {
    if |p| == 0 then
      assert "."[0] != Sep;
      "."
    else
      var k := LeadingSlashes(p);
      var segs := Components(p);
      var s := Repeat(Sep, k) + Join(segs);
      assert k == 0 ==> !IsAbs(s) by {
        if k == 0 && |segs| > 0 {
          JoinPrefix(segs);
          assert s[0] == segs[0][0];
        }
      }
      if |s| == 0 then "." else s
  }

  /** `os.path.join(a, b)` */
  function PathJoin(a: string, b: string): string {
    if IsAbs(b) then b
    else if |a| == 0 || EndsWith(a, [Sep]) then a + b
    else a + [Sep] + b
  }

  /** `os.path.abspath(p)` with the working directory `cwd` made explicit. */
  function AbsPath(cwd: string, p: string): (r: string)
    ensures IsAbs(cwd) ==> IsAbs(r)
    ensures r != []
  {
    if IsAbs(p) then NormPath(p) else NormPath(PathJoin(cwd, p))
  }

  /** `os.path.basename(p)`: the text after the last '/'. */
  function Basename(p: string): (r: string)
    ensures NoSep(r)
    ensures EndsWith(p, r)
    ensures NoSep(p) ==> r == p
    ensures |r| < |p| ==> p[|p| - |r| - 1] == Sep
  {
    if |p| == 0 then []
    else if p[|p| - 1] == Sep then []
    else
      var q := p[..|p| - 1];
      var b := Basename(q);
      var r := b + [p[|p| - 1]];
      assert q + [p[|p| - 1]] == p;
      assert q[|q| - |b|..] + [p[|p| - 1]] == p[|p| - |r|..];
      assert NoSep(p) ==> NoSep(q);
      r
  }

  /** `os.path.dirname(p)`: everything before the last '/', with trailing
      slashes removed unless the head is made of slashes only. */
  function Dirname(p: string): string {
    var head := p[..|p| - |Basename(p)|];
    if head != [] && head != Repeat(Sep, |head|) then RStripSep(head) else head
  }

  function RStripSep(s: string): (r: string)
    ensures |r| <= |s|
  {
    if |s| > 0 && s[|s| - 1] == Sep then RStripSep(s[..|s| - 1]) else s
  }

  // ---------------------------------------------------------------------
  // Split and Join

  lemma {:induction false} JoinPrefix(segs: seq<string>)
    requires |segs| > 0
    ensures StartsWith(Join(segs), segs[0])
  {
  }

  lemma {:induction false} JoinConcat(a: seq<string>, b: seq<string>)
    requires |a| > 0 && |b| > 0
    ensures Join(a + b) == Join(a) + [Sep] + Join(b)
    decreases |a|
  {
    if |a| == 1 {
      assert (a + b)[1..] == b;
    } else {
      assert (a + b)[1..] == a[1..] + b;
      JoinConcat(a[1..], b);
    }
  }

  lemma {:induction false} SplitNoSep(a: string)
    requires NoSep(a)
    ensures Split(a) == [a]
    decreases |a|
  {
    if |a| > 0 {
      SplitNoSep(a[1..]);
      assert [a[0]] + a[1..] == a;
    }
  }

  lemma {:induction false} SplitConcat(x: string, y: string)
    ensures Split(x + [Sep] + y) == Split(x) + Split(y)
    decreases |x|
  {
    var s := x + [Sep] + y;
    if |x| == 0 {
      assert s[1..] == y;
    } else {
      assert s[1..] == x[1..] + [Sep] + y;
      SplitConcat(x[1..], y);
    }
  }

  /** Splitting a join of separator-free pieces gives the pieces back. */
  lemma {:induction false} SplitJoin(segs: seq<string>)
    requires |segs| >= 1
    requires forall i :: 0 <= i < |segs| ==> NoSep(segs[i])
    ensures Split(Join(segs)) == segs
    decreases |segs|
  {
    if |segs| == 1 {
      SplitNoSep(segs[0]);
    } else {
      SplitConcat(segs[0], Join(segs[1..]));
      SplitNoSep(segs[0]);
      SplitJoin(segs[1..]);
    }
  }

  lemma {:induction false} JoinEmpty(segs: seq<string>)
    requires forall i :: 0 <= i < |segs| ==> segs[i] != ""
    ensures Join(segs) == [] <==> |segs| == 0
  {
    if |segs| > 0 {
      JoinPrefix(segs);
    }
  }

  // ---------------------------------------------------------------------
  // normpath's component loop

  lemma {:induction false} NormSegmentsConcat(a: seq<string>, b: seq<string>, rooted: bool, acc: seq<string>)
    ensures NormSegments(a + b, rooted, acc) == NormSegments(b, rooted, NormSegments(a, rooted, acc))
    decreases |a|
  {
    if |a| > 0 {
      assert (a + b)[1..] == a[1..] + b;
      NormSegmentsConcat(a[1..], b, rooted, NormStep(acc, a[0], rooted));
    } else {
      assert a + b == b;
    }
  }

  /** Plain components are appended unchanged. */
  lemma {:induction false} NormSegmentsPlain(cs: seq<string>, rooted: bool, acc: seq<string>)
    requires AllPlain(cs)
    ensures NormSegments(cs, rooted, acc) == acc + cs
    decreases |cs|
  {
    if |cs| > 0 {
      NormSegmentsPlain(cs[1..], rooted, acc + [cs[0]]);
      assert acc + [cs[0]] + cs[1..] == acc + cs;
    }
  }

  lemma {:induction false} StepCanonical(acc: seq<string>, c: string, rooted: bool)
    requires Canonical(acc, rooted) && NoSep(c)
    ensures Canonical(NormStep(acc, c, rooted), rooted)
  {
  }

  lemma {:induction false} NormSegmentsCanonical(comps: seq<string>, rooted: bool, acc: seq<string>)
    requires Canonical(acc, rooted)
    requires forall i :: 0 <= i < |comps| ==> NoSep(comps[i])
    ensures Canonical(NormSegments(comps, rooted, acc), rooted)
    decreases |comps|
  {
    if |comps| > 0 {
      StepCanonical(acc, comps[0], rooted);
      NormSegmentsCanonical(comps[1..], rooted, NormStep(acc, comps[0], rooted));
    }
  }

  /** Under the root nothing but plain components survive; in a relative
      path the same holds once the first component is not `..`. */
  lemma {:induction false} CanonicalPlain(segs: seq<string>, rooted: bool)
    requires Canonical(segs, rooted)
    requires rooted || |segs| == 0 || segs[0] != ".."
    ensures AllPlain(segs)
  {
  }

  // ---------------------------------------------------------------------
  // normpath on whole paths

  /** A relative path normalises to `.` or to the join of its components. */
  lemma {:induction false} NormRelative(p: string)
    requires !IsAbs(p)
    ensures LeadingSlashes(p) == 0
    ensures NormPath(p) == (if |Components(p)| == 0 then "." else Join(Components(p)))
  {
    var segs := Components(p);
    JoinEmpty(segs);
    if |p| == 0 {
      assert Split(p) == [[]];
    } else {
      assert Repeat(Sep, 0) + Join(segs) == Join(segs);
    }
  }

  /** A path with one leading slash normalises to the rooted join of its
      components. */
  lemma {:induction false} NormRooted(p: string)
    requires LeadingSlashes(p) == 1
    ensures NormPath(p) == Rooted(Components(p))
  {
    assert Repeat(Sep, 1) == [Sep];
  }

  /** An absolute path normalises to one or two slashes followed by plain
      components. */
  lemma {:induction false} NormAbsolute(p: string)
    requires IsAbs(p)
    ensures AllPlain(Components(p))
    ensures NormPath(p) == Repeat(Sep, LeadingSlashes(p)) + Join(Components(p))
    ensures LeadingSlashes(p) == 1 || LeadingSlashes(p) == 2
  {
    CanonicalPlain(Components(p), true);
  }

  /** The components of the rooted join of plain components are those
      components, after whatever `acc` already holds. */
  lemma {:induction false} RootedComponents(cs: seq<string>, rooted: bool, acc: seq<string>)
    requires AllPlain(cs)
    ensures NormSegments(Split(Rooted(cs)), rooted, acc) == acc + cs
  {
    var s := Rooted(cs);
    assert s[1..] == Join(cs);
    if |cs| == 0 {
      assert Split(s) == [[], []];
    } else {
      SplitJoin(cs);
      assert Split(s) == [[]] + cs;
      NormSegmentsConcat([[]], cs, rooted, acc);
      NormSegmentsPlain(cs, rooted, acc);
    }
  }

  lemma {:induction false} SplitLeadingSep(x: string)
    ensures Split([Sep] + x) == [[]] + Split(x)
  {
    assert ([Sep] + x)[1..] == x;
  }

  lemma {:induction false} LeadingSlashesOne(x: string)
    requires |x| == 0 || x[0] != Sep
    ensures LeadingSlashes([Sep] + x) == 1
  {
    var s := [Sep] + x;
    assert !StartsWith(s, "//") by {
      if |s| >= 2 { assert s[1] == x[0]; }
    }
    assert StartsWith(s, "/");
  }

  /** Resolving a relative path against an absolute, normalised working
      directory runs `normpath`'s loop over the relative path's components,
      starting from the directory's components. */
  lemma {:induction false} AbsPathRelative(cs: seq<string>, q: string)
    requires AllPlain(cs)
    requires !IsAbs(q)
    ensures AbsPath(Rooted(cs), q) == Rooted(NormSegments(Split(q), true, cs))
  {
    if |cs| == 0 {
      AbsPathRelativeAtRoot(q);
    } else {
      AbsPathRelativeBelowRoot(cs, q);
    }
  }

  lemma {:induction false} AbsPathRelativeAtRoot(q: string)
    requires !IsAbs(q)
    ensures AbsPath(Rooted([]), q) == Rooted(NormSegments(Split(q), true, []))
  {
    var c := Rooted([]);
    assert c == [Sep];
    var j := PathJoin(c, q);
    assert j == [Sep] + q;
    SplitLeadingSep(q);
    NormSegmentsConcat([[]], Split(q), true, []);
    assert |q| == 0 || q[0] != Sep;
    LeadingSlashesOne(q);
    NormRooted(j);
  }

  lemma {:induction false} AbsPathRelativeBelowRoot(cs: seq<string>, q: string)
    requires AllPlain(cs) && |cs| > 0
    requires !IsAbs(q)
    ensures AbsPath(Rooted(cs), q) == Rooted(NormSegments(Split(q), true, cs))
  {
    var c := Rooted(cs);
    var body := Join(cs) + [Sep] + q;
    var j := PathJoin(c, q);
    assert j == [Sep] + body by {
      JoinLast(cs);
      assert c[|c| - 1] == Join(cs)[|Join(cs)| - 1];
    }
    SplitBelowRoot(cs, q);
    NormBelowRoot(cs, Split(q));
    assert body[0] == cs[0][0] by {
      JoinPrefix(cs);
    }
    LeadingSlashesOne(body);
    NormRooted(j);
  }

  lemma {:induction false} SplitBelowRoot(cs: seq<string>, q: string)
    requires AllPlain(cs) && |cs| > 0
    ensures Split([Sep] + (Join(cs) + [Sep] + q)) == [[]] + cs + Split(q)
  {
    SplitLeadingSep(Join(cs) + [Sep] + q);
    SplitConcat(Join(cs), q);
    SplitJoin(cs);
  }

  lemma {:induction false} NormBelowRoot(cs: seq<string>, rest: seq<string>)
    requires AllPlain(cs)
    ensures NormSegments([[]] + cs + rest, true, []) == NormSegments(rest, true, cs)
  {
    var e: seq<string> := [""];
    assert NormSegments(e, true, []) == [] by {
      assert e[1..] == [];
      assert NormStep([], e[0], true) == [];
    }
    NormSegmentsConcat(e + cs, rest, true, []);
    NormSegmentsConcat(e, cs, true, []);
    NormSegmentsPlain(cs, true, []);
    var empty: seq<string> := [];
    assert empty + cs == cs;
    assert NormSegments(e + cs, true, []) == cs;
    assert [[]] + cs + rest == e + cs + rest;
  }

  lemma {:induction false} JoinLast(segs: seq<string>)
    requires |segs| > 0 && segs[|segs| - 1] != "" && NoSep(segs[|segs| - 1])
    ensures |Join(segs)| > 0 && Join(segs)[|Join(segs)| - 1] != Sep
    decreases |segs|
  {
    if |segs| > 1 {
      JoinLast(segs[1..]);
    }
  }

  // ---------------------------------------------------------------------
  // basename and dirname of a child path

  /** Whatever precedes the last separator, the basename is what follows it. */
  lemma {:induction false} BasenameAfterSep(x: string, n: string)
    requires NoSep(n)
    ensures Basename(x + [Sep] + n) == n
    decreases |n|
  {
    var p := x + [Sep] + n;
    if |n| > 0 {
      var n' := n[..|n| - 1];
      assert p[..|p| - 1] == x + [Sep] + n';
      BasenameAfterSep(x, n');
      assert n' + [n[|n| - 1]] == n;
    }
  }

  /** `basename` and `dirname` split `d/n` back into `d` and `n`, for a
      directory `d` without a trailing separator. */
  lemma {:induction false} ChildPath(d: string, n: string)
    requires NoSep(n)
    requires |d| > 0 && d[|d| - 1] != Sep
    ensures Basename(d + [Sep] + n) == n
    ensures Dirname(d + [Sep] + n) == d
  {
    var p := d + [Sep] + n;
    BasenameAfterSep(d, n);
    var head := p[..|p| - |n|];
    assert head == d + [Sep];
    assert head[|d| - 1] != Sep;
    assert head != Repeat(Sep, |head|);
    assert head[..|head| - 1] == d;
    assert RStripSep(d) == d;
    assert RStripSep(head) == d;
  }

  // ---------------------------------------------------------------------
  // relpath

  /** `[x for x in pieces if x]` */
  function NonEmpty(pieces: seq<string>): (r: seq<string>)
    ensures forall i :: 0 <= i < |r| ==> r[i] != ""
  {
    if |pieces| == 0 then []
    else (if pieces[0] == "" then [] else [pieces[0]]) + NonEmpty(pieces[1..])
  }

  /** The length of the longest common prefix of two lists, as
      `commonprefix` finds it. */
  function CommonLength(a: seq<string>, b: seq<string>): (n: nat)
    ensures n <= |a| && n <= |b|
    ensures a[..n] == b[..n]
    ensures n < |a| && n < |b| ==> a[n] != b[n]
  {
    if |a| == 0 || |b| == 0 || a[0] != b[0] then 0
    else
      var k := CommonLength(a[1..], b[1..]);
      assert a[..k + 1] == [a[0]] + a[1..][..k];
      assert b[..k + 1] == [b[0]] + b[1..][..k];
      k + 1
  }

  /** `[pardir] * n` */
  function Ups(n: nat): (r: seq<string>)
    ensures |r| == n
    ensures forall i :: 0 <= i < n ==> r[i] == ".."
  {
    if n == 0 then [] else [".."] + Ups(n - 1)
  }

  /** `os.path.relpath(path, start)`: climb out of `start` with `..` as far
      as the two absolute paths differ, then descend along `path`; `.` when
      they are the same directory. An empty `path` raises `ValueError`. The
      pieces hold no '/' and none is empty, so `join(*rel_list)` is their
      '/'-join. */
  function RelPath(cwd: string, path: string, start: string): (r: string)
    requires path != ""
    ensures r != ""
  {
    var from := NonEmpty(Split(AbsPath(cwd, start)));
    var to := NonEmpty(Split(AbsPath(cwd, path)));
    var i := CommonLength(from, to);
    var rel := Ups(|from| - i) + to[i..];
    if |rel| == 0 then "." else (JoinEmpty(rel); Join(rel))
  }

  /** Plain components keep every piece. */
  lemma {:induction false} NonEmptyPlain(xs: seq<string>)
    requires AllPlain(xs)
    ensures NonEmpty(xs) == xs
    decreases |xs|
  {
    if |xs| > 0 {
      NonEmptyPlain(xs[1..]);
      assert [xs[0]] + xs[1..] == xs;
    }
  }

  /** A rooted join of plain components is already normal, and its non-empty
      pieces are those components. */
  lemma {:induction false} RootedNormal(xs: seq<string>)
    requires AllPlain(xs)
    ensures NormPath(Rooted(xs)) == Rooted(xs)
    ensures NonEmpty(Split(Rooted(xs))) == xs
  {
    var j := Join(xs);
    assert |j| == 0 || j[0] != Sep by {
      if |xs| > 0 {
        JoinPrefix(xs);
        assert j[0] == xs[0][0];
      }
    }
    LeadingSlashesOne(j);
    NormRooted(Rooted(xs));
    RootedComponents(xs, true, []);
    assert [] + xs == xs;
    SplitLeadingSep(j);
    var e: seq<string> := [[]];
    if |xs| == 0 {
      assert Split(j) == [[]];
      assert NonEmpty(Split(Rooted(xs))) == NonEmpty(e + e);
      assert (e + e)[1..] == e;
      assert e[1..] == [];
    } else {
      SplitJoin(xs);
      assert Split(Rooted(xs)) == e + xs;
      assert (e + xs)[1..] == xs;
      NonEmptyPlain(xs);
    }
  }

  /** Relative to an absolute directory, a path below it is the '/'-join of
      the components it adds. */
  lemma {:induction false} RelPathBelow(cs: seq<string>, segs: seq<string>)
    requires AllPlain(cs) && AllPlain(segs) && |segs| > 0
    ensures RelPath(Rooted(cs), Rooted(cs + segs), Rooted(cs)) == Join(segs)
  {
    var cwd := Rooted(cs);
    assert AllPlain(cs + segs);
    RootedNormal(cs);
    RootedNormal(cs + segs);
    var from := NonEmpty(Split(AbsPath(cwd, cwd)));
    var to := NonEmpty(Split(AbsPath(cwd, Rooted(cs + segs))));
    assert from == cs && to == cs + segs;
    var i := CommonLength(from, to);
    assert i == |cs|;
    assert to[i..] == segs;
    assert Ups(0) + segs == segs;
  }
}

=== FILE: request_router.dfy ===
/** How each server version dispatches a request to its handlers: `do_GET` and
    `do_POST` of server_v.4.py and server_v.3.py, and the listing and the
    module-level `do_POST` of server_v.1.py. What the base class
    `SimpleHTTPRequestHandler` does with a path it is handed is not modelled:
    the response is then `Serve(target)`. */
module RequestRouter {
  import opened Wrappers
  import opened Text
  import opened Utf8
  import opened Percent
  import opened PosixPath
  import opened PathResolver
  import opened FileStore
  import opened Form
  import opened Sorting
  import opened Listing
  import opened Http
  import opened NoteStore
  import opened UploadHandler

  // ---------------------------------------------------------------------
  // server_v.4.py: do_GET

  const SharedPrefix: string := "/shared/"
  const InternalError: string := "Internal Server Error"
  const ListFault: string := "Could not list files."

  function TemplatePath(cwd: string): string {
    AbsPath(cwd, TemplateFile)
  }

  /** `GET /` (lines 142-154): the template as stored, a 404 when it does not
      exist, and the catch-all 500 when it exists but cannot be read. */
  function MainPage(fs: FileSystem, cwd: string): (r: Response)
    ensures r.Reply? && r.location.None?
    ensures r.status == 200 <==> IsFile(fs, TemplatePath(cwd))
    ensures r.status == 200 ==> r.body == Template(fs[TemplatePath(cwd)].content)
    ensures r.status == 404 <==> !Exists(fs, TemplatePath(cwd))
    ensures r.status != 200 && r.status != 404 ==> r == Send(500, ErrorPage(InternalError))
  {
    var p := TemplatePath(cwd);
    if !Exists(fs, p) then Send(404, ErrorPage(TemplateFile + " not found"))
    else match ReadFile(fs, p)
      case Ok(content) => Send(200, Template(content))
      case Err(_) => Send(500, ErrorPage(InternalError))
  }

  /** `GET /api/files` (lines 122-139), given what `os.listdir` returned
      (`None` when it raised). */
  function FileListReply(fs: FileSystem, cwd: string, listed: Option<seq<string>>): (r: Response)
    ensures r.Reply? && (r.status == 200 || r.status == 500)
    ensures r.status == 200 <==> listed.Some?
    ensures r.status == 200 ==> r.body.FileList? && Names(r.body.files) == SortBy(Filter(listed.value, ShownV4(fs, cwd)), Lower)
    ensures r.status == 500 ==> r.body == JsonError(ListFault)
  {
    match listed
    case None => Send(500, JsonError(ListFault))
    case Some(names) =>
      ApiFilesLists(fs, cwd, names);
      Send(200, FileList(ApiFiles(fs, cwd, names)))
  }

  /** A download under `/shared/` (lines 157-178): `filename` is what follows
      the prefix, query string included. A name `secure_path` refuses is a
      403 and a name that is not a regular file a 404. For an accepted file,
      line 166 hands the base class `os.path.relpath(file_path)` as the
      request path, and the base class's `translate_path` unquotes it and
      cuts it at '?' and '#' once more before opening it. */
  function SharedDownload(fs: FileSystem, cwd: string, filename: string): (r: Response)
    ensures r.Serve? <==> SecurePath(cwd, SharedFolder, filename).Ok? && IsFile(fs, SecurePath(cwd, SharedFolder, filename).value)
    ensures r.Serve? ==> r.target == BaseTranslate(cwd, RelPath(cwd, SecurePath(cwd, SharedFolder, filename).value, cwd))
    ensures r.Reply? && r.status == 403 <==> SecurePath(cwd, SharedFolder, filename).Err?
    ensures r.Serve? || r == Send(403, ErrorPage("Forbidden")) || r == Send(404, ErrorPage("File not found"))
  {
    match SecurePath(cwd, SharedFolder, filename)
    case Err(_) => Send(403, ErrorPage("Forbidden"))
    case Ok(p) =>
      if IsFile(fs, p) then Serve(BaseTranslate(cwd, RelPath(cwd, p, cwd)))
      else Send(404, ErrorPage("File not found"))
  }

  /** The download as lines 163-167 mean it: the base class serves the file
      `secure_path` accepted, which lies in the shared folder. */
  function SharedDownloadCorrected(fs: FileSystem, cwd: string, filename: string): (r: Response)
    ensures r.Serve? <==> SecurePath(cwd, SharedFolder, filename).Ok? && IsFile(fs, SecurePath(cwd, SharedFolder, filename).value)
    ensures r.Serve? ==> IsFile(fs, r.target) && Within(r.target, SharedRoot(cwd))
    ensures r.Reply? && r.status == 403 <==> SecurePath(cwd, SharedFolder, filename).Err?
    ensures r.Serve? || r == Send(403, ErrorPage("Forbidden")) || r == Send(404, ErrorPage("File not found"))
  {
    match SecurePath(cwd, SharedFolder, filename)
    case Err(_) => Send(403, ErrorPage("Forbidden"))
    case Ok(p) => if IsFile(fs, p) then Serve(p) else Send(404, ErrorPage("File not found"))
  }

  /** `do_GET` of server_v.4.py (lines 105-193). `listed` is the outcome of
      `os.listdir` on the shared folder. Every path not routed here goes to
      the base class, whose `translate_path` resolves it below the working
      directory. */
  function GetV4(fs: FileSystem, cwd: string, path: string, listed: Option<seq<string>>): (r: Response)
    ensures r.Serve? && StartsWith(path, SharedPrefix) ==>
              var t := SecurePath(cwd, SharedFolder, path[|SharedPrefix|..]);
              t.Ok? && IsFile(fs, t.value)
    ensures r.Serve? && !StartsWith(path, SharedPrefix) ==> r.target == BaseTranslate(cwd, path)
    ensures !r.NoReply?
    ensures r.Reply? && r.status == 403 ==> StartsWith(path, SharedPrefix)
  {
    if path == "/api/note" then GetNote(fs, cwd)
    else if path == "/api/files" then FileListReply(fs, cwd, listed)
    else if path == "/" then MainPage(fs, cwd)
    else if StartsWith(path, SharedPrefix) then SharedDownload(fs, cwd, path[|SharedPrefix|..])
    else Serve(BaseTranslate(cwd, path))
  }

  /** `do_GET` with the corrected download. */
  function GetV4Corrected(fs: FileSystem, cwd: string, path: string, listed: Option<seq<string>>): (r: Response)
    ensures r.Serve? && StartsWith(path, SharedPrefix) ==> IsFile(fs, r.target) && Within(r.target, SharedRoot(cwd))
    ensures r.Serve? && !StartsWith(path, SharedPrefix) ==> r.target == BaseTranslate(cwd, path)
    ensures !r.NoReply?
    ensures r.Reply? && r.status == 403 ==> StartsWith(path, SharedPrefix)
    ensures !StartsWith(path, SharedPrefix) ==> r == GetV4(fs, cwd, path, listed)
  {
    if path == "/api/note" then GetNote(fs, cwd)
    else if path == "/api/files" then FileListReply(fs, cwd, listed)
    else if path == "/" then MainPage(fs, cwd)
    else if StartsWith(path, SharedPrefix) then SharedDownloadCorrected(fs, cwd, path[|SharedPrefix|..])
    else Serve(BaseTranslate(cwd, path))
  }

  /** Whatever is requested, a file handed to the base class lies in the
      working directory or below it: the shared folder is not a boundary
      for `GET`, since the fallback at line 184 serves the whole directory. */
  lemma {:induction false} GetV4Inside(fs: FileSystem, cs: seq<string>, path: string, listed: Option<seq<string>>)
    requires AllPlain(cs)
    ensures var r := GetV4(fs, Rooted(cs), path, listed);
            r.Serve? ==> InWorkingDir(r.target, cs)
  {
    var cwd := Rooted(cs);
    var r := GetV4(fs, cwd, path, listed);
    if r.Serve? {
      if StartsWith(path, SharedPrefix) {
        RoutesApart(path);
        var p := SecurePath(cwd, SharedFolder, path[|SharedPrefix|..]).value;
        BaseTranslateInside(cs, RelPath(cwd, p, cwd));
      } else {
        BaseTranslateInside(cs, path);
      }
    }
  }

  /** The routed paths are told apart by their text: none of the API paths
      or `/` starts with `/shared/`. */
  lemma RoutesApart(path: string)
    requires StartsWith(path, SharedPrefix)
    ensures path != "/api/note" && path != "/api/files" && path != "/"
  {
    assert path[1] == 's';
  }

  /** A path under `/shared/` is routed to the download. */
  lemma {:induction false} SharedRoute(fs: FileSystem, cwd: string, filename: string, listed: Option<seq<string>>)
    ensures GetV4(fs, cwd, SharedPrefix + filename, listed) == SharedDownload(fs, cwd, filename)
    ensures GetV4Corrected(fs, cwd, SharedPrefix + filename, listed) == SharedDownloadCorrected(fs, cwd, filename)
  {
    var path := SharedPrefix + filename;
    assert StartsWith(path, SharedPrefix);
    RoutesApart(path);
    assert path[|SharedPrefix|..] == filename;
  }

  /** An accepted file at `cwd/xs` is handed over as whatever the base class
      makes of the relative path `xs`. */
  lemma {:induction false} DownloadTranslates(fs: FileSystem, cs: seq<string>, filename: string, xs: seq<string>)
    requires AllPlain(cs) && AllPlain(xs) && |xs| > 0
    requires SecurePath(Rooted(cs), SharedFolder, filename) == Ok(Rooted(cs + xs))
    requires IsFile(fs, Rooted(cs + xs))
    ensures SharedDownload(fs, Rooted(cs), filename) == Serve(BaseTranslate(Rooted(cs), Join(xs)))
  {
    RelPathBelow(cs, xs);
  }

  /** A download is refused exactly for a name the literal check or the
      traversal check rejects, and handed over exactly when the decoded,
      normalised name is a file below the shared root. What the base class
      then opens is that file whenever the name, once decoded, holds no
      '%', '?' or '#' and does not end in a space. */
  lemma {:induction false} DownloadResolves(fs: FileSystem, cs: seq<string>, filename: string)
    requires AllPlain(cs)
    ensures var r := GetV4(fs, Rooted(cs), SharedPrefix + filename, None);
            var u := Unquote(filename);
            var name := NormPath(u);
            var accepted := filename != "" && filename != "." && filename != ".."
                            && !IsAbs(name) && !StartsWith(name, "..");
            var xs := ["shared"] + Components(u);
            var rel := Join(xs);
            && (r == Send(403, ErrorPage("Forbidden")) <==> !accepted)
            && (r.Serve? <==> accepted && IsFile(fs, Rooted(cs + xs)))
            && (r.Serve? ==> r.target == BaseTranslate(Rooted(cs), rel))
            && (r.Serve? && |rel| > 0 && '%' !in rel && '?' !in rel && '#' !in rel && !IsSpace(rel[|rel| - 1]) ==> r.target == Rooted(cs + xs))
  {
    SharedRoute(fs, Rooted(cs), filename, None);
    DownloadVerdict(fs, cs, filename);
    DownloadOpens(fs, cs, filename);
  }

  /** The verdict of the download handler on a name. */
  lemma {:induction false} DownloadVerdict(fs: FileSystem, cs: seq<string>, filename: string)
    requires AllPlain(cs)
    ensures var r := SharedDownload(fs, Rooted(cs), filename);
            var u := Unquote(filename);
            var name := NormPath(u);
            var accepted := filename != "" && filename != "." && filename != ".."
                            && !IsAbs(name) && !StartsWith(name, "..");
            && (r == Send(403, ErrorPage("Forbidden")) <==> !accepted)
            && (r.Serve? <==> accepted && IsFile(fs, Rooted(cs + (["shared"] + Components(u)))))
  {
    SecurePathResolves(cs, filename);
  }

  /** What the base class opens for an accepted name. */
  lemma {:induction false} DownloadOpens(fs: FileSystem, cs: seq<string>, filename: string)
    requires AllPlain(cs)
    ensures var r := SharedDownload(fs, Rooted(cs), filename);
            var xs := ["shared"] + Components(Unquote(filename));
            var rel := Join(xs);
            && (r.Serve? ==> r.target == BaseTranslate(Rooted(cs), rel))
            && (r.Serve? && |rel| > 0 && '%' !in rel && '?' !in rel && '#' !in rel && !IsSpace(rel[|rel| - 1]) ==> r.target == Rooted(cs + xs))
  {
    var xs := ["shared"] + Components(Unquote(filename));
    var t := SecurePath(Rooted(cs), SharedFolder, filename);
    if t.Ok? && IsFile(fs, t.value) {
      SecurePathResolves(cs, filename);
      DownloadTranslates(fs, cs, filename, xs);
      var rel := Join(xs);
      if |rel| > 0 && '%' !in rel && '?' !in rel && '#' !in rel && !IsSpace(rel[|rel| - 1]) {
        DownloadPlain(fs, cs, filename, xs);
      }
    }
  }

  /** An accepted file whose relative path needs no decoding is what the
      base class opens. */
  lemma {:induction false} DownloadPlain(fs: FileSystem, cs: seq<string>, filename: string, xs: seq<string>)
    requires AllPlain(cs) && AllPlain(xs) && |xs| > 0
    requires SecurePath(Rooted(cs), SharedFolder, filename) == Ok(Rooted(cs + xs))
    requires IsFile(fs, Rooted(cs + xs))
    requires var rel := Join(xs); |rel| > 0 && '%' !in rel && '?' !in rel && '#' !in rel && !IsSpace(rel[|rel| - 1])
    ensures SharedDownload(fs, Rooted(cs), filename) == Serve(Rooted(cs + xs))
  {
    DownloadTranslates(fs, cs, filename, xs);
    JoinLastChar(xs);
    BaseTranslatePlain(cs, xs);
  }

  /** The corrected download hands over the decoded, normalised name below
      the shared root itself; nothing outside the shared folder is ever
      served under `/shared/`. */
  lemma {:induction false} DownloadResolvesCorrected(fs: FileSystem, cs: seq<string>, filename: string)
    requires AllPlain(cs)
    ensures var r := GetV4Corrected(fs, Rooted(cs), SharedPrefix + filename, None);
            var u := Unquote(filename);
            var name := NormPath(u);
            var accepted := filename != "" && filename != "." && filename != ".."
                            && !IsAbs(name) && !StartsWith(name, "..");
            var target := Rooted(cs + ["shared"] + Components(u));
            && (r == Send(403, ErrorPage("Forbidden")) <==> !accepted)
            && (r.Serve? <==> accepted && IsFile(fs, target))
            && (r.Serve? ==> r.target == target)
  {
    SharedRoute(fs, Rooted(cs), filename, None);
    SecurePathResolves(cs, filename);
  }

  /** End to end: every entry `GET /api/files` lists is fetched through its
      own link — unless its name starts with `..`, which the traversal check
      refuses although the file is listed — provided the name holds no '%',
      '?' or '#' and does not end in a space. */
  lemma {:induction false} ListedFileDownloads(fs: FileSystem, cs: seq<string>, names: seq<string>, e: FileEntry)
    requires AllPlain(cs)
    requires ListsDirectory(fs, SharedRoot(Rooted(cs)), names)
    requires e in ApiFiles(fs, Rooted(cs), names) && IsAscii(e.name)
    ensures var r := GetV4(fs, Rooted(cs), e.url, Some(names));
            var n := e.name;
            && (StartsWith(n, "..") ==> r == Send(403, ErrorPage("Forbidden")))
            && (!StartsWith(n, "..") ==> r.Serve? && r.target == BaseTranslate(Rooted(cs), "shared" + [Sep] + n))
            && (!StartsWith(n, "..") && |n| > 0 && '%' !in n && '?' !in n && '#' !in n && !IsSpace(n[|n| - 1]) ==>
                  r == Serve(SharedRoot(Rooted(cs)) + [Sep] + n))
  {
    var n := e.name;
    ListedLinkResolves(fs, cs, names, e);
    assert e.url == SharedPrefix + Quote(n);
    SharedRoute(fs, Rooted(cs), Quote(n), Some(names));
    if !StartsWith(n, "..") {
      ListedEntryServed(fs, cs, names, e);
    }
  }

  /** The download of a listed name not starting with `..`. */
  lemma {:induction false} ListedEntryServed(fs: FileSystem, cs: seq<string>, names: seq<string>, e: FileEntry)
    requires AllPlain(cs)
    requires ListsDirectory(fs, SharedRoot(Rooted(cs)), names)
    requires e in ApiFiles(fs, Rooted(cs), names) && IsAscii(e.name) && !StartsWith(e.name, "..")
    ensures var r := SharedDownload(fs, Rooted(cs), Quote(e.name));
            var n := e.name;
            && r == Serve(BaseTranslate(Rooted(cs), "shared" + [Sep] + n))
            && (|n| > 0 && '%' !in n && '?' !in n && '#' !in n && !IsSpace(n[|n| - 1]) ==>
                  r == Serve(SharedRoot(Rooted(cs)) + [Sep] + n))
  {
    ListedNameTarget(fs, cs, names, e);
    EntryServed(fs, cs, Quote(e.name), e.name);
  }

  /** The download of an accepted entry `shared/n` of the shared folder. */
  lemma {:induction false} EntryServed(fs: FileSystem, cs: seq<string>, filename: string, n: string)
    requires AllPlain(cs) && Plain(n)
    requires SecurePath(Rooted(cs), SharedFolder, filename) == Ok(Rooted(cs + ["shared", n]))
    requires IsFile(fs, Rooted(cs + ["shared", n]))
    ensures var r := SharedDownload(fs, Rooted(cs), filename);
            && r == Serve(BaseTranslate(Rooted(cs), "shared" + [Sep] + n))
            && ('%' !in n && '?' !in n && '#' !in n && !IsSpace(n[|n| - 1]) ==>
                  r == Serve(SharedRoot(Rooted(cs)) + [Sep] + n))
  {
    SharedEntryRooted(cs, n);
    DownloadTranslates(fs, cs, filename, ["shared", n]);
    if '%' !in n && '?' !in n && '#' !in n && !IsSpace(n[|n| - 1]) {
      SharedEntryPlain(cs, n);
    }
  }

  /** A listed name not starting with `..` is a plain name whose file is
      `cwd/shared/n`, which `secure_path` finds from its link. */
  lemma {:induction false} ListedNameTarget(fs: FileSystem, cs: seq<string>, names: seq<string>, e: FileEntry)
    requires AllPlain(cs)
    requires ListsDirectory(fs, SharedRoot(Rooted(cs)), names)
    requires e in ApiFiles(fs, Rooted(cs), names) && IsAscii(e.name) && !StartsWith(e.name, "..")
    ensures Plain(e.name)
    ensures Join(["shared", e.name]) == "shared" + [Sep] + e.name
    ensures Rooted(cs + ["shared", e.name]) == SharedRoot(Rooted(cs)) + [Sep] + e.name
    ensures SecurePath(Rooted(cs), SharedFolder, Quote(e.name)) == Ok(Rooted(cs + ["shared", e.name]))
    ensures IsFile(fs, Rooted(cs + ["shared", e.name]))
  {
    var n := e.name;
    ListedLinkResolves(fs, cs, names, e);
    ApiEntry(fs, Rooted(cs), names, e);
    var k :| 0 <= k < |names| && names[k] == n;
    SharedEntryRooted(cs, n);
  }

  /** With the corrected download every listed ASCII name is fetched through
      its own link, except a name starting with `..`. */
  lemma {:induction false} ListedFileDownloadsCorrected(fs: FileSystem, cs: seq<string>, names: seq<string>, e: FileEntry)
    requires AllPlain(cs)
    requires ListsDirectory(fs, SharedRoot(Rooted(cs)), names)
    requires e in ApiFiles(fs, Rooted(cs), names) && IsAscii(e.name)
    ensures var r := GetV4Corrected(fs, Rooted(cs), e.url, Some(names));
            && (StartsWith(e.name, "..") ==> r == Send(403, ErrorPage("Forbidden")))
            && (!StartsWith(e.name, "..") ==> r == Serve(SharedRoot(Rooted(cs)) + [Sep] + e.name))
  {
    ListedLinkResolves(fs, cs, names, e);
    assert e.url == SharedPrefix + Quote(e.name);
    SharedRoute(fs, Rooted(cs), Quote(e.name), Some(names));
  }

  /** The file a download hands over is not always the one `secure_path`
      accepted. A shared file named `%2E%2E%2Fx` (stored by uploading
      `%252E%252E%252Fx`) is requested as `/shared/%252E%252E%252Fx`, the
      link the listing gives it; the relative path `shared/%2E%2E%2Fx` is
      decoded a second time by the base class, and `x` in the working
      directory is served instead — the note file when `x` is `note.txt`.
      The corrected download serves the requested file. */
  lemma {:induction false} DownloadEscapes(fs: FileSystem, cs: seq<string>, x: string, listed: Option<seq<string>>)
    requires AllPlain(cs) && Plain(x)
    requires '%' !in x && '?' !in x && '#' !in x && !IsSpace(x[|x| - 1])
    requires IsFile(fs, SharedRoot(Rooted(cs)) + [Sep] + ("%2E%2E%2F" + x))
    ensures var r := GetV4(fs, Rooted(cs), SharedPrefix + ("%252E%252E%252F" + x), listed);
            && r == Serve(Rooted(cs + [x]))
            && Dirname(r.target) == Rooted(cs)
            && r.target != SharedRoot(Rooted(cs)) + [Sep] + ("%2E%2E%2F" + x)
            && (x == NoteFile ==> r.target == NotePath(Rooted(cs)))
    ensures GetV4Corrected(fs, Rooted(cs), SharedPrefix + ("%252E%252E%252F" + x), listed)
            == Serve(SharedRoot(Rooted(cs)) + [Sep] + ("%2E%2E%2F" + x))
  {
    var filename := "%252E%252E%252F" + x;
    SharedRoute(fs, Rooted(cs), filename, listed);
    EscapeServes(fs, cs, x);
    WorkingDirChild(cs, x);
    if x == NoteFile {
      NoteFilesApart(cs);
    }
  }

  /** The download itself: the file `secure_path` accepts is
      `shared/%2E%2E%2Fx`, and the base class opens `x`, while the corrected
      download serves the accepted file. */
  lemma {:induction false} EscapeServes(fs: FileSystem, cs: seq<string>, x: string)
    requires AllPlain(cs) && Plain(x)
    requires '%' !in x && '?' !in x && '#' !in x && !IsSpace(x[|x| - 1])
    requires IsFile(fs, SharedRoot(Rooted(cs)) + [Sep] + ("%2E%2E%2F" + x))
    ensures SharedDownload(fs, Rooted(cs), "%252E%252E%252F" + x) == Serve(Rooted(cs + [x]))
    ensures SharedDownloadCorrected(fs, Rooted(cs), "%252E%252E%252F" + x)
            == Serve(SharedRoot(Rooted(cs)) + [Sep] + ("%2E%2E%2F" + x))
    ensures |SharedRoot(Rooted(cs)) + [Sep] + ("%2E%2E%2F" + x)| == |DirPrefix(cs)| + 16 + |x|
  {
    EncodedNameAccepted(cs, x);
    EscapeTarget(fs, cs, x);
    SharedRootIs(cs);
  }

  lemma {:induction false} EscapeTarget(fs: FileSystem, cs: seq<string>, x: string)
    requires AllPlain(cs) && Plain(x)
    requires '%' !in x && '?' !in x && '#' !in x && !IsSpace(x[|x| - 1])
    requires IsFile(fs, SharedRoot(Rooted(cs)) + [Sep] + ("%2E%2E%2F" + x))
    ensures SharedDownload(fs, Rooted(cs), "%252E%252E%252F" + x) == Serve(Rooted(cs + [x]))
  {
    var n := "%2E%2E%2F" + x;
    EncodedNameAccepted(cs, x);
    EntryServed(fs, cs, "%252E%252E%252F" + x, n);
    BaseTranslateEncodedParent(cs, x);
  }

  /** `secure_path` accepts `%252E%252E%252Fx`: once decoded it is the plain
      name `%2E%2E%2Fx`. */
  lemma {:induction false} EncodedNameAccepted(cs: seq<string>, x: string)
    requires AllPlain(cs) && Plain(x) && '%' !in x
    ensures var n := "%2E%2E%2F" + x;
            && Plain(n)
            && Rooted(cs + ["shared", n]) == SharedRoot(Rooted(cs)) + [Sep] + n
            && SecurePath(Rooted(cs), SharedFolder, "%252E%252E%252F" + x) == Ok(Rooted(cs + ["shared", n]))
  {
    var n := "%2E%2E%2F" + x;
    EncodedParentName(x);
    SecurePathResolves(cs, "%252E%252E%252F" + x);
    assert ["shared"] + [n] == ["shared", n];
    SharedEntryRooted(cs, n);
  }

  // ---------------------------------------------------------------------
  // server_v.4.py: do_POST

  /** Everything a POST may carry, as the handlers read it. */
  datatype PostRequest = PostRequest(
    path: string,
    length: ContentLength,
    body: seq<Byte>,
    contentType: Option<ContentType>,
    form: ParsedUpload)

  /** `do_POST` of server_v.4.py (lines 196-301). A POST only ever changes
      the shared folder, the note and the stamp, and always replies. */
  function PostV4(fs: FileSystem, cwd: string, req: PostRequest, parse: JsonParser, now: string): (r: (Response, FileSystem))
    ensures r.0.Reply?
    ensures forall q :: !Within(q, SharedRoot(cwd)) && q != NotePath(cwd) && q != LastChangePath(cwd) ==> Same(fs, r.1, q)
    ensures req.path != "/api/note" && req.path != "/api/upload" ==> r == (Send(404, ErrorPage("Endpoint not found")), fs)
    ensures req.path == "/api/upload" && r.0.status != 200 ==> r.1 == fs
  {
    if req.path == "/api/note" then SaveNote(fs, cwd, req.length, req.body, parse, now)
    else if req.path == "/api/upload" then Upload(fs, cwd, req.contentType, req.length, req.form, now)
    else (Send(404, ErrorPage("Endpoint not found")), fs)
  }

  /** Saving a note through `do_POST` and reading it back through `do_GET`
      gives the note, with line ends translated. */
  lemma {:induction false} NoteThroughRoutes(fs: FileSystem, cs: seq<string>, req: PostRequest,
                                             parse: JsonParser, now: string, listed: Option<seq<string>>)
    requires AllPlain(cs) && req.path == "/api/note"
    requires PostV4(fs, Rooted(cs), req, parse, now).0.status == 200
    ensures var n := RequestedNote(req.length, req.body, parse);
            && n.Some?
            && GetV4(PostV4(fs, Rooted(cs), req, parse, now).1, Rooted(cs), "/api/note", listed).body.note
               == UniversalNewlines(n.value)
  {
    SaveNoteSucceeds(fs, Rooted(cs), req.length, req.body, parse, now);
    NoteRoundTrip(fs, cs, req.length, req.body, parse, now);
  }

  // ---------------------------------------------------------------------
  // server_v.3.py

  /** The response `list_directory` sends for a listing outcome and the note
      text (lines 83-96 and 408-418). */
  function ListingReply(l: Listing, note: string): (r: Response)
    ensures r.Reply? && r.location.None?
    ensures r.status == 403 <==> l.Forbidden?
    ensures r.status == 404 <==> l.Unlistable?
    ensures r.status == 200 <==> l.Page?
    ensures l.Page? ==> r.body == ListingPage(l.links, l.noFilesNotice, note)
  {
    match l
    case Forbidden => Send(403, ErrorPage("Access Forbidden"))
    case Unlistable => Send(404, ErrorPage("No permission to list directory"))
    case Page(links, notice) => Send(200, ListingPage(links, notice, note))
  }

  /** `do_GET` of server_v.3.py (lines 421-433): `/` is the listing of the
      shared folder; every other path goes to the base class through the
      overridden `translate_path`, whose containment test at line 74 is a
      bare prefix test. */
  function GetV3(fs: FileSystem, cwd: string, scriptDir: string, path: string, listed: Option<seq<string>>): (r: Response)
    ensures r.Serve? <==> path != "/"
    ensures r.Serve? ==> r.target == PathJoin(cwd, Sentinel) || StartsWith(r.target, AbsPath(cwd, PathJoin(cwd, SharedFolder)))
    ensures r.Reply? ==> r.status != 403
  {
    if path == "/" then ListingReply(ListDirectoryV3(fs, cwd, SharedFolder, listed), PageNoteV3(fs, cwd, scriptDir))
    else Serve(TranslatePathAsWritten(cwd, path))
  }

  /** `do_GET` with the containment test bounded by a separator: every file
      handed to the base class lies within the shared folder, and the answer
      is the code's own whenever the code's file already does. */
  function GetV3Corrected(fs: FileSystem, cwd: string, scriptDir: string, path: string, listed: Option<seq<string>>): (r: Response)
    ensures r.Serve? <==> path != "/"
    ensures r.Serve? ==> r.target == PathJoin(cwd, Sentinel) || Within(r.target, AbsPath(cwd, PathJoin(cwd, SharedFolder)))
    ensures var w := GetV3(fs, cwd, scriptDir, path, listed);
            w.Reply? || Within(w.target, AbsPath(cwd, PathJoin(cwd, SharedFolder))) ==> r == w
  {
    if path == "/" then ListingReply(ListDirectoryV3(fs, cwd, SharedFolder, listed), PageNoteV3(fs, cwd, scriptDir))
    else Serve(TranslatePath(cwd, path))
  }

  /** The routed form of the sibling escape: `GET ../shared2/secret.txt`
      serves a file of the folder `shared2` beside the shared folder, and the
      corrected route refuses it. */
  lemma {:induction false} GetV3SiblingEscape(fs: FileSystem, cs: seq<string>, scriptDir: string, listed: Option<seq<string>>)
    requires AllPlain(cs)
    ensures var r := GetV3(fs, Rooted(cs), scriptDir, "../shared2/secret.txt", listed);
            && r == Serve(Rooted(cs + ["shared2", "secret.txt"]))
            && !Within(r.target, SharedRoot(Rooted(cs)))
    ensures GetV3Corrected(fs, Rooted(cs), scriptDir, "../shared2/secret.txt", listed) == Serve(PathJoin(Rooted(cs), Sentinel))
  {
    SiblingExample(cs);
  }

  /** The main page lists the shared folder and carries the stored note:
      never refused, a 404 exactly when the folder cannot be read, and
      otherwise the visible names in case-insensitive order. */
  lemma {:induction false} MainListingV3(fs: FileSystem, cwd: string, scriptDir: string, listed: Option<seq<string>>)
    ensures var r := GetV3(fs, cwd, scriptDir, "/", listed);
            && r.Reply?
            && (r.status == 404 <==> listed.None?)
            && (r.status == 200 <==> listed.Some?)
            && (r.status == 200 ==>
                  && r.body.note == PageNoteV3(fs, cwd, scriptDir)
                  && (r.body.noFilesNotice <==> |listed.value| == 0)
                  && (forall n :: n in Texts(r.body.links) <==> n in listed.value && VisibleV3(fs, cwd, SharedFolder, n))
                  && (forall i, j :: 0 <= i < j < |r.body.links| ==>
                        LexLe(Lower(r.body.links[i].text), Lower(r.body.links[j].text))))
  {
    ListDirectoryV3Spec(fs, cwd, SharedFolder, listed);
  }

  /** `do_POST` of server_v.3.py (lines 437-515). `form` is what
      `cgi.FieldStorage` made of an upload. */
  function PostV3(fs: FileSystem, cwd: string, scriptDir: string, req: PostRequest, form: Option<FileField>): (r: (Response, FileSystem))
    ensures r.0.Reply?
    ensures req.path != "/upload" && req.path != "/save_note" ==> r == (Send(404, ErrorPage("Endpoint not found")), fs)
    ensures r.0 != SeeMain ==> r.1 == fs
  {
    if req.path == "/upload" then UploadV3(fs, cwd, form)
    else if req.path == "/save_note" then SaveNoteV3(fs, cwd, scriptDir, req.length, req.body)
    else (Send(404, ErrorPage("Endpoint not found")), fs)
  }

  /** A POST changes nothing but the shared folder and the note. */
  lemma {:induction false} PostV3Confined(fs: FileSystem, cs: seq<string>, scriptDir: string, req: PostRequest, form: Option<FileField>)
    requires AllPlain(cs)
    ensures var r := PostV3(fs, Rooted(cs), scriptDir, req, form);
            forall q :: !Within(q, SharedRoot(Rooted(cs))) && q != NotePathV3(Rooted(cs), scriptDir) ==> Same(fs, r.1, q)
  {
    if req.path == "/upload" {
      UploadV3Confined(fs, cs, form);
    }
  }

  // ---------------------------------------------------------------------
  // server_v.1.py

  /** The response `list_directory` of server_v.1.py sends for a listing
      outcome and the outcome of reading the note (lines 24-36 and 93-101):
      the note is read after the listing, and a failure to read it escapes
      the handler. */
  function ListingReplyV1(l: Listing, note: Option<string>): (r: Response)
    ensures r.NoReply? <==> l.Page? && note.None?
    ensures r.Reply? ==> r == Send(404, ErrorPage("No permission to list directory")) || r.status == 200
    ensures r.Reply? && r.status == 200 ==> l.Page? && r.body == ListingPage(l.links, l.noFilesNotice, note.value)
  {
    match l
    case Page(links, notice) =>
      (match note
       case None => NoReply
       case Some(text) => Send(200, ListingPage(links, notice, text)))
    case _ => Send(404, ErrorPage("No permission to list directory"))
  }

  /** `list_directory` of server_v.1.py for the folder `dir` the base class
      resolved. */
  function ListingV1(fs: FileSystem, cwd: string, dir: string, listed: Option<seq<string>>): Response {
    ListingReplyV1(ListDirectoryV1(fs, cwd, dir, listed), PageNoteV1(fs, cwd))
  }

  /** The listing page fails exactly when the folder was listed but the note
      exists and cannot be read; it never carries the "No files found" item,
      and it shows the stored note. */
  lemma ListingV1Outcome(fs: FileSystem, cwd: string, dir: string, listed: Option<seq<string>>)
    ensures var r := ListingV1(fs, cwd, dir, listed);
            && (r.NoReply? <==> listed.Some? && Exists(fs, NotePath(cwd)) && ReadText(fs, NotePath(cwd)).Err?)
            && (r.Reply? && r.status == 200 ==> !r.body.noFilesNotice && r.body.note == PageNoteV1(fs, cwd).value)
  {
    ListDirectoryV1Shape(fs, cwd, dir, listed);
  }

  lemma ListDirectoryV1Shape(fs: FileSystem, cwd: string, dir: string, listed: Option<seq<string>>)
    ensures var l := ListDirectoryV1(fs, cwd, dir, listed);
            && (l.Page? <==> listed.Some?)
            && (l.Page? ==> !l.noFilesNotice)
  {
  }

  /** As written, `do_POST` at line 104 is a module-level function, not a
      method of the handler, so the handler has no `do_POST` and the base
      class answers every POST with 501 and changes nothing. */
  function PostV1AsWritten(fs: FileSystem, req: PostRequest): (r: (Response, FileSystem))
    ensures r.1 == fs
    ensures r.0.Reply? && r.0.status == 501
  {
    (Send(501, ErrorPage("Unsupported method ('POST')")), fs)
  }

  /** The note form on the page posts to `/save_note`: as written the post
      is refused with 501 and the note is not saved, where the handler the
      code evidently meant would save it and redirect. */
  lemma {:induction false} PostV1Unhandled(fs: FileSystem, cwd: string, n: string)
    requires IsAscii(n) && '\r' !in n
    requires WriteText(fs, NotePath(cwd), n).Ok?
    ensures var req := PostRequest("/save_note", Length(|NoteFormBody(n)|), NoteFormBody(n), None, None);
            && PostV1AsWritten(fs, req) == (Send(501, ErrorPage("Unsupported method ('POST')")), fs)
            && PostV1(fs, cwd, req).0 == SeeMain
            && PageNoteV1(PostV1(fs, cwd, req).1, cwd) == Some(n)
  {
    var req := PostRequest("/save_note", Length(|NoteFormBody(n)|), NoteFormBody(n), None, None);
    PostV1SaveNoteRoute(fs, cwd, req);
    NoteRoundTripV1(fs, cwd, n);
  }

  /** `do_POST` as a method of the handler, as evidently intended: `/upload`
      and `/save_note` are handled, and any other path gets no response. */
  function PostV1(fs: FileSystem, cwd: string, req: PostRequest): (r: (Response, FileSystem))
    ensures r.0 == SeeMain || r.0 == NoReply
    ensures r.0 == NoReply ==> r.1 == fs
    ensures req.path != "/upload" && req.path != "/save_note" ==> r == (NoReply, fs)
  {
    if req.path == "/upload" then UploadV1(fs, cwd, req.length, req.body)
    else if req.path == "/save_note" then SaveNoteV1(fs, cwd, req.length, req.body)
    else (NoReply, fs)
  }

  /** With the handler fixed, a note posted from the page's form is on the
      next listing, and a POST never changes anything but the shared folder
      and the note. */
  lemma {:induction false} PostV1SavesNote(fs: FileSystem, cwd: string, dir: string, n: string, listed: seq<string>)
    requires IsAscii(n) && '\r' !in n
    requires WriteText(fs, NotePath(cwd), n).Ok?
    ensures var req := PostRequest("/save_note", Length(|NoteFormBody(n)|), NoteFormBody(n), None, None);
            var r := PostV1(fs, cwd, req);
            && r.0 == SeeMain
            && ListingV1(r.1, cwd, dir, Some(listed)).Reply?
            && ListingV1(r.1, cwd, dir, Some(listed)).body.note == n
  {
    var body := NoteFormBody(n);
    var req := PostRequest("/save_note", Length(|body|), body, None, None);
    PostV1SaveNoteRoute(fs, cwd, req);
    NoteRoundTripV1(fs, cwd, n);
    ListingV1ShowsNote(SaveNoteV1(fs, cwd, req.length, body).1, cwd, dir, listed, n);
  }

  lemma PostV1SaveNoteRoute(fs: FileSystem, cwd: string, req: PostRequest)
    requires req.path == "/save_note"
    ensures PostV1(fs, cwd, req) == SaveNoteV1(fs, cwd, req.length, req.body)
  {
    assert req.path[1] == 's';
  }

  lemma ListingV1ShowsNote(fs: FileSystem, cwd: string, dir: string, listed: seq<string>, n: string)
    requires PageNoteV1(fs, cwd) == Some(n)
    ensures ListingV1(fs, cwd, dir, Some(listed)).Reply?
    ensures ListingV1(fs, cwd, dir, Some(listed)).body.note == n
  {
    ListDirectoryV1Shape(fs, cwd, dir, Some(listed));
  }

  lemma {:induction false} PostV1Confined(fs: FileSystem, cs: seq<string>, req: PostRequest)
    requires AllPlain(cs)
    ensures var r := PostV1(fs, Rooted(cs), req);
            forall q :: !Within(q, SharedRoot(Rooted(cs))) && q != NotePath(Rooted(cs)) ==> Same(fs, r.1, q)
  {
    if req.path == "/upload" {
      UploadV1Confined(fs, cs, req.length, req.body);
    }
  }
}

=== FILE: sorting.dfy ===
/** `list.sort(key=...)` as the listings use it: a stable sort by a string key
    under Python's ordering of `str`. */
module Sorting {

  /** Python's `a <= b` on `str`: compares code point by code point, and a
      proper prefix comes first. */
  predicate LexLe(a: string, b: string)
    decreases |a|
  {
    |a| == 0 || (|b| > 0 && (a[0] < b[0] || (a[0] == b[0] && LexLe(a[1..], b[1..]))))
  }

  lemma {:induction false} LexLeRefl(a: string)
    ensures LexLe(a, a)
    decreases |a|
  {
    if |a| > 0 {
      LexLeRefl(a[1..]);
    }
  }

  lemma {:induction false} LexLeTotal(a: string, b: string)
    ensures LexLe(a, b) || LexLe(b, a)
    decreases |a|
  {
    if |a| > 0 && |b| > 0 && a[0] == b[0] {
      LexLeTotal(a[1..], b[1..]);
    }
  }

  lemma {:induction false} LexLeTrans(a: string, b: string, c: string)
    requires LexLe(a, b) && LexLe(b, c)
    ensures LexLe(a, c)
    decreases |a|
  {
    if |a| > 0 && a[0] == b[0] && b[0] == c[0] {
      LexLeTrans(a[1..], b[1..], c[1..]);
    }
  }

  lemma {:induction false} LexLeAntisym(a: string, b: string)
    requires LexLe(a, b) && LexLe(b, a)
    ensures a == b
    decreases |a|
  {
    if |a| > 0 {
      LexLeAntisym(a[1..], b[1..]);
      assert a == [a[0]] + a[1..] && b == [b[0]] + b[1..];
    }
  }

  ghost predicate SortedBy<T>(xs: seq<T>, key: T -> string) {
    forall i, j :: 0 <= i < j < |xs| ==> LexLe(key(xs[i]), key(xs[j]))
  }

  /** The elements of `xs` that satisfy `p`, in their order. */
  function Filter<T>(xs: seq<T>, p: T -> bool): (r: seq<T>)
    ensures |r| <= |xs|
    ensures forall i :: 0 <= i < |r| ==> p(r[i]) && r[i] in xs
    ensures forall x :: x in xs && p(x) ==> x in r
  {
    if |xs| == 0 then []
    else if p(xs[0]) then [xs[0]] + Filter(xs[1..], p)
    else Filter(xs[1..], p)
  }

  /** The elements of `xs` whose key is `k`, in their order. */
  function WithKey<T>(xs: seq<T>, key: T -> string, k: string): (r: seq<T>)
    ensures |r| <= |xs|
  {
    if |xs| == 0 then []
    else if key(xs[0]) == k then [xs[0]] + WithKey(xs[1..], key, k)
    else WithKey(xs[1..], key, k)
  }

  /** Places `x` before the first element whose key is not below its own. */
  function Insert<T>(x: T, xs: seq<T>, key: T -> string): (r: seq<T>)
    ensures |r| == |xs| + 1
    ensures multiset(r) == multiset(xs) + multiset{x}
  {
    if |xs| == 0 then [x]
    else if LexLe(key(x), key(xs[0])) then [x] + xs
    else
      assert xs == [xs[0]] + xs[1..];
      [xs[0]] + Insert(x, xs[1..], key)
  }

  /** `sorted(xs, key=key)`: an insertion sort. Its result is a permutation
      of `xs`, ordered by key, and keeps elements with equal keys in their
      original order. */
  function SortBy<T>(xs: seq<T>, key: T -> string): (r: seq<T>)
    ensures |r| == |xs|
    ensures multiset(r) == multiset(xs)
    ensures SortedBy(r, key)
    ensures forall k :: WithKey(r, key, k) == WithKey(xs, key, k)
  {
    if |xs| == 0 then []
    else
      var rest := SortBy(xs[1..], key);
      InsertSorted(xs[0], rest, key);
      forall k ensures WithKey(Insert(xs[0], rest, key), key, k) == WithKey(xs, key, k) {
        InsertWithKey(xs[0], rest, key, k);
      }
      assert xs == [xs[0]] + xs[1..];
      Insert(xs[0], rest, key)
  }

  lemma {:induction false} InsertSorted<T>(x: T, xs: seq<T>, key: T -> string)
    requires SortedBy(xs, key)
    ensures SortedBy(Insert(x, xs, key), key)
  {
    if |xs| > 0 {
      var r := Insert(x, xs, key);
      if LexLe(key(x), key(xs[0])) {
        forall j | 1 <= j < |r| ensures LexLe(key(r[0]), key(r[j])) {
          if j > 1 {
            LexLeTrans(key(x), key(xs[0]), key(xs[j - 1]));
          }
        }
      } else {
        LexLeTotal(key(x), key(xs[0]));
        InsertSorted(x, xs[1..], key);
        var tail := Insert(x, xs[1..], key);
        assert r == [xs[0]] + tail;
        forall j | 0 < j < |r| ensures LexLe(key(xs[0]), key(r[j])) {
          var y := tail[j - 1];
          assert y in multiset(tail);
          if y == x {
          } else {
            assert y in multiset(xs[1..]);
            var m :| 0 <= m < |xs[1..]| && xs[1..][m] == y;
            assert xs[m + 1] == y;
          }
        }
      }
    }
  }

  /** Inserting `x` adds it to its own key class, in front of the members
      already there, and leaves every other class alone. */
  lemma {:induction false} InsertWithKey<T>(x: T, xs: seq<T>, key: T -> string, k: string)
    ensures WithKey(Insert(x, xs, key), key, k)
            == if key(x) == k then [x] + WithKey(xs, key, k) else WithKey(xs, key, k)
  {
    if |xs| > 0 && !LexLe(key(x), key(xs[0])) {
      LexLeRefl(key(x));
      InsertWithKey(x, xs[1..], key, k);
      assert Insert(x, xs, key) == [xs[0]] + Insert(x, xs[1..], key);
    }
  }

  /** In a sorted sequence the first key is below every key. */
  lemma HeadLeast<T>(xs: seq<T>, key: T -> string, y: T)
    requires SortedBy(xs, key) && |xs| > 0 && y in xs
    ensures LexLe(key(xs[0]), key(y))
  {
    var i :| 0 <= i < |xs| && xs[i] == y;
    if i == 0 {
      LexLeRefl(key(y));
    }
  }

  lemma {:induction false} FilterSorted<T>(xs: seq<T>, p: T -> bool, key: T -> string)
    requires SortedBy(xs, key)
    ensures SortedBy(Filter(xs, p), key)
  {
    if |xs| > 0 {
      FilterSorted(xs[1..], p, key);
      var rest := Filter(xs[1..], p);
      if p(xs[0]) {
        forall j | 0 < j < |rest| + 1 ensures LexLe(key(xs[0]), key(([xs[0]] + rest)[j])) {
          HeadLeast(xs, key, rest[j - 1]);
        }
      }
    }
  }

  lemma {:induction false} InsertFilter<T>(x: T, xs: seq<T>, key: T -> string, p: T -> bool)
    requires SortedBy(xs, key)
    ensures Filter(Insert(x, xs, key), p)
            == if p(x) then Insert(x, Filter(xs, p), key) else Filter(xs, p)
  {
    if |xs| > 0 {
      var f := Filter(xs, p);
      if LexLe(key(x), key(xs[0])) {
        assert Insert(x, xs, key) == [x] + xs;
        if p(x) && |f| > 0 {
          HeadLeast(xs, key, f[0]);
          LexLeTrans(key(x), key(xs[0]), key(f[0]));
        }
      } else {
        InsertFilter(x, xs[1..], key, p);
        assert Insert(x, xs, key) == [xs[0]] + Insert(x, xs[1..], key);
      }
    }
  }

  /** Filtering then sorting gives what sorting then filtering gives. */
  lemma {:induction false} FilterSortBy<T>(xs: seq<T>, p: T -> bool, key: T -> string)
    ensures Filter(SortBy(xs, key), p) == SortBy(Filter(xs, p), key)
  {
    if |xs| > 0 {
      FilterSortBy(xs[1..], p, key);
      InsertFilter(xs[0], SortBy(xs[1..], key), key, p);
    }
  }

  /** Sorting keeps exactly the elements it was given. */
  lemma SortByMembers<T>(xs: seq<T>, key: T -> string)
    ensures forall x :: x in SortBy(xs, key) <==> x in xs
  {
    forall x ensures x in SortBy(xs, key) <==> x in xs {
      assert x in SortBy(xs, key) <==> x in multiset(SortBy(xs, key));
      assert x in xs <==> x in multiset(xs);
    }
  }
}

=== FILE: text.dfy ===
/** The handful of Python `str` operations the server relies on, over `string`
    (a sequence of Unicode scalar values). */
module Text {

  predicate StartsWith(s: string, prefix: string) {
    |prefix| <= |s| && s[..|prefix|] == prefix
  }

  predicate EndsWith(s: string, suffix: string) {
    |suffix| <= |s| && s[|s| - |suffix|..] == suffix
  }

  predicate IsAscii(s: string) {
    forall i :: 0 <= i < |s| ==> s[i] as int < 0x80
  }

  /** `str.lower` restricted to ASCII: only 'A'..'Z' change. */
  function LowerChar(c: char): char {
    if 'A' <= c <= 'Z' then (c as int + 32) as char else c
  }

  function Lower(s: string): (r: string)
    ensures |r| == |s|
    ensures forall i :: 0 <= i < |s| ==> r[i] == LowerChar(s[i])
  {
    if |s| == 0 then [] else [LowerChar(s[0])] + Lower(s[1..])
  }

  /** `s.split(c, 1)[0]`: everything before the first `c`, or all of `s`. */
  function BeforeFirst(s: string, c: char): (r: string)
    ensures c !in r
    ensures StartsWith(s, r)
    ensures c !in s ==> r == s
    ensures |r| < |s| ==> s[|r|] == c
  {
    if |s| == 0 then []
    else if s[0] == c then []
    else [s[0]] + BeforeFirst(s[1..], c)
  }

  /** `s.lstrip(c)`: drops every leading `c`. */
  function LStrip(s: string, c: char): (r: string)
    ensures |r| == 0 || r[0] != c
    ensures |r| <= |s| && r == s[|s| - |r|..]
    ensures |s| > 0 && s[0] != c ==> r == s
  {
    if |s| > 0 && s[0] == c then LStrip(s[1..], c) else s
  }

  lemma ConcatAssoc<T>(a: seq<T>, b: seq<T>, c: seq<T>)
    ensures a + b + c == a + (b + c)
  {
  }

  /** `lstrip(c)` removes a leading run of `c` and nothing more. */
  lemma {:induction false} LStripRepeat(c: char, k: nat, x: string)
    requires |x| == 0 || x[0] != c
    ensures LStrip(Repeat(c, k) + x, c) == x
    decreases k
  {
    if k > 0 {
      var r := Repeat(c, k - 1);
      assert Repeat(c, k) == [c] + r;
      ConcatAssoc([c], r, x);
      LStripHead(c, r + x);
      LStripRepeat(c, k - 1, x);
    } else {
      assert Repeat(c, k) == [];
      assert [] + x == x;
    }
  }

  lemma LStripHead(c: char, y: string)
    ensures LStrip([c] + y, c) == LStrip(y, c)
  {
    assert ([c] + y)[0] == c;
    assert ([c] + y)[1..] == y;
  }

  /** `s.replace(pat, rep)`: every non-overlapping occurrence, left to right. */
  function ReplaceAll(s: string, pat: string, rep: string): (r: string)
    requires |pat| > 0
    ensures (forall i :: 0 <= i < |s| ==> s[i] != pat[0]) ==> r == s
    ensures |s| > 0 && |rep| > 0 ==> |r| > 0
    decreases |s|
  {
    if StartsWith(s, pat) then rep + ReplaceAll(s[|pat|..], pat, rep)
    else if |s| == 0 then []
    else [s[0]] + ReplaceAll(s[1..], pat, rep)
  }

  /** `s.split(sep)` for a non-empty separator: the pieces between
      non-overlapping occurrences of `sep`, scanning left to right. */
  function SplitOn(s: string, sep: string): (r: seq<string>)
    requires |sep| > 0
    ensures |r| >= 1
    decreases |s|
  {
    if StartsWith(s, sep) then [[]] + SplitOn(s[|sep|..], sep)
    else if |s| == 0 then [[]]
    else
      var rest := SplitOn(s[1..], sep);
      [[s[0]] + rest[0]] + rest[1..]
  }

  /** True when `sep` occurs somewhere in `s`. */
  predicate Contains(s: string, sep: string) {
    exists i :: 0 <= i <= |s| && StartsWith(s[i..], sep)
  }

  /** The split has more than one piece exactly when the separator occurs. */
  lemma {:induction false} SplitOnPieces(s: string, sep: string)
    requires |sep| > 0
    ensures |SplitOn(s, sep)| > 1 <==> Contains(s, sep)
    decreases |s|
  {
    if StartsWith(s, sep) {
      assert StartsWith(s[0..], sep);
    } else if |s| == 0 {
      forall i | 0 <= i <= |s| ensures !StartsWith(s[i..], sep) { }
    } else {
      SplitOnPieces(s[1..], sep);
      if Contains(s[1..], sep) {
        var i :| 0 <= i <= |s[1..]| && StartsWith(s[1..][i..], sep);
        assert s[1..][i..] == s[i + 1..];
      }
      if Contains(s, sep) {
        var i :| 0 <= i <= |s| && StartsWith(s[i..], sep);
        assert i != 0;
        assert s[1..][i - 1..] == s[i..];
      }
    }
  }

  function Repeat(c: char, n: nat): (r: string)
    ensures |r| == n
    ensures forall i :: 0 <= i < n ==> r[i] == c
  {
    if n == 0 then [] else [c] + Repeat(c, n - 1)
  }

  /** What Python's text-mode read does to line ends: `\r\n` and a lone `\r`
      both become `\n`. */
  function UniversalNewlines(s: string): (r: string)
    ensures '\r' !in r
    ensures '\r' !in s ==> r == s
    ensures |r| <= |s|
  {
    if |s| == 0 then []
    else if s[0] == '\r' then
      if |s| >= 2 && s[1] == '\n' then ['\n'] + UniversalNewlines(s[2..])
      else ['\n'] + UniversalNewlines(s[1..])
    else [s[0]] + UniversalNewlines(s[1..])
  }

  /** `str.isspace` for one character: the ASCII blanks, the separators
      U+001C..U+001F and the Unicode space characters. */
  predicate IsSpace(c: char) {
    || c == ' ' || '\t' <= c <= '\r' || '\U{1C}' <= c <= '\U{1F}'
    || c == '\U{85}' || c == '\U{A0}' || c == '\U{1680}' || '\U{2000}' <= c <= '\U{200A}'
    || c == '\U{2028}' || c == '\U{2029}' || c == '\U{202F}' || c == '\U{205F}' || c == '\U{3000}'
  }

  /** `s.lstrip()`: the suffix left after every leading space. */
  function LStripSpace(s: string): (r: string)
    ensures |r| <= |s| && r == s[|s| - |r|..]
    ensures |r| == 0 || !IsSpace(r[0])
    ensures forall k :: 0 <= k < |s| - |r| ==> IsSpace(s[k])
  {
    if |s| > 0 && IsSpace(s[0]) then LStripSpace(s[1..]) else s
  }

  /** `s.rstrip()`: the prefix left after every trailing space. */
  function RStripSpace(s: string): (r: string)
    ensures |r| <= |s| && r == s[..|r|]
    ensures |r| == 0 || !IsSpace(r[|r| - 1])
    ensures forall k :: |r| <= k < |s| ==> IsSpace(s[k])
  {
    if |s| > 0 && IsSpace(s[|s| - 1]) then RStripSpace(s[..|s| - 1]) else s
  }

  /** `s.strip()` */
  function Strip(s: string): string {
    RStripSpace(LStripSpace(s))
  }

  /** A string with no space at either end is its own stripped form. */
  lemma StripUnspaced(s: string)
    requires |s| == 0 || (!IsSpace(s[0]) && !IsSpace(s[|s| - 1]))
    ensures Strip(s) == s
  {
  }

  /** `str(n)` for a natural number. */
  function NatToString(n: nat): (r: string)
    ensures |r| >= 1
    ensures forall i :: 0 <= i < |r| ==> '0' <= r[i] <= '9'
  {
    var d := ['0' + (n % 10) as char];
    if n < 10 then d else NatToString(n / 10) + d
  }

  /** `sep.join(parts)` */
  function JoinWith(sep: string, parts: seq<string>): (r: string)
    ensures |parts| == 1 ==> r == parts[0]
  {
    if |parts| == 0 then []
    else if |parts| == 1 then parts[0]
    else parts[0] + sep + JoinWith(sep, parts[1..])
  }

  /** Replacing a single character distributes over concatenation. */
  lemma {:induction false} ReplaceCharConcat(a: string, b: string, c: char, rep: string)
    ensures ReplaceAll(a + b, [c], rep) == ReplaceAll(a, [c], rep) + ReplaceAll(b, [c], rep)
    decreases |a|
  {
    if |a| > 0 {
      ReplaceCharConcat(a[1..], b, c, rep);
      assert (a + b)[1..] == a[1..] + b;
      assert StartsWith(a + b, [c]) <==> StartsWith(a, [c]);
    } else {
      assert a + b == b;
    }
  }

  /** A string without the separator splits into itself alone. */
  lemma {:induction false} SplitOnAbsent(s: string, sep: string)
    requires |sep| > 0 && !Contains(s, sep)
    ensures SplitOn(s, sep) == [s]
    decreases |s|
  {
    assert !StartsWith(s[0..], sep);
    assert s[0..] == s;
    if |s| > 0 {
      assert !Contains(s[1..], sep) by {
        forall i | 0 <= i <= |s[1..]| ensures !StartsWith(s[1..][i..], sep) {
          assert s[1..][i..] == s[i + 1..];
        }
      }
      SplitOnAbsent(s[1..], sep);
      assert [s[0]] + s[1..] == s;
    }
  }

  /** A string that starts with the separator splits into an empty first
      piece followed by the pieces of the rest. */
  lemma SplitOnLeading(sep: string, v: string)
    requires |sep| > 0
    ensures SplitOn(sep + v, sep) == [[]] + SplitOn(v, sep)
  {
    assert (sep + v)[..|sep|] == sep;
    assert (sep + v)[|sep|..] == v;
  }
}

=== FILE: upload_handler.dfy ===
/** File uploads: `POST /api/upload` of server_v.4.py (several files under
    `files[]`, each placed through `secure_path`), `POST /upload` of
    server_v.3.py (one file under `file`), and the `/upload` branch of
    server_v.1.py (a URL-encoded field whose value is stored). */
module UploadHandler {
  import opened Wrappers
  import opened Text
  import opened Utf8
  import opened Percent
  import opened PosixPath
  import opened PathResolver
  import opened FileStore
  import opened Form
  import opened Listing
  import opened Http
  import opened NoteStore

  /** One part of a multipart body, as `cgi.FieldStorage` exposes it: its
      `filename` (`None` for a plain field) and its content. */
  datatype UploadItem = UploadItem(filename: Option<string>, data: seq<Byte>)

  /** `if file_item.filename:` — a part is processed only when it names a
      file. */
  predicate Named(item: UploadItem) {
    item.filename.Some? && item.filename.value != ""
  }

  function CountNamed(items: seq<UploadItem>): (r: nat)
    ensures r <= |items|
  {
    if |items| == 0 then 0 else (if Named(items[0]) then 1 else 0) + CountNamed(items[1..])
  }

  // ---------------------------------------------------------------------
  // server_v.4.py: POST /api/upload

  /** A part that was not saved, with the file name the client sent. */
  datatype UploadError =
    | Blocked(filename: string)   // a `ValueError`: `secure_path` refused the name, or `open` a NUL in it
    | Failed(filename: string)    // any other failure to write the file

  function ErrorText(e: UploadError): string {
    match e
    case Blocked(f) => "Blocked '" + f + "': Invalid path."
    case Failed(f) => "Failed to save '" + f + "'."
  }

  function ErrorTexts(es: seq<UploadError>): (r: seq<string>)
    ensures |r| == |es|
    ensures forall i :: 0 <= i < |r| ==> r[i] == ErrorText(es[i])
  {
    if |es| == 0 then [] else [ErrorText(es[0])] + ErrorTexts(es[1..])
  }

  /** The state of the loop at lines 247-267: the filesystem, the names
      saved so far and the errors so far. */
  datatype Batch = Batch(fs: FileSystem, uploaded: seq<string>, errors: seq<UploadError>)

  /** Where a saved name lives. */
  predicate Stored(fs: FileSystem, cwd: string, n: string) {
    var t := SecurePath(cwd, SharedFolder, n);
    t.Ok? && IsFile(fs, t.value)
  }

  predicate AllStored(b: Batch, cwd: string) {
    forall i :: 0 <= i < |b.uploaded| ==> Plain(b.uploaded[i]) && Stored(b.fs, cwd, b.uploaded[i])
  }

  /** `q` is the file a part named `n` is written to. */
  predicate WritesTo(cwd: string, n: string, q: string) {
    var t := SecurePath(cwd, SharedFolder, n);
    t.Ok? && t.value == q
  }

  /** The name raises `ValueError` on its way to the disk: `secure_path`
      refuses it, or the path it resolves to holds a NUL, which `open`
      rejects. Both land in the `except ValueError` branch. */
  predicate Refused(cwd: string, n: string) {
    var t := SecurePath(cwd, SharedFolder, n);
    t.Err? || !Acceptable(t.value)
  }

  /** One pass of the loop. A part without a file name is skipped; otherwise
      its basename goes through `secure_path` and the part is written there.
      Exactly one of the two lists grows; an error is `Blocked` exactly when
      the name raised `ValueError`; and the only path whose entry can change
      is the one the saved name is written to. */
  function SaveItem(cwd: string, b: Batch, item: UploadItem): (r: Batch)
    ensures !Named(item) ==> r == b
    ensures Named(item) ==> |r.uploaded| + |r.errors| == |b.uploaded| + |b.errors| + 1
    ensures b.uploaded <= r.uploaded && b.errors <= r.errors
    ensures |r.uploaded| == |b.uploaded| ==> r.fs == b.fs
    ensures |r.errors| > |b.errors| ==>
              && r.errors[|b.errors|].filename == item.filename.value
              && (r.errors[|b.errors|].Blocked? <==> Refused(cwd, Basename(item.filename.value)))
    ensures forall q :: Same(b.fs, r.fs, q) || (|r.uploaded| > |b.uploaded| && WritesTo(cwd, r.uploaded[|b.uploaded|], q))
  {
    if !Named(item) then b
    else
      var fn := item.filename.value;
      var base := Basename(fn);
      match SecurePath(cwd, SharedFolder, base)
      case Err(_) => Batch(b.fs, b.uploaded, b.errors + [Blocked(fn)])
      case Ok(p) =>
        match WriteFile(b.fs, p, item.data)
        case Err(EmbeddedNul) => Batch(b.fs, b.uploaded, b.errors + [Blocked(fn)])
        case Err(_) => Batch(b.fs, b.uploaded, b.errors + [Failed(fn)])
        case Ok(fs') => Batch(fs', b.uploaded + [base], b.errors)
  }

  /** A saved part is stored under its basename, a plain name, as a file
      holding exactly the part's content. */
  lemma SaveItemSaved(cwd: string, b: Batch, item: UploadItem)
    ensures var r := SaveItem(cwd, b, item);
            |r.uploaded| > |b.uploaded| ==>
              var n := r.uploaded[|r.uploaded| - 1];
              && n == Basename(item.filename.value)
              && Plain(n)
              && IsFile(r.fs, SecurePath(cwd, SharedFolder, n).value)
              && r.fs[SecurePath(cwd, SharedFolder, n).value].content == item.data
  {
    var r := SaveItem(cwd, b, item);
    if |r.uploaded| > |b.uploaded| {
      var n := Basename(item.filename.value);
      var t := SecurePath(cwd, SharedFolder, n);
      assert t.Ok?;
      var w := WriteFile(b.fs, t.value, item.data);
      assert w.Ok? && r == Batch(w.value, b.uploaded + [n], b.errors);
      assert r.uploaded[|r.uploaded| - 1] == n;
    }
  }

  /** One pass changes nothing outside the shared folder. */
  lemma SaveItemFrame(cwd: string, b: Batch, item: UploadItem)
    ensures var r := SaveItem(cwd, b, item);
            forall q :: !Within(q, SharedRoot(cwd)) ==> Same(b.fs, r.fs, q)
  {
    var r := SaveItem(cwd, b, item);
    if r.fs != b.fs {
      var t := SecurePath(cwd, SharedFolder, Basename(item.filename.value));
      assert t.Ok?;
      var w := WriteFile(b.fs, t.value, item.data);
      assert w.Ok? && r.fs == w.value;
      WriteWithin(b.fs, t.value, item.data, SharedRoot(cwd));
    }
  }

  lemma SaveItemStored(cwd: string, b: Batch, item: UploadItem)
    ensures AllStored(b, cwd) ==> AllStored(SaveItem(cwd, b, item), cwd)
  {
    var r := SaveItem(cwd, b, item);
    if AllStored(b, cwd) && |r.uploaded| > |b.uploaded| {
      var p := SecurePath(cwd, SharedFolder, Basename(item.filename.value)).value;
      forall i | 0 <= i < |b.uploaded| ensures Stored(r.fs, cwd, b.uploaded[i]) {
        WriteKeepsFiles(b.fs, p, item.data, SecurePath(cwd, SharedFolder, b.uploaded[i]).value);
      }
    }
  }

  /** A write within a folder leaves everything outside it alone. */
  lemma WriteWithin(fs: FileSystem, p: string, data: seq<Byte>, root: string)
    requires WriteFile(fs, p, data).Ok? && Within(p, root)
    ensures forall q :: !Within(q, root) ==> Same(fs, WriteFile(fs, p, data).value, q)
  {
  }

  /** A write never turns a file into something else. */
  lemma WriteKeepsFiles(fs: FileSystem, p: string, data: seq<Byte>, t: string)
    requires WriteFile(fs, p, data).Ok?
    ensures IsFile(fs, t) ==> IsFile(WriteFile(fs, p, data).value, t)
  {
  }

  /** The whole loop over the parts, in order. The only entries that change
      are the targets of the names saved in this run. */
  function SaveItems(cwd: string, b: Batch, items: seq<UploadItem>): (r: Batch)
    ensures |r.uploaded| + |r.errors| == |b.uploaded| + |b.errors| + CountNamed(items)
    ensures b.uploaded <= r.uploaded && b.errors <= r.errors
    ensures |r.uploaded| == |b.uploaded| ==> r.fs == b.fs
    ensures forall q :: Same(b.fs, r.fs, q) || exists i :: |b.uploaded| <= i < |r.uploaded| && WritesTo(cwd, r.uploaded[i], q)
    ensures forall q :: !Within(q, SharedRoot(cwd)) ==> Same(b.fs, r.fs, q)
    ensures AllStored(b, cwd) ==> AllStored(r, cwd)
    decreases |items|
  {
    if |items| == 0 then b
    else
      var b1 := SaveItem(cwd, b, items[0]);
      SaveItemFrame(cwd, b, items[0]);
      SaveItemStored(cwd, b, items[0]);
      var r := SaveItems(cwd, b1, items[1..]);
      assert |r.uploaded| == |b.uploaded| ==> |b1.uploaded| == |b.uploaded|;
      BatchFrameStep(cwd, b, b1, r);
      r
  }

  /** Chaining two passes keeps the frame: an entry that changed was changed
      by one of them, so it is the target of a name either pass saved. */
  lemma BatchFrameStep(cwd: string, b: Batch, b1: Batch, r: Batch)
    requires b.uploaded <= b1.uploaded <= r.uploaded
    requires forall q :: Same(b.fs, b1.fs, q) || (|b1.uploaded| > |b.uploaded| && WritesTo(cwd, b1.uploaded[|b.uploaded|], q))
    requires forall q :: Same(b1.fs, r.fs, q) || exists i :: |b1.uploaded| <= i < |r.uploaded| && WritesTo(cwd, r.uploaded[i], q)
    ensures forall q :: Same(b.fs, r.fs, q) || exists i :: |b.uploaded| <= i < |r.uploaded| && WritesTo(cwd, r.uploaded[i], q)
  {
    forall q | !Same(b.fs, r.fs, q)
      ensures exists i :: |b.uploaded| <= i < |r.uploaded| && WritesTo(cwd, r.uploaded[i], q)
    {
      if !Same(b.fs, b1.fs, q) {
        var i := |b.uploaded|;
        assert r.uploaded[i] == b1.uploaded[i];
        assert WritesTo(cwd, r.uploaded[i], q);
      } else {
        assert !Same(b1.fs, r.fs, q);
      }
    }
  }

  /** The `Content-Type` header once `cgi.parse_header` has split it: the
      media type and the `boundary` parameter. */
  datatype ContentType = ContentType(mime: string, boundary: Option<string>)

  /** What `cgi.FieldStorage` made of the body: `None` when parsing raised;
      otherwise the parts under `files[]`, `None` when there is no such
      field. */
  type ParsedUpload = Option<Option<seq<UploadItem>>>

  const Multipart: string := "multipart/form-data"
  const BadContentType: string := "Invalid content type. Expected 'multipart/form-data'."
  const NoFilesField: string := "No 'files[]' field found in upload data."
  const NothingUploaded: string := "No valid files were uploaded."

  function SuccessMessage(saved: nat, failed: nat): string {
    "Successfully uploaded " + NatToString(saved) + " file(s)."
    + (if failed > 0 then " Encountered " + NatToString(failed) + " error(s)." else "")
  }

  /** The parts to save when the request is well formed. */
  function UploadParts(contentType: Option<ContentType>, length: ContentLength, form: ParsedUpload): Option<seq<UploadItem>> {
    if && contentType.Some? && contentType.value.mime == Multipart
       && contentType.value.boundary.Some? && length.Length? && form.Some? && form.value.Some?
    then form.value
    else None
  }

  /** `POST /api/upload` (lines 224-288, with the catch-all at 299-301). */
  function Upload(fs: FileSystem, cwd: string, contentType: Option<ContentType>, length: ContentLength,
                  form: ParsedUpload, now: string): (r: (Response, FileSystem))
    ensures r.0.Reply?
    ensures r.0.status != 200 ==> r.1 == fs
    ensures forall q :: !Within(q, SharedRoot(cwd)) && q != LastChangePath(cwd) ==> Same(fs, r.1, q)
  {
    if contentType.None? then (Send(500, JsonFault(RequestFault)), fs)
    else if contentType.value.mime != Multipart then (Send(400, JsonError(BadContentType)), fs)
    else if contentType.value.boundary.None? || !length.Length? || form.None? then (Send(500, JsonFault(RequestFault)), fs)
    else match form.value
      case None => (Send(400, JsonError(NoFilesField)), fs)
      case Some(items) =>
        var b := SaveItems(cwd, Batch(fs, [], []), items);
        if |b.uploaded| > 0 then
          var (fs2, stamp) := UpdateLastChange(b.fs, cwd, now);
          var body := UploadSummary(SuccessMessage(|b.uploaded|, |b.errors|), b.uploaded, ErrorTexts(b.errors), stamp);
          (Send(200, body), fs2)
        else if |b.errors| > 0 then
          (Send(400, JsonError("Upload failed. Errors: " + JoinWith("; ", ErrorTexts(b.errors)))), b.fs)
        else (Send(400, JsonError(NothingUploaded)), b.fs)
  }

  /** The only entries an upload changes are the stamp file and the targets
      of the names its reply lists as uploaded. */
  lemma UploadFrame(fs: FileSystem, cwd: string, contentType: Option<ContentType>, length: ContentLength,
                    form: ParsedUpload, now: string)
    ensures var r := Upload(fs, cwd, contentType, length, form, now);
            forall q :: || Same(fs, r.1, q)
                        || (r.0.body.UploadSummary? && q == LastChangePath(cwd))
                        || (r.0.body.UploadSummary? && exists i :: 0 <= i < |r.0.body.uploaded| && WritesTo(cwd, r.0.body.uploaded[i], q))
  {
    var r := Upload(fs, cwd, contentType, length, form, now);
    var parts := UploadParts(contentType, length, form);
    if r.0.status == 200 {
      assert parts.Some?;
      var b := SaveItems(cwd, Batch(fs, [], []), parts.value);
      assert |b.uploaded| > 0;
      var fs2 := UpdateLastChange(b.fs, cwd, now).0;
      assert r.1 == fs2 && r.0.body.UploadSummary? && r.0.body.uploaded == b.uploaded;
      forall q | q != LastChangePath(cwd) && !Same(fs, r.1, q)
        ensures exists i :: 0 <= i < |b.uploaded| && WritesTo(cwd, b.uploaded[i], q)
      {
        assert Same(b.fs, fs2, q);
        assert !Same(fs, b.fs, q);
      }
    }
  }

  /** Every status the handler can answer with, in the code's order. No
      `Content-Type` header, a missing boundary, a missing or malformed
      length, or a body the parser rejects ends in the catch-all 500 (lines
      225-231 and 299-301). Another media type is a 400 (line 288), and so
      is a form without `files[]` (line 286). A batch that saved nothing is a
      400 that lists the errors (line 281) or, when there were none, says
      that nothing was uploaded (line 283). None of these changes the
      filesystem. A 200 carries the stamp that was just written (lines
      270-279). */
  lemma UploadStatus(fs: FileSystem, cwd: string, contentType: Option<ContentType>, length: ContentLength,
                     form: ParsedUpload, now: string)
    ensures var r := Upload(fs, cwd, contentType, length, form, now);
            var fault := (Send(500, JsonFault(RequestFault)), fs);
            var multipart := contentType.Some? && contentType.value.mime == Multipart;
            var parts := UploadParts(contentType, length, form);
            var b := SaveItems(cwd, Batch(fs, [], []), if parts.Some? then parts.value else []);
            && (contentType.None? ==> r == fault)
            && (contentType.Some? && contentType.value.mime != Multipart ==> r == (Send(400, JsonError(BadContentType)), fs))
            && (multipart && (contentType.value.boundary.None? || !length.Length? || form.None?) ==> r == fault)
            && (multipart && contentType.value.boundary.Some? && length.Length? && form == Some(None) ==>
                  r == (Send(400, JsonError(NoFilesField)), fs))
            && (parts.Some? && |b.uploaded| == 0 && |b.errors| > 0 ==>
                  r == (Send(400, JsonError("Upload failed. Errors: " + JoinWith("; ", ErrorTexts(b.errors)))), fs))
            && (parts.Some? && |b.uploaded| == 0 && |b.errors| == 0 ==> r == (Send(400, JsonError(NothingUploaded)), fs))
            && (parts.Some? && |b.uploaded| > 0 ==>
                  r.0.status == 200 && r.0.body.lastChange == UpdateLastChange(b.fs, cwd, now).1)
  {
  }

  /** The upload succeeds exactly when the request is well formed and at
      least one part was saved; then every named part is accounted for once,
      as a saved name or as an error, and every saved name is a plain name
      whose file is in place below the shared root. */
  lemma {:induction false} UploadOutcome(fs: FileSystem, cs: seq<string>, contentType: Option<ContentType>,
                                         length: ContentLength, form: ParsedUpload, now: string)
    requires AllPlain(cs)
    ensures var cwd := Rooted(cs);
            var r := Upload(fs, cwd, contentType, length, form, now);
            var parts := UploadParts(contentType, length, form);
            && (r.0.status == 200 <==> parts.Some? && |SaveItems(cwd, Batch(fs, [], []), parts.value).uploaded| > 0)
            && (r.0.status == 200 ==>
                  && r.0.body.UploadSummary?
                  && |r.0.body.uploaded| + |r.0.body.errors| == CountNamed(parts.value)
                  && forall i :: 0 <= i < |r.0.body.uploaded| ==>
                       Plain(r.0.body.uploaded[i]) && Stored(r.1, cwd, r.0.body.uploaded[i]))
  {
    var cwd := Rooted(cs);
    var parts := UploadParts(contentType, length, form);
    if parts.Some? {
      var b := SaveItems(cwd, Batch(fs, [], []), parts.value);
      if |b.uploaded| > 0 {
        StampOutsideShared(cs);
        var fs2 := UpdateLastChange(b.fs, cwd, now).0;
        forall i | 0 <= i < |b.uploaded| ensures Stored(fs2, cwd, b.uploaded[i]) {
          var t := SecurePath(cwd, SharedFolder, b.uploaded[i]).value;
          assert Within(t, SharedRoot(cwd));
          assert Same(b.fs, fs2, t);
        }
      }
    }
  }

  /** The stamp file is not below the shared root. */
  lemma StampOutsideShared(cs: seq<string>)
    requires AllPlain(cs)
    ensures !Within(LastChangePath(Rooted(cs)), SharedRoot(Rooted(cs)))
  {
    NoteFilesApart(cs);
    SharedRootIs(cs);
    DifferentChildren(DirPrefix(cs), LastChangeFile, "shared");
  }

  /** Two names that differ in their first character give paths neither of
      which lies within the other. */
  lemma DifferentChildren(d: string, a: string, b: string)
    requires |a| > 0 && |b| > 0 && a[0] != b[0]
    ensures !Within(d + a, d + b)
  {
    var p := d + a;
    var root := d + b;
    assert p[|d|] == a[0] && root[|d|] == b[0];
    assert p != root;
    assert !StartsWith(p, root + [Sep]) by {
      assert (root + [Sep])[|d|] == b[0];
      assert |p| < |root| + 1 || p[..|root| + 1][|d|] != (root + [Sep])[|d|];
    }
  }

  // ---------------------------------------------------------------------
  // server_v.3.py: POST /upload

  /** The `file` field of the parsed form: missing, one part, or several
      parts (a list, which has no `filename`). */
  datatype FileField = NoFileField | OneFile(item: UploadItem) | ManyFiles

  /** `POST /upload` (lines 439-479): the part's basename is joined to the
      shared folder, checked with a plain prefix test, and written through
      the joined path as it stands; every failure is a 500 and every other
      outcome a redirect. `form` is `None` when `cgi.FieldStorage` raised. */
  function UploadV3(fs: FileSystem, cwd: string, form: Option<FileField>): (r: (Response, FileSystem))
    ensures r.0 == SeeMain || r.0 == Send(500, ErrorPageFault(RequestFault))
    ensures r.0 != SeeMain ==> r.1 == fs
  {
    var fault := Send(500, ErrorPageFault(RequestFault));
    match form
    case None => (fault, fs)
    case Some(NoFileField) => (SeeMain, fs)
    case Some(ManyFiles) => (fault, fs)
    case Some(OneFile(item)) =>
      if !Named(item) then (SeeMain, fs)
      else
        var name := Basename(item.filename.value);
        if name == "" then (fault, fs)
        else
          var full := AbsPath(cwd, PathJoin(SharedFolder, name));
          if !StartsWith(full, SharedRoot(cwd)) then (fault, fs)
          else match WriteEntry(fs, cwd, SharedFolder, name, item.data)
            case Ok(fs') => (SeeMain, fs')
            case Err(_) => (fault, fs)
  }

  /** What each shape of form leads to: a missing `file` field, or a part
      without a file name, is a redirect with nothing written; a list of
      parts, a basename that comes out empty (`../..`, `dir/`) or a failed
      prefix test is a 500 with nothing written. The basenames `.` and `..`
      are 500s as well, whatever the prefix test says, since
      `open("./shared/.", "wb")` and `open("./shared/..", "wb")` raise. Any
      other name is written to its normalised path, and that write decides. */
  lemma UploadV3Outcome(fs: FileSystem, cwd: string, form: Option<FileField>)
    ensures var fault := Send(500, ErrorPageFault(RequestFault));
            var r := UploadV3(fs, cwd, form);
            && (form.None? ==> r == (fault, fs))
            && (form == Some(NoFileField) ==> r == (SeeMain, fs))
            && (form == Some(ManyFiles) ==> r == (fault, fs))
            && (form.Some? && form.value.OneFile? && !Named(form.value.item) ==> r == (SeeMain, fs))
            && (form.Some? && form.value.OneFile? && Named(form.value.item) ==>
                  var item := form.value.item;
                  var name := Basename(item.filename.value);
                  var full := AbsPath(cwd, PathJoin(SharedFolder, name));
                  var w := WriteFile(fs, full, item.data);
                  && (name == "" || name == "." || name == ".." ==> r == (fault, fs))
                  && (!StartsWith(full, SharedRoot(cwd)) ==> r == (fault, fs))
                  && (name !in {"", ".", ".."} && StartsWith(full, SharedRoot(cwd)) ==>
                        r == if w.Ok? then (SeeMain, w.value) else (fault, fs)))
  {
    if form.Some? && form.value.OneFile? && Named(form.value.item) {
      var item := form.value.item;
      var name := Basename(item.filename.value);
      if name !in {"", ".", ".."} && StartsWith(AbsPath(cwd, PathJoin(SharedFolder, name)), SharedRoot(cwd)) {
        UploadV3Writes(fs, cwd, item);
      }
    }
  }

  /** The prefix test at line 459 has no separator boundary, but a basename
      holds no '/', so for every name that reaches it the test passes exactly
      when the target is within the shared root. */
  lemma PrefixCheckV3(cs: seq<string>, name: string)
    requires AllPlain(cs) && NoSep(name) && name != ""
    ensures var cwd := Rooted(cs);
            var full := AbsPath(cwd, PathJoin(SharedFolder, name));
            StartsWith(full, SharedRoot(cwd)) <==> Within(full, SharedRoot(cwd))
  {
    var cwd := Rooted(cs);
    var root := SharedRoot(cwd);
    var full := AbsPath(cwd, PathJoin(SharedFolder, name));
    SharedNameTarget(cs, name);
    if name == ".." {
      assert full == cwd;
      WorkingDirOutsideShared(cs);
    } else if name == "." {
      assert full == root;
      assert full[..|root|] == root;
    } else {
      assert full == root + [Sep] + name;
      assert full[..|root| + 1] == root + [Sep];
      WithinStartsWith(full, root);
    }
  }

  /** An upload never changes anything outside the shared folder, and a
      redirect after a named part means its content is stored under its
      basename there. */
  lemma UploadV3Confined(fs: FileSystem, cs: seq<string>, form: Option<FileField>)
    requires AllPlain(cs)
    ensures var r := UploadV3(fs, Rooted(cs), form);
            forall q :: !Within(q, SharedRoot(Rooted(cs))) ==> Same(fs, r.1, q)
  {
    var r := UploadV3(fs, Rooted(cs), form);
    if r.1 != fs {
      var cwd := Rooted(cs);
      var item := form.value.item;
      var name := Basename(item.filename.value);
      var full := AbsPath(cwd, PathJoin(SharedFolder, name));
      assert name != "" && StartsWith(full, SharedRoot(cwd));
      PrefixCheckV3(cs, name);
      var w := WriteEntry(fs, cwd, SharedFolder, name, item.data);
      assert w.Ok? && r.1 == w.value;
      assert Within(full, SharedRoot(cwd));
    }
  }

  lemma UploadV3Stores(fs: FileSystem, cs: seq<string>, item: UploadItem)
    requires AllPlain(cs) && Named(item) && Plain(Basename(item.filename.value))
    ensures var cwd := Rooted(cs);
            var target := SharedRoot(cwd) + [Sep] + Basename(item.filename.value);
            var r := UploadV3(fs, cwd, Some(OneFile(item)));
            (r.0 == SeeMain <==> WriteFile(fs, target, item.data).Ok?)
            && (r.0 == SeeMain ==> IsFile(r.1, target) && r.1[target].content == item.data)
  {
    var cwd := Rooted(cs);
    var name := Basename(item.filename.value);
    var root := SharedRoot(cwd);
    var full := AbsPath(cwd, PathJoin(SharedFolder, name));
    SharedNameTarget(cs, name);
    assert full == root + [Sep] + name;
    assert StartsWith(full, root) by {
      assert full[..|root|] == root;
    }
    UploadV3Writes(fs, cwd, item);
  }

  /** Once the prefix test passes, the outcome is the write's. */
  lemma UploadV3Writes(fs: FileSystem, cwd: string, item: UploadItem)
    requires Named(item) && Basename(item.filename.value) !in {"", ".", ".."}
    requires StartsWith(AbsPath(cwd, PathJoin(SharedFolder, Basename(item.filename.value))), SharedRoot(cwd))
    ensures var w := WriteFile(fs, AbsPath(cwd, PathJoin(SharedFolder, Basename(item.filename.value))), item.data);
            UploadV3(fs, cwd, Some(OneFile(item)))
            == if w.Ok? then (SeeMain, w.value) else (Send(500, ErrorPageFault(RequestFault)), fs)
  {
    var name := Basename(item.filename.value);
    assert WriteEntry(fs, cwd, SharedFolder, name, item.data)
           == WriteFile(fs, AbsPath(cwd, PathJoin(SharedFolder, name)), item.data);
  }

  // ---------------------------------------------------------------------
  // server_v.1.py: the /upload branch of do_POST

  /** The `/upload` branch of the module-level `do_POST` (lines 105-118): the
      body is read as a URL-encoded form and the value of the first `file`
      field is written, UTF-8 encoded, under its basename in the shared
      folder, through the joined path as it stands. There is no containment
      check and nothing is caught; a missing length reads as 0, so the body
      is empty. */
  function UploadV1(fs: FileSystem, cwd: string, length: ContentLength, body: seq<Byte>): (r: (Response, FileSystem))
    ensures r.0 == SeeMain || r.0 == NoReply
    ensures r.0 == NoReply ==> r.1 == fs
  {
    var data := if length.Absent? then [] else body;
    if length.Malformed? then (NoReply, fs)
    else match Decode(data)
      case None => (NoReply, fs)
      case Some(text) =>
        match QueryValue(text, "file")
        case None => (SeeMain, fs)
        case Some(v) =>
          match WriteEntry(fs, cwd, SharedFolder, Basename(v), Encode(v))
          case Ok(fs') => (SeeMain, fs')
          case Err(_) => (NoReply, fs)
  }

  /** Without any check the write still stays in the shared folder: a
      basename holds no '/', and `..`, the only name that climbs, ends the
      joined path in `/..`, which cannot be opened as a file. */
  lemma UploadV1Confined(fs: FileSystem, cs: seq<string>, length: ContentLength, body: seq<Byte>)
    requires AllPlain(cs)
    ensures var r := UploadV1(fs, Rooted(cs), length, body);
            forall q :: !Within(q, SharedRoot(Rooted(cs))) ==> Same(fs, r.1, q)
  {
    var r := UploadV1(fs, Rooted(cs), length, body);
    if r.1 != fs {
      var cwd := Rooted(cs);
      var data := if length.Absent? then [] else body;
      var v := QueryValue(Decode(data).value, "file").value;
      var name := Basename(v);
      var full := AbsPath(cwd, PathJoin(SharedFolder, name));
      var w := WriteEntry(fs, cwd, SharedFolder, name, Encode(v));
      assert w.Ok? && r.1 == w.value;
      SharedNameTarget(cs, name);
      assert Within(full, SharedRoot(cwd));
    }
  }

  /** The body a browser would post for a `file` field holding `f`. */
  function FileFormBody(f: string): seq<Byte> {
    Encode("file=" + FormEncode(f))
  }

  lemma FileKeyPlain()
    ensures PlainName("file")
  {
    assert IsUnreserved('f') && IsUnreserved('i') && IsUnreserved('l') && IsUnreserved('e');
  }

  lemma FileFieldOf(f: string)
    requires IsAscii(f) && f != ""
    ensures Decode(FileFormBody(f)) == Some("file=" + FormEncode(f))
    ensures QueryValue("file=" + FormEncode(f), "file") == Some(f)
  {
    var v := FormEncode(f);
    DecodeEncode("file=" + v);
    FileKeyPlain();
    FileFieldText(v);
    QueryOfEncoded("file", f);
  }

  /** The field text split at its `=`. */
  lemma FileFieldText(v: string)
    ensures "file=" + v == "file" + "=" + v
  {
  }

  /** What is stored is the field's value, that is the file name itself,
      not the file's content. */
  lemma UploadV1StoresName(fs: FileSystem, cs: seq<string>, f: string)
    requires AllPlain(cs) && IsAscii(f) && Plain(f)
    ensures var body := FileFormBody(f);
            var target := SharedRoot(Rooted(cs)) + [Sep] + f;
            var r := UploadV1(fs, Rooted(cs), Length(|body|), body);
            && (r.0 == SeeMain <==> WriteFile(fs, target, Encode(f)).Ok?)
            && (r.0 == SeeMain ==> IsFile(r.1, target) && r.1[target].content == Encode(f))
  {
    var body := FileFormBody(f);
    FileFieldOf(f);
    assert Basename(f) == f;
    SharedNameTarget(cs, f);
    UploadV1Writes(fs, Rooted(cs), Length(|body|), body, f);
  }

  /** Once the `file` field is found, the outcome is the write's. */
  lemma UploadV1Writes(fs: FileSystem, cwd: string, length: ContentLength, body: seq<Byte>, v: string)
    requires length.Length? && Decode(body).Some? && QueryValue(Decode(body).value, "file") == Some(v)
    ensures var w := WriteEntry(fs, cwd, SharedFolder, Basename(v), Encode(v));
            UploadV1(fs, cwd, length, body) == if w.Ok? then (SeeMain, w.value) else (NoReply, fs)
  {
  }

  /** A `file` value whose basename is empty, `.` or `..` (such as `a/` or
      `.`) makes the joined path end in `/`, `/.` or `/..`; `open` raises and
      the request is left without a reply, whatever the filesystem holds. */
  lemma UploadV1DirectoryName(fs: FileSystem, cwd: string, length: ContentLength, body: seq<Byte>, v: string)
    requires length.Length? && Decode(body).Some? && QueryValue(Decode(body).value, "file") == Some(v)
    requires Basename(v) in {"", ".", ".."}
    ensures UploadV1(fs, cwd, length, body) == (NoReply, fs)
  {
    UploadV1Writes(fs, cwd, length, body, v);
  }
}

=== FILE: utf8.dfy ===
/** UTF-8 as RFC 3629 defines it: what `str.encode('utf-8')` produces and what
    `bytes.decode('utf-8')` (strict) accepts. Text files, request bodies and
    `quote` all go through it. */
module Utf8 {
  import opened Wrappers

  type Byte = b: int | 0 <= b < 256

  /** The encoding of one scalar value: one to four bytes by magnitude. */
  function EncodeChar(c: char): (r: seq<Byte>)
    ensures 1 <= |r| <= 4
    ensures c as int < 0x80 <==> |r| == 1
    ensures c as int < 0x80 ==> r[0] == c as int
  {
    var cp := c as int;
    if cp < 0x80 then [cp]
    else if cp < 0x800 then [0xC0 + cp / 64, 0x80 + cp % 64]
    else if cp < 0x10000 then [0xE0 + cp / 4096, 0x80 + (cp / 64) % 64, 0x80 + cp % 64]
    else [0xF0 + cp / 262144, 0x80 + (cp / 4096) % 64, 0x80 + (cp / 64) % 64, 0x80 + cp % 64]
  }

  function Encode(s: string): (r: seq<Byte>)
    ensures |r| >= |s|
  {
    if |s| == 0 then [] else EncodeChar(s[0]) + Encode(s[1..])
  }

  predicate IsCont(b: Byte) {
    0x80 <= b < 0xC0
  }

  predicate IsScalar(cp: int) {
    0 <= cp < 0xD800 || 0xE000 <= cp < 0x11_0000
  }

  /** The first character of `bs` and how many bytes it took, or `None` when
      `bs` does not start with a well-formed sequence (a stray continuation
      byte, a truncated sequence, an overlong form, a surrogate, or a value
      beyond U+10FFFF). */
  function DecodeChar(bs: seq<Byte>): (r: Option<(char, nat)>)
    ensures r.Some? ==> 1 <= r.value.1 <= |bs| && r.value.1 <= 4
    ensures |bs| > 0 && bs[0] < 0x80 ==> r == Some((bs[0] as char, 1))
  {
    if |bs| == 0 then None
    else
      var b0 := bs[0] as int;
      if b0 < 0x80 then Some((b0 as char, 1))
      else if b0 < 0xC0 then None
      else if b0 < 0xE0 then
        if |bs| < 2 || !IsCont(bs[1]) then None
        else
          var cp := (b0 - 0xC0) * 64 + (bs[1] as int - 0x80);
          if cp < 0x80 then None else Some((cp as char, 2))
      else if b0 < 0xF0 then
        if |bs| < 3 || !IsCont(bs[1]) || !IsCont(bs[2]) then None
        else
          var cp := (b0 - 0xE0) * 4096 + (bs[1] as int - 0x80) * 64 + (bs[2] as int - 0x80);
          if cp < 0x800 || !IsScalar(cp) then None else Some((cp as char, 3))
      else if b0 < 0xF8 then
        if |bs| < 4 || !IsCont(bs[1]) || !IsCont(bs[2]) || !IsCont(bs[3]) then None
        else
          var cp := (b0 - 0xF0) * 262144 + (bs[1] as int - 0x80) * 4096 + (bs[2] as int - 0x80) * 64 + (bs[3] as int - 0x80);
          if cp < 0x1_0000 || !IsScalar(cp) then None else Some((cp as char, 4))
      else None
  }

  /** `bytes.decode('utf-8')`: `None` is the `UnicodeDecodeError`. */
  function Decode(bs: seq<Byte>): (r: Option<string>)
    ensures r.Some? ==> |r.value| <= |bs|
    decreases |bs|
  {
    if |bs| == 0 then Some([])
    else match DecodeChar(bs)
      case None => None
      case Some((c, n)) =>
        match Decode(bs[n..])
        case None => None
        case Some(rest) => Some([c] + rest)
  }

  lemma DecodeTwo(c: char, rest: seq<Byte>)
    requires 0x80 <= c as int < 0x800
    ensures DecodeChar(EncodeChar(c) + rest) == Some((c, 2))
  {
    var cp := c as int;
    var bs := EncodeChar(c) + rest;
    assert bs[0] == 0xC0 + cp / 64 && bs[1] == 0x80 + cp % 64;
    assert (bs[0] as int - 0xC0) * 64 + (bs[1] as int - 0x80) == cp;
  }

  lemma DecodeThree(c: char, rest: seq<Byte>)
    requires 0x800 <= c as int < 0x1_0000
    ensures DecodeChar(EncodeChar(c) + rest) == Some((c, 3))
  {
    var cp := c as int;
    var q := cp / 64;
    assert cp == q * 64 + cp % 64;
    assert q == (q / 64) * 64 + q % 64;
    assert cp / 4096 == q / 64;
    var bs := EncodeChar(c) + rest;
    assert bs[0] == 0xE0 + q / 64 && bs[1] == 0x80 + q % 64 && bs[2] == 0x80 + cp % 64;
    assert (bs[0] as int - 0xE0) * 4096 + (bs[1] as int - 0x80) * 64 + (bs[2] as int - 0x80) == cp;
  }

  lemma DecodeFour(c: char, rest: seq<Byte>)
    requires 0x1_0000 <= c as int
    ensures DecodeChar(EncodeChar(c) + rest) == Some((c, 4))
  {
    var cp := c as int;
    var q := cp / 64;
    var h := q / 64;
    assert cp == q * 64 + cp % 64;
    assert q == h * 64 + q % 64;
    assert h == (h / 64) * 64 + h % 64;
    assert cp / 4096 == h;
    assert cp / 262144 == h / 64;
    var bs := EncodeChar(c) + rest;
    assert bs[0] == 0xF0 + h / 64 && bs[1] == 0x80 + h % 64;
    assert bs[2] == 0x80 + q % 64 && bs[3] == 0x80 + cp % 64;
    assert (bs[0] as int - 0xF0) * 262144 + (bs[1] as int - 0x80) * 4096 == h * 4096;
    assert (bs[0] as int - 0xF0) * 262144 + (bs[1] as int - 0x80) * 4096 + (bs[2] as int - 0x80) * 64 + (bs[3] as int - 0x80) == cp;
  }

  /** Decoding the encoding of a character gives it back and consumes
      exactly its bytes. */
  lemma DecodeEncodeChar(c: char, rest: seq<Byte>)
    ensures DecodeChar(EncodeChar(c) + rest) == Some((c, |EncodeChar(c)|))
  {
    var cp := c as int;
    if cp < 0x80 {
    } else if cp < 0x800 {
      DecodeTwo(c, rest);
    } else if cp < 0x1_0000 {
      DecodeThree(c, rest);
    } else {
      DecodeFour(c, rest);
    }
  }

  /** Round trip: every string survives being written as UTF-8 and read back. */
  lemma {:induction false} DecodeEncode(s: string)
    ensures Decode(Encode(s)) == Some(s)
  {
    if |s| > 0 {
      var e := EncodeChar(s[0]);
      var bs := Encode(s);
      assert bs == e + Encode(s[1..]);
      DecodeEncodeChar(s[0], Encode(s[1..]));
      assert bs[|e|..] == Encode(s[1..]);
      DecodeEncode(s[1..]);
      assert [s[0]] + s[1..] == s;
    }
  }

  /** The encoding of an ASCII string is its list of codes. */
  lemma {:induction false} EncodeAscii(s: string)
    requires forall i :: 0 <= i < |s| ==> s[i] as int < 0x80
    ensures |Encode(s)| == |s|
    ensures forall i :: 0 <= i < |s| ==> Encode(s)[i] == s[i] as int
  {
    if |s| > 0 {
      EncodeAscii(s[1..]);
    }
  }
}

=== FILE: wrappers.dfy ===
/** Failure-carrying values shared by every component of the server model. */
module Wrappers {

  /** A value that may be absent (Python's `None`). */
  datatype Option<+T> = None | Some(value: T) {
    function GetOr(default: T): T {
      match this
      case Some(v) => v
      case None => default
    }
  }

  /** The outcome of an operation that can raise: `Ok` carries the result,
      `Err` the exception the Python code would have raised. */
  datatype Result<+T, +E> = Ok(value: T) | Err(error: E)
}
